=== FILE: README.md ===
# vkrs request/response core in Dafny

This project models the protocol core of `vkrs`, a Rust SDK for the VK HTTP
API. Every endpoint is a request struct stamped out by the `request!` /
`request_ref!` macros. The core is the code those macros generate and the
small tables around it:

- **Query encoding** (`src/macros.rs`). Each field is written as a
  `(wire name, text)` pair by a per-type rule. Booleans are `"1"`/`"0"`.
  Numbers use `to_string`. `Option`s write nothing for `None`. Lists are
  comma-joined. Enums use their `as_ref` text. `qs!` drops every pair whose
  text is empty, and the constant parameters (`v=5.44`, …) follow the
  fields. `request_ref!` lists sized fields before unsized ones. The builder
  (`new()` and one setter per field), `permissions()` and the two-way
  `enum_str!` string table are modelled generically too.
  - `Query.Decl` is one generic request descriptor: method name, constant
    parameters, declared permission flags, and field layout.
  - A request value is a `Query.Record`, one `FieldValue` per field.
  - The endpoint modules supply concrete descriptors.
- **Permission scopes** (`src/auth.rs`).
  - The 21 `Permission` flags, with their masks and names.
  - The masking constructor `Permissions::new` and the unmasked `From` /
    `FromIterator` paths.
  - Rendering to a comma list in `PERMISSIONS` order, and fail-fast parsing
    of such a list.
- **Tokens** (`src/auth.rs`).
  - Reading the token endpoint's answer, which gives
    `expires_in > 0` → an absolute expiry and anything else → none.
    Members are looked up as `Json::find` does, so a repeated member counts
    with its last value.
  - `expired()`, as a comparison with the current time.
  - The serde form of the lifetime.
- **Error codes and the envelope** (`src/api.rs`).
  - The total map from `u32` to `VkErrorCode` and back.
  - The `Display` texts.
  - The derived `Deserialize` of `KeyVal` and `VkError`. From an object it
    reads the entries in document order and stops at the first mistyped value
    or repeated member. Once the object is read, it reports the first missing
    member. From an array it fills the members by position.
  - The `VkResult` visitor, which reads the first key of the response object
    and decodes either a payload or a `VkError`.
- **Endpoints** (`src/users.rs`, `src/video.rs`, `src/photos.rs`,
  `src/gifts.rs`).
  - Their enum tables and decoders.
  - The request instances whose encoding shows something: default queries,
    wire names that differ from field names, constants order, permissions.

The model is pure. Datatypes stand for the Rust types and total functions for
their code. JSON is an abstract value whose objects are ordered key/value
lists. The clock is a parameter `now`: whole seconds since the epoch plus
nanoseconds. An integer width appears only where the code depends on it: the
`u8`/`u32`/`u64` range checks of serde's decoders, the casts across signedness
of rustc_serialize's `as_i64` and `as_u64`, and the `u64 as i64` cast of the
lifetime's serde form.

Modules, one file each:

| module | file |
|---|---|
| `Wrappers` | `wrappers.dfy` |
| `Seqs` | `seqs.dfy` |
| `Text` | `text.dfy` |
| `Json` | `json.dfy` |
| `EnumStr` | `enumstr.dfy` |
| `Scopes` | `scopes.dfy` |
| `Token` | `token.dfy` |
| `Query` | `query.dfy` |
| `Api` | `api.dfy` |
| `UserFields` | `user_fields.dfy` |
| `Users` | `users.dfy` |
| `Video` | `video.dfy` |
| `Photos` | `photos.dfy` |
| `Gifts` | `gifts.dfy` |

## Model

| member | source | states |
|---|---|---|
| `Query.Render` | src/macros.rs:11-54 | A value's text is empty exactly when the value is blank: an empty string, an empty list, `None`, or `Some("")`. Booleans and integers are never blank. |
| `Query.DecodeRender` | src/macros.rs:11-54 | Writing loses nothing. A value reads back from its text as itself, provided no list item holds a comma, no list is the single empty text, and no option is `Some("")`. |
| `Query.AlwaysSent` | src/macros.rs:18-33 | The pair of a boolean or integer field is always sent. |
| `Query.Zero` | src/macros.rs:56-61 | `Default::default()` of each kind has that kind. It is blank for every kind except booleans and integers. |
| `Query.FieldPairs` | src/macros.rs:114-119 | One `(wire name, text)` pair per field, in field order. |
| `Query.KeepNonEmpty` | src/macros.rs:3-8 | Keeps, in order, exactly the pairs with a non-empty value (a subsequence that holds every non-empty pair). |
| `Query.KeepNonEmptyCounts` | src/macros.rs:3-8 | The filter keeps each pair with a non-empty value exactly as many times as it occurs, and drops every pair with an empty value. |
| `Query.KeepAppend` | src/macros.rs:3-8 | The filter distributes over concatenation. |
| `Query.Query` | src/macros.rs:114-119 | The query is a subsequence of the field pairs followed by the constants, and it holds no empty value. |
| `Query.QueryConstsLast` | src/macros.rs:114-119 | The query is the non-empty field pairs followed by every constant, in declaration order. |
| `Query.QueryFields` | src/macros.rs:114-119 | The query, spelled out field by field, each field's pair present exactly when its text is non-empty. |
| `Query.Query3` | src/macros.rs:114-119 | The same, written out for a three-field request. |
| `Query.QueryBorrowingOrder` | src/macros.rs:487-488 | For `request_ref!`: the sized fields' kept pairs, then the unsized fields' kept pairs, then the constants. |
| `Query.FieldSentIff` | src/macros.rs:3-8 | A field's pair is in the query exactly when its value is not blank. |
| `Query.BlankNotSent` | src/macros.rs:3-8 | A blank field whose wire name nothing else uses leaves no pair of that name. |
| `Query.New` | src/macros.rs:72-76 | `new()` sets each field to its declared initial value, or to `Default::default()` when the declaration gives `()`. |
| `Query.NewQuery` | src/macros.rs:72-76 | A fresh request sends the non-blank initial values in field order, then the constants. |
| `Query.DefaultQueryIs` | src/macros.rs:72-76 | A fresh request sends the given pairs plus the constants, once those pairs are what its defaults send. |
| `Query.DefaultFieldSent` | src/macros.rs:56-61 | A field left at `Default::default()` is sent as `"0"` if it is a boolean or integer, and is not sent otherwise. |
| `Query.FieldIndex` | src/macros.rs:81-99 | The setter named `name` exists exactly when some field has that name, and it addresses that field. |
| `Query.Set` | src/macros.rs:81-99 | A setter gives its field the new value and leaves every other field as it was. |
| `Query.SetCommutes` | src/macros.rs:81-99 | Setters of two different fields commute. |
| `Query.SetOverrides` | src/macros.rs:81-99 | A second call of the same setter overrides the first. |
| `Query.SetChangesOnePair` | src/macros.rs:81-99 | A setter changes only its own field's pair. |
| `Query.RequestPermissions` | src/macros.rs:113 | `permissions()` holds exactly the declared flags that are official, and it stays within `mask_all`. |
| `Query.NoFlagsNoPermissions` | src/macros.rs:113 | A request declaring no flags asks for the empty set. |
| `EnumStr.AsRef` | src/macros.rs:519-525 | `as_ref` of a declared variant is the text of that variant's row. |
| `EnumStr.FromStr` | src/macros.rs:527-535 | `from_str` succeeds exactly when some row has that text, and then returns that row's variant. |
| `EnumStr.FromStrAsRef` | src/macros.rs:519-535 | With distinct texts, every variant's text parses back to that variant. |
| `EnumStr.AsRefFromStr` | src/macros.rs:519-535 | Whatever parses is its variant's text. A string that is no row's text is an error. |
| `EnumStr.Deserialize` | src/macros.rs:537-553 | serde reads the strings that `from_str` accepts, and reports anything else as "unexpected value". |
| `Text.IntToStringRoundTrip` | src/macros.rs:18-21 | `to_string` of an integer reads back as that integer. |
| `Text.Join` | src/macros.rs:42-45 | The join is empty exactly for no pieces or one empty piece. With two or more pieces, it holds the separator. |
| `Text.SplitJoin` | src/auth.rs:263-268 | Splitting a join gives back separator-free pieces. |
| `Text.JoinSplit` | src/auth.rs:263-268 | Joining the pieces of a split gives back the string. |
| `Text.Trim` | src/auth.rs:263-268 | `trim` leaves no whitespace at either end, and leaves an already trimmed string unchanged. |
| `Text.TrimSlice` | src/auth.rs:263-268 | `trim` gives a contiguous slice of the string, and everything it cuts off on either side is whitespace. |
| `Scopes.Mask` | src/auth.rs:181-183 | Each flag's mask is a single bit. |
| `Scopes.BitIndex` | src/auth.rs:130-152 | Each flag's discriminant is a bit below 32. |
| `Scopes.FlagAtBitIndex` | src/auth.rs:130-152 | The bit identifies the flag. |
| `Scopes.BitIndexInjective` | src/auth.rs:130-152 | Distinct flags have distinct bits. |
| `Scopes.OfficialBit` | src/auth.rs:185-187 | A flag's bit is in `mask_all` exactly when the flag is one of the 19 official ones. |
| `Scopes.MaskAllIsOfficialFlags` | src/auth.rs:185-187 | `mask_all` is exactly the bits of the official flags. `Offline` and `NoHttps` lie outside it. |
| `Scopes.FromStrToStr` | src/auth.rs:189-246 | Every flag's name parses back to that flag. |
| `Scopes.ToStrFromStr` | src/auth.rs:217-246 | Whatever parses is that flag's name. A string that names no flag is an error. |
| `Scopes.NameShape` | src/auth.rs:189-214 | Names are non-empty, comma-free and already trimmed. |
| `Scopes.New` | src/auth.rs:252-254 | `Permissions::new` keeps exactly the official flags of its argument and drops every other bit. |
| `Scopes.NewIdempotent` | src/auth.rs:252-254 | Masking twice is masking once. |
| `Scopes.NewDropsUnofficial` | src/auth.rs:252-254 | `new` of `Offline`'s or `NoHttps`'s mask is empty. |
| `Scopes.Extensionality` | src/auth.rs:249-254 | Two sets made only of flag bits are equal when they hold the same flags. |
| `Scopes.FromPermission` | src/auth.rs:270-274 | `From<Permission>` holds that flag and no other, unmasked. |
| `Scopes.FromIter` | src/auth.rs:288-298 | `FromIterator<Permission>` holds exactly the listed flags, unmasked. |
| `Scopes.FromInts` | src/auth.rs:282-286 | `FromIterator<i32>` is the bitwise OR of the integers, unmasked. |
| `Scopes.UnmaskedPathsKeepUnofficial` | src/auth.rs:270-298 | `Offline` and `NoHttps` survive the unmasked paths, and `new` drops them. |
| `Scopes.ToVec` | src/auth.rs:306-315 | The set's flags, in `PERMISSIONS` order. |
| `Scopes.Names` | src/auth.rs:317-326 | The names of the flags, position by position. |
| `Scopes.RenderEmptyIff` | src/auth.rs:300-304 | A set renders as "" exactly when it holds no flag. |
| `Scopes.ParseTokens` | src/auth.rs:263-268 | Succeeds exactly when every trimmed token names a flag, and then yields those flags in token order. |
| `Scopes.Parse` | src/auth.rs:263-268 | Parsing succeeds exactly when every comma-separated trimmed token names a flag. |
| `Scopes.ParseEmptyFails` | src/auth.rs:263-268 | "" does not parse, so the empty set does not survive a round trip. |
| `Scopes.ParseRender` | src/auth.rs:263-268 | Rendering a non-empty set of flags and parsing the text gives the set back. |
| `Scopes.ParseNamedFlags` | src/auth.rs:263-268 | A parsed set holds exactly the flags some trimmed token names, whatever order, repetition or spacing the text used. |
| `Token.ExpiredStays` | src/auth.rs:67-71 | Once expired, a lifetime stays expired as time goes on. |
| `Token.NoExpiryNeverExpires` | src/auth.rs:67-71 | A lifetime without an expiry never expires. |
| `Json.Find` | src/auth.rs:42 | `Json::find` finds a member exactly when the value is an object with an entry of that name. It gives the value of the last such entry, as rustc_serialize's `BTreeMap` keeps it. |
| `Json.FindLastOf` | src/auth.rs:42 | Conversely, the last entry with a name is the one found. |
| `Json.FindAppend` | src/auth.rs:42 | An entry appended to an object overrides the earlier ones of its name and leaves other names alone. |
| `Json.WrapU64` | src/auth.rs:55-57 | `n as u64` of an `i64` is in the `u64` range and congruent to it modulo 2^64. |
| `Json.AsI64` | src/auth.rs:42-43 | `Json::as_i64` reads every integer rustc_serialize parses (from -2^63 up to 2^64): the `i64` in range congruent to it modulo 2^64, so that a number from 2^63 on reads as negative. Anything else reads as nothing. |
| `Json.AsU64` | src/auth.rs:55-57 | `Json::as_u64` reads every integer rustc_serialize parses: the `u64` congruent to it modulo 2^64, so that a negative number reads as 2^64 plus it. Anything else reads as nothing. |
| `Json.CastsWrap` | src/auth.rs:42-57 | 2^63 reads as -2^63 and 2^64 - 1 as -1 through `as_i64`; -1 reads as 2^64 - 1 and -2^63 as 2^63 through `as_u64`. |
| `Token.AddSeconds` | src/auth.rs:45 | `t + Duration::seconds(d)` moves the seconds by `d` and keeps the nanoseconds. |
| `Token.LifetimeFromResponse` | src/auth.rs:40-49 | An `expires_in` that is missing, or that `as_i64` does not read, is the error `ExpectedFieldType("expires_in", "i64")`. A positive value, after `as_i64`'s cast, gives an expiry that many seconds after `now`, with `now`'s nanoseconds. Zero or less gives none. The date-range panics of chrono are not modelled. |
| `Token.FreshLifetime` | src/auth.rs:40-71 | A lifetime read at `now` is not expired at `now`. With a positive `expires_in` it is expired at exactly the instants from `now + expires_in` on. |
| `Token.HugeExpiresInNeverExpires` | src/auth.rs:40-49 | An `expires_in` of 2^63 is cast to a negative `i64`, so the lifetime has no expiry. |
| `Token.LastExpiresInCounts` | src/auth.rs:40-49 | Of a repeated `expires_in`, the last one counts: 5 then 0 gives no expiry, and 0 then 5 gives one 5 seconds after `now`. |
| `Token.TokenFromResponse` | src/auth.rs:51-65 | `user_id` (through `as_u64`, with its cast) is read first, then `access_token` (string), then the lifetime, and the first failure is the error. `email` is kept when it is a string. Each member is the last entry of its name. |
| `Token.NegativeUserIdWraps` | src/auth.rs:51-65 | A `user_id` of -1 is cast to 2^64 - 1, and the token reads. |
| `Token.LastUserIdCounts` | src/auth.rs:51-65 | A mistyped `user_id` followed by a `u64` one reads, with the later id. |
| `Token.LastUserIdRefused` | src/auth.rs:51-65 | A `u64` `user_id` followed by a mistyped one is the `user_id` error. |
| `Token.FreshToken` | src/auth.rs:85-89 | A token read at `now` is not expired at `now`. |
| `Token.LifetimeToJson` | src/auth.rs:28-32 | The serde form is null exactly when there is no expiry. Otherwise it is the expiry's `timestamp()`: the whole second at or before the expiry, with the next second after it. |
| `Json.WrapI64` | src/auth.rs:20-26 | `ts as i64` is in the `i64` range and congruent to the `u64` modulo 2^64. |
| `Token.LifetimeFromJson` | src/auth.rs:20-26 | serde's `Option<u64>` accepts exactly null or an integer in the `u64` range; anything else is a type error. The date-range panic of chrono is not modelled. |
| `Token.WholeSeconds` | src/auth.rs:22-30 | Dropping the nanoseconds keeps whether there is an expiry and its second, and sets the nanoseconds to zero. |
| `Token.LifetimeJsonRoundTrip` | src/auth.rs:20-32 | For no expiry and every expiry from the epoch up to the `i64` limit, the serde form reads back as the same second with zero nanoseconds. It gives the very lifetime back exactly when there is no expiry or its nanoseconds are zero. |
| `Token.ResponseLifetimeLosesNanos` | src/auth.rs:15-48 | A lifetime read from the token endpoint at a clock reading with nanoseconds compares unequal, by the derived `PartialEq`, to what its serde form reads back as. |
| `Token.NegativeExpiryUnreadable` | src/auth.rs:20-32 | An expiry before the epoch is written as a negative number, which the reader rejects. |
| `Api.FromCode` | src/api.rs:106-122 | Named codes give named kinds. Other codes in 100..=999 give `App(c)`. Every other code gives `Unknown(c)`. |
| `Api.ToCode` | src/api.rs:123-139 | `App` and `Unknown` give back their stored code. |
| `Api.CodeRoundTrip` | src/api.rs:106-139 | `into(from(c)) == c` for every `u32`, and `from` only gives canonical kinds. |
| `Api.KindRoundTrip` | src/api.rs:106-139 | `from(into(k)) == k` exactly when `k` is canonical. Canonical means a named kind, `App` inside 100..=999 on an unnamed code, or `Unknown` outside both. |
| `Api.Describe` | src/api.rs:141-157 | Every kind has a non-empty description. |
| `Api.DescribeInjective` | src/api.rs:141-157 | Different kinds are described differently, including "application error #v" and "unknown error #v". |
| `Api.DisplayError` | src/api.rs:171-175 | A `VkError` displays as its code's description, ": ", then the message. |
| `Api.DescribeNoColon` | src/api.rs:141-157 | No description contains a colon. |
| `Api.DisplayErrorParts` | src/api.rs:171-175 | The displayed text splits back at its first colon: the description comes before it, the message after ": ". |
| `Api.DisplayErrorInjective` | src/api.rs:171-175 | Two errors that display alike have the same kind and the same message. |
| `Json.ReadStructAccepts` | src/api.rs:73-90 | The derived `Deserialize` of a struct succeeds exactly when every member's value reads, no member is given twice, and none is absent. Each member then has the value of its entry. Unknown keys are skipped. |
| `Json.ReadStructRefuses` | src/api.rs:73-90 | A refusal names the first problem the derived visitor meets. In document order this is a value its member's reader rejects or a member given twice. Once the map is read, it is the first absent member in declaration order. |
| `Json.VisitEntriesStops` | src/api.rs:73-90 | Entries after the first refused one are never read. |
| `Json.ReadStructExact` | src/api.rs:73-90 | An object giving each member once, in declaration order and readable, reads to exactly those values. |
| `Api.ReadKeyValAccepts` | src/api.rs:73-77 | A pair object is read exactly when `key` and `value` are each given once and are strings. The pair holds those strings. |
| `Api.ReadKeyValRefuses` | src/api.rs:73-77 | A refused pair object is refused for the first problem in document order, or for its first absent member. |
| `Api.ReadKeyVals` | src/api.rs:89 | The echoed request parameters are read one object per item, in order. The list is read exactly when every item is. Otherwise the error is the first failing item's error. |
| `Api.KeyValsRoundTrip` | src/api.rs:73-77 | A list of key/value pairs written as JSON reads back as itself. |
| `Json.ReadTuple` | src/api.rs:73-90 | The derived `Deserialize` of a struct from an array succeeds exactly when the array has one element per member and each element reads as its member, and it then gives the elements. A refusal is the first problem in position order: a rejected element, the end of a short array (an invalid length carrying the element count), or an element past the last member (trailing characters). |
| `Json.ReadDerived` | src/api.rs:73-90 | A value that is neither an object nor an array is the struct's type error. A result holds one value per member, each readable as that member. |
| `Api.ReadVkError` | src/api.rs:159-163 | A value that is neither an object nor an array is a type error. A read error's kind is canonical, as `From<u32>` makes it. |
| `Api.ReadKeyValArray` | src/api.rs:73-77 | A pair array is read exactly when it holds two strings, and gives the key then the value. Otherwise the refusal is the first problem in position order. |
| `Api.ReadVkErrorArray` | src/api.rs:85-90 | An error array is read exactly when it holds a `u32` code, a string message and a sequence of pairs, in that order. It gives the error built from them. Otherwise the refusal is the first problem in position order. |
| `Api.ReadVkErrorPositional` | src/api.rs:85-90 | Concrete cases. `[5, "m", []]` reads as an `Unauthorized` error with message "m". A two-element array is an invalid length of 2. A four-element array has trailing characters. A mistyped second element is the string type error. |
| `Api.ReadVkErrorAccepts` | src/api.rs:85-90 | An error object is read exactly when `error_code` is a `u32`, `error_msg` a string and `request_params` a sequence of pairs, each given once. Unknown members are skipped. |
| `Api.ReadVkErrorMembers` | src/api.rs:85-90 | A read error holds what its object gives. The object's `error_code` is the integer of the error's code, `error_msg` is its message, and `request_params` reads to its parameters. |
| `Api.ReadVkErrorRefuses` | src/api.rs:85-90 | A refused error object is refused for the first problem in document order, and only then for its first absent member in declaration order. |
| `Api.ReadVkErrorDocumentOrder` | src/api.rs:85-90 | Concrete cases. A mistyped `error_msg` ahead of the code is the string type error, whether the code is missing or mistyped after it. A lone message is the missing field `error_code`. A repeated code is a duplicate field. |
| `Api.VkErrorRoundTrip` | src/api.rs:85-90 | An error with a canonical code, written as the API writes it, reads back as itself. |
| `Api.ReadEnvelopeKey` | src/api.rs:40-45 | "response" and "error" are the two keys. Any other key is the syntax error "expected response or error". |
| `Api.ReadEnvelope` | src/api.rs:53-71 | Only the first key counts. "response" gives `Ok` of the payload and "error" gives `Err` of the `VkError`. An empty object is the missing field "response or error". A failing inner decoder is an outer decode error, never an API error. |
| `Api.EnvelopeRoundTrip` | src/api.rs:53-71 | An envelope written as the API writes it reads back as the same result, whenever the payload decoder inverts its writer. |
| `UserFields.RowsWellFormed` | src/users.rs:21-74 | The 51 `UserOptionField` rows have distinct texts and distinct variants. Every text is non-empty and comma-free. |
| `UserFields.Row` | src/users.rs:21-74 | Every variant has a row. |
| `UserFields.RoundTrip` | src/users.rs:21-74 | Field names round-trip through `as_ref`/`from_str`, and unknown names are rejected. |
| `Users.NameCasesDistinct` | src/users.rs:12-19 | The name-case table has no repeated text or variant. |
| `Users.NameCaseRoundTrip` | src/users.rs:12-19 | Name cases round-trip, and unknown strings are rejected. |
| `Users.ReportKindRoundTrip` | src/users.rs:327-332 | Report kinds round-trip, and unknown strings are rejected. |
| `Users.AdsSpelling` | src/users.rs:327-332 | `Ads` is written "advertisment", as declared. |
| `Users.ReadSex` | src/users.rs:247-277 | A non-`u8` is a type error. 0, 1 and 2 give the variant with that code. Larger bytes give "integer value in range 0...2 expected". |
| `Users.SexRoundTrip` | src/users.rs:247-277 | Each variant's code decodes to it, and its `as_ref` is that code in decimal. |
| `Users.ReadStatus` | src/users.rs:279-325 | A non-`u8` is a type error. 0 to 7 give the variant with that code. Larger bytes give "integer value in range 0...7 expected". |
| `Users.StatusRoundTrip` | src/users.rs:279-325 | Each variant's code decodes to it, and its `as_ref` is that code in decimal. |
| `Users.RadiusTextIsCode` | src/users.rs:212-230 | A radius is sent as its discriminant 1..4 in decimal, and distinct radii are sent differently. |
| `Users.SortTextIsCode` | src/users.rs:232-245 | A sort order is sent as its discriminant in decimal. |
| `Users.FieldListReadable` | src/users.rs:76-86 | A list of profile fields is sent as one comma-joined value that reads back as the same list. It is non-empty when the list is. |
| `Users.GetQuery` | src/users.rs:76-86 | `users.get` sends `name_case`, `user_ids`, `fields` (each only when non-empty), then `v=5.44`. |
| `Users.GetDefaultQuery` | src/users.rs:76-86 | A fresh `users.get` sends `name_case=nom` and `v=5.44`. |
| `Users.SearchDefaultsAreEnums` | src/users.rs:88-136 | The defaults of `sort`, `sex` and `status` are the `as_ref` texts of `Rating`, `Any` and `Unspecified`. |
| `Users.SearchDefaultQuery` | src/users.rs:88-136 | A fresh `users.search` sends sort, sex, status, online, has_photo and offset as "0", then count=100 and v=5.44. Every `Option` and empty-string field is dropped. |
| `Users.IsAppUserDefaultQuery` | src/users.rs:138-142 | A fresh `users.isAppUser` sends `user_id=0` and `v=5.44`. |
| `Users.GetSubscriptionsDefaultQuery` | src/users.rs:144-155 | A fresh `users.getSubscriptions` sends user_id, offset and count, then `v=5.44` and `extended=1`. |
| `Users.ReportQuery` | src/users.rs:171-181 | `users.report` sends the `kind` field under the wire name `type`, between `user_id` and `comment`. |
| `Users.ReportSendsUser` | src/users.rs:171-181 | `user_id` is always the first pair of a report. |
| `Users.ReportDefaultQuery` | src/users.rs:171-181 | A fresh report sends `user_id=0`, `type=spam`, `v=5.44`. |
| `Users.ReportDefaultKind` | src/users.rs:171-181 | The default kind is the `as_ref` text of `Spam`. |
| `Video.PrivacyTextIsCode` | src/video.rs:546-564 | A privacy level is sent as its discriminant 0..3 in decimal: never empty, and distinct levels are sent differently. |
| `Video.FilterRoundTrip` | src/video.rs:566-571 | Search filters round-trip, and unknown strings are rejected. |
| `Video.CatalogBlockKindRoundTrip` | src/video.rs:149-152 | Catalog block kinds round-trip, and serde rejects every other string. |
| `Video.CatalogItemKindRoundTrip` | src/video.rs:154-157 | Catalog item kinds round-trip, and serde rejects every other string. |
| `Video.FilterTextsJoined` | src/video.rs:188 | `[YouTube, Long]` is sent as "youtube,long". |
| `Video.NoFiltersBlank` | src/video.rs:188 | An empty filter list is blank, so it is not sent. |
| `Video.FilterListReadable` | src/video.rs:188 | Any filter list is sent as one value that reads back as the same list. |
| `Video.SearchFiltersSent` | src/video.rs:174-192 | A non-empty filter list is sent as its comma-joined names. |
| `Video.SearchFiltersDropped` | src/video.rs:174-192 | With no filters, `video.search` sends no `filters` pair. |
| `Video.SearchDefaultQuery` | src/video.rs:174-192 | A fresh `video.search` sends sort (when its text is non-empty), hd, adult and search_own as "0", offset=0, count=30, then v=5.44. |
| `Video.AddAlbumQuery` | src/video.rs:287-298 | `video.addAlbum` sends group_id, privacy and title when non-empty, then v=5.44. |
| `Video.AddAlbumPrivacySent` | src/video.rs:287-298 | Any privacy level set on an album is sent. |
| `Video.AddAlbumStartsOnlyMe` | src/video.rs:292 | A new album's privacy starts as `OnlyMe`. |
| `Video.AddAlbumDefaultQuery` | src/video.rs:287-298 | A fresh `video.addAlbum` sends privacy=3 and v=5.44. |
| `Video.EditAlbumPrivacy` | src/video.rs:300-312 | `None` privacy sends no `privacy` pair, and `Some(p)` sends p's code. |
| `Video.EditAlbumDefaultQuery` | src/video.rs:300-312 | A fresh `video.editAlbum` sends album_id=0 and v=5.44. |
| `Video.SaveDefaultQuery` | src/video.rs:221-240 | A fresh `video.save` sends is_private=1 and the other switches and ids as "0", then v=5.44. |
| `Video.GetUserVideosQuery` | src/video.rs:259-266 | `video.getUserVideos` sends user_id when non-empty, always offset and count, then v=5.44 and extended=0. |
| `Video.VideoPermissions` | src/video.rs:287-312 | addAlbum, editAlbum, save and getUserVideos ask for exactly the `video` flag. |
| `Photos.Discriminant` | src/photos.rs:570-584 | Each thumbnail kind's `u8` discriminant is the ASCII code of its letter. |
| `Photos.ReadThumbKind` | src/photos.rs:586-607 | Only one-character strings decode. Anything else is the invalid value "album size type". |
| `Photos.ReadThumbKindIff` | src/photos.rs:586-607 | A string decodes exactly when it is one of the nine letters, and it decodes to the kind of that letter. |
| `Photos.LettersDistinct` | src/photos.rs:570-584 | Letters, and so discriminants, identify the kind. |
| `Photos.SortTextIsCode` | src/photos.rs:646-667 | An order is written as its discriminant, and the default order `Popularity` is written "1". |
| `Photos.CreateAlbumDefaultQuery` | src/photos.rs:4-21 | A fresh `photos.createAlbum` sends upload_by_admins_only=0, comments_disabled=0 and v=5.45. |
| `Photos.PhotosPermissionBits` | src/photos.rs:4-21 | createAlbum (src/photos.rs:6), getAll (src/photos.rs:343) and putTag (src/photos.rs:492) ask for the single bit 2, the mask 4 of `Photos`. |
| `Photos.PhotosPermissions` | src/photos.rs:4-21 | Those three requests, declared `[Photos]` at the lines above, hold exactly the `photos` flag. |
| `Photos.GetAlbumsDefaultQuery` | src/photos.rs:43-58 | A fresh `photos.getAlbums` drops owner_id and album_ids and sends need_system, need_covers, photo_sizes, offset as "0", count=100, then v=5.45. It asks for no permissions. |
| `Photos.GetAlbumsPhotoSizes` | src/photos.rs:43-58 | `photo_sizes` is a boolean, so it is always sent, as "1" or "0". |
| `Photos.GetConstsLast` | src/photos.rs:60-77 | `photos.get` sends its non-empty fields, then v=5.45, then photo_sizes=1. |
| `Photos.GetDefaultQuery` | src/photos.rs:60-77 | A fresh `photos.get` sends rev, extended and offset as "0", count=100, then the two constants. |
| `Photos.GetAllConstsLast` | src/photos.rs:341-352 | `photos.getAll` sends its non-empty fields, then v=5.45, then photo_sizes=1. |
| `Photos.GetAllDefaultQuery` | src/photos.rs:341-352 | A fresh `photos.getAll` sends extended=0, offset=0, count=20 and its three switches as "0", then the constants. |
| `Photos.PutTagQuery` | src/photos.rs:490-501 | Of the non-coordinate pairs, the request declared as "video.putTag" sends owner_id when given, always user_id and photo_id, then v=5.44. The four f32 coordinates, which the source sends between photo_id and v, are not modelled. |
| `Gifts.Code` | src/gifts.rs:11-16 | Privacy discriminants are 0 to 2. |
| `Gifts.ReadPrivacy` | src/gifts.rs:18-30 | A non-`u32` is a type error. 0, 1 and 2 decode to `Pubclic`, `SenderNameOnly` and `Private`. |
| `Gifts.PrivacyRoundTrip` | src/gifts.rs:18-30 | Each variant's code decodes to it. |
| `Gifts.GetQuery` | src/gifts.rs:32-39 | `gifts.get` sends user_id, count and offset when given, then v=5.44. |
| `Gifts.GetDefaultQuery` | src/gifts.rs:32-39 | A fresh `gifts.get` sends only v=5.44. |
| `Gifts.SetCount` | src/gifts.rs:32-39 | Setting `count` changes that field and keeps the other two. |
| `Gifts.SetCountQuery` | src/gifts.rs:32-39 | After `count(Some(n))`, exactly one pair `count=n` is sent, between user_id and offset. |

## Left out

- The `OAuth` type and the `Auth` provider (src/auth.rs:91-123) are left out. They are thin wrappers over an external OAuth2 crate and HTTP client. Building the authorize URL and exchanging the code happen in code that is not part of this model.
- The HTTP transport and the base URLs are left out. The model stops at the list of query pairs.
- Percent-escaping and `&`/`=` joining are left out. `url::form_urlencoded::serialize` escapes and joins `Query.Query`'s pairs, and that byte-level step is not modelled.
- The serde and rustc_serialize machinery is replaced by `Json.Value`, an abstract value whose objects are ordered key/value lists. rustc_serialize's parser keeps the last of repeated keys, and `Json.Find` takes the last. The derived struct visitor follows serde's `#[derive(Deserialize)]`. For an object (`Json.ReadStruct`), entries are read in document order, and the first mistyped value is the error. A member given twice is `duplicate_field`, unknown keys are skipped, and missing members are reported after the map in declaration order. For an array (`Json.ReadTuple`), which serde_json hands to the derived `visit_seq`, the elements fill the members by position. The serde version the crate builds against is not part of this model, so this behaviour is serde's documented derive, not a reading of its code. Which error a short array raises differs between serde releases (end of stream in early ones, invalid length later). The model records it as an invalid length carrying the element count, at the same point in the read. `Api.ReadEnvelope` ignores the entries after the envelope's first key.
- The clock is not modelled. `UTC::now()` (src/auth.rs:45, src/auth.rs:69) becomes the parameter `now`, an instant of whole seconds and nanoseconds. chrono's leap-second representation (nanoseconds from 10^9 on) is not modelled.
- f32 fields are dropped from the encoding model because they are floating point. The instance here is the coordinates of `PutTag` (src/photos.rs:496-499).
- Only the endpoints whose encoding says something are modelled. Other requests such as `video.get` and `photos.editAlbum` are the same generic descriptor with other data.
- `api::Sort` is not part of this model. `video.search`'s `sort` default is therefore the parameter `popularity`.
- The `Id`/`OwnerId` types are not part of this model. Identifiers and numeric fields are unbounded integers written by `to_string`. The fields' own widths (`u8`, `u16`, `usize`) are not modelled, because their values only enter through the typed setters.
- `Query.FieldValue`'s list kinds hold integers or strings only. The source has lists of other `ToString` types, which are written the same way.
- `src/lib.rs:13-18` declares no `users` or `gifts` module, so those files are not compiled. They are still modelled as written.
- `api::Request` (src/api.rs:15-17) declares a different trait from the one the macros implement (src/macros.rs:111-118). The model follows the macros. The method name is the `method` field of `Query.Decl`, and `Photos.PutTag`'s is "video.putTag", as declared.
- `photos.getMarketUploadServer` is left out. It names a `Market` flag (src/photos.rs:126) that `Permission` (src/auth.rs:130-152) does not define.
- The permission mask is the set of its bit positions, not an `i32` or `bv32`. `NoHttps` is bit 31, the sign bit of `0x8000_0000 as i32`. A raw integer's stray bits are arbitrary naturals here, which `Scopes.New` drops like the source's `& mask_all()`.
- Gifts.ReadPrivacy: requires that a `u32` input is at most 2. The source hits `unreachable!()` (src/gifts.rs:26) on larger values, so it has no result for them.
- Token.LifetimeFromJson: returns a lifetime for every `u64`. chrono's `NaiveDateTime::from_timestamp` (src/auth.rs:22) panics when the cast timestamp lies outside chrono's date range of about ±262,000 years. One example is 10^13. The model has no panic outcome, and chrono is not part of this model.
- Token.LifetimeFromResponse: adds `expires_in` to `now` as unbounded integers. `UTC::now() + Duration::seconds(expires_in)` (src/auth.rs:44) panics when the duration or the sum leaves chrono's range, for example with `expires_in` = 2^62. The model has no panic outcome.
- Token.LifetimeJsonRoundTrip: holds only for expiries from the epoch up to the `i64` limit. Negative timestamps are written as negative numbers that the `u64` reader refuses (`Token.NegativeExpiryUnreadable`). Token expiries in practice lie after the current time. Within that range, what reads back has the expiry's nanoseconds dropped, since `timestamp()` writes whole seconds (`Token.ResponseLifetimeLosesNanos`).
- Scopes.ParseRender: holds only for non-empty sets. The empty set renders as "", and "" does not parse (`Scopes.ParseEmptyFails`).
- Video.SearchDefaultQuery: states the `sort` pair in terms of the `popularity` parameter, because `api::Sort` is not part of this model.

=== FILE: api.dfy ===
/** The API error taxonomy and the response envelope (src/api.rs). Every
    answer of the VK API is an object whose first key says what it holds:
    `response` (the payload) or `error` (a `VkError` with a numeric code). */
module Api {
  import opened Wrappers
  import Text
  import Json

  /** Rust's `u32`. */
  newtype U32 = n: int | 0 <= n < 0x1_0000_0000

  /** `VkErrorCode`: eight named codes, the application range, anything else. */
  datatype ErrorCode =
    | General
    | Database
    | Unauthorized
    | Signature
    | Request
    | GoodsNotFound
    | GoodsUnvailable
    | UserNotFound
    | App(v: U32)
    | Unknown(v: U32)

  /** The codes that have a name of their own. */
  predicate NamedCode(c: U32) {
    c == 1 || c == 2 || c == 5 || c == 10 || c == 11 || c == 20 || c == 21 || c == 22
  }

  /** `100...999`, the codes an application defines. */
  predicate AppCode(c: U32) {
    100 <= c <= 999
  }

  /** `From<u32>`: total; the named codes first, then the application range. */
  function FromCode(c: U32): (r: ErrorCode)
    ensures NamedCode(c) <==> !r.App? && !r.Unknown?
    ensures r.App? <==> AppCode(c)
    ensures r.Unknown? <==> !NamedCode(c) && !AppCode(c)
    ensures r.App? || r.Unknown? ==> r.v == c
  {
    match c
    case 1 => General
    case 2 => Database
    case 5 => Unauthorized
    case 10 => Signature
    case 11 => Request
    case 20 => GoodsNotFound
    case 21 => GoodsUnvailable
    case 22 => UserNotFound
    case _ => if AppCode(c) then App(c) else Unknown(c)
  }

  /** `Into<u32>`. */
  function ToCode(k: ErrorCode): (r: U32)
    ensures k.App? || k.Unknown? ==> r == k.v
  {
    match k
    case General => 1
    case Database => 2
    case Unauthorized => 5
    case Signature => 10
    case Request => 11
    case GoodsNotFound => 20
    case GoodsUnvailable => 21
    case UserNotFound => 22
    case App(v) => v
    case Unknown(v) => v
  }

  /** The kinds `From<u32>` can produce: `App` only inside its range,
      `Unknown` only outside it and off the named codes. */
  predicate Canonical(k: ErrorCode) {
    match k
    case App(v) => AppCode(v)
    case Unknown(v) => !NamedCode(v) && !AppCode(v)
    case _ => true
  }

  /** Every code survives the trip through `VkErrorCode`. */
  lemma CodeRoundTrip(c: U32)
    ensures ToCode(FromCode(c)) == c
    ensures Canonical(FromCode(c))
  {
  }

  /** A kind survives the trip through its code exactly when it is canonical. */
  lemma KindRoundTrip(k: ErrorCode)
    ensures FromCode(ToCode(k)) == k <==> Canonical(k)
  {
  }

  /** `Display for VkErrorCode`. */
  function Describe(k: ErrorCode): (r: string)
    ensures |r| > 0
  {
    match k
    case General => "general error"
    case Database => "database error"
    case Unauthorized => "access denied"
    case Signature => "invalid signature"
    case Request => "invalid request"
    case GoodsNotFound => "goods not found"
    case GoodsUnvailable => "goods unavailable"
    case UserNotFound => "user not found"
    case App(v) => "application error #" + Text.NatToString(v as nat)
    case Unknown(v) => "unknown error #" + Text.NatToString(v as nat)
  }

  lemma NumberedDescription(prefix: string, v: U32, w: U32)
    requires prefix + Text.NatToString(v as nat) == prefix + Text.NatToString(w as nat)
    ensures v == w
  {
    var a := prefix + Text.NatToString(v as nat);
    var b := prefix + Text.NatToString(w as nat);
    assert a[|prefix|..] == Text.NatToString(v as nat);
    assert b[|prefix|..] == Text.NatToString(w as nat);
    Text.NatToStringValue(v as nat);
    Text.NatToStringValue(w as nat);
  }

  /** Different kinds are described differently, so the text identifies the kind. */
  lemma DescribeInjective(a: ErrorCode, b: ErrorCode)
    requires Describe(a) == Describe(b)
    ensures a == b
  {
    var s := Describe(a);
    if a.App? && b.App? {
      NumberedDescription("application error #", a.v, b.v);
    } else if a.Unknown? && b.Unknown? {
      NumberedDescription("unknown error #", a.v, b.v);
    } else {
      assert s[0] == Describe(a)[0] == Describe(b)[0];
      assert s[1] == Describe(a)[1] == Describe(b)[1];
    }
  }

  /** `KeyVal`: one request parameter echoed back in an error. */
  datatype KeyVal = KeyVal(key: string, value: string)

  /** `VkError`. */
  datatype VkError = VkError(code: ErrorCode, msg: string, params: seq<KeyVal>)

  /** `Display for VkError`: "{code}: {msg}". */
  function DisplayError(e: VkError): (r: string)
    ensures |r| == |Describe(e.code)| + 2 + |e.msg|
    ensures r[..|Describe(e.code)|] == Describe(e.code)
    ensures r[|Describe(e.code)|..|Describe(e.code)| + 2] == ": "
    ensures r[|Describe(e.code)| + 2..] == e.msg
  {
    Describe(e.code) + ": " + e.msg
  }

  /** No description holds a colon, so the first colon of a displayed error
      ends its description. */
  lemma DescribeNoColon(k: ErrorCode)
    ensures ':' !in Describe(k)
  {
    match k
    case App(v) => NumberedNoColon("application error #", v);
    case Unknown(v) => NumberedNoColon("unknown error #", v);
    case _ =>
  }

  lemma NumberedNoColon(prefix: string, v: U32)
    requires ':' !in prefix
    ensures ':' !in prefix + Text.NatToString(v as nat)
  {
    var digits := Text.NatToString(v as nat);
    forall i | 0 <= i < |digits| ensures digits[i] != ':' {
      assert Text.IsDigit(digits[i]);
    }
  }

  /** The displayed text determines the error's code and message. */
  lemma DisplayErrorInjective(a: VkError, b: VkError)
    requires DisplayError(a) == DisplayError(b)
    ensures a.code == b.code && a.msg == b.msg
  {
    DisplayErrorParts(a);
    DisplayErrorParts(b);
    DescribeInjective(a.code, b.code);
  }

  /** The description is the text before the first colon, the message the
      text after the colon and space that follow it. */
  lemma DisplayErrorParts(e: VkError)
    ensures UntilColon(DisplayError(e)) == Describe(e.code)
    ensures DisplayError(e)[|Describe(e.code)| + 2..] == e.msg
  {
    var d := Describe(e.code);
    DescribeNoColon(e.code);
    assert DisplayError(e) == d + (": " + e.msg);
    UntilColonPrefix(d, ": " + e.msg);
  }

  /** The text before the first colon. */
  function UntilColon(s: string): string {
    if |s| == 0 || s[0] == ':' then [] else [s[0]] + UntilColon(s[1..])
  }

  lemma {:induction false} UntilColonPrefix(d: string, x: string)
    requires ':' !in d
    requires |x| > 0 && x[0] == ':'
    ensures UntilColon(d + x) == d
    decreases |d|
  {
    if |d| == 0 {
      assert d + x == x;
    } else {
      assert (d + x)[1..] == d[1..] + x;
      UntilColonPrefix(d[1..], x);
      assert [d[0]] + d[1..] == d;
    }
  }

  // ---------------------------------------------------------------------------
  // Decoding
  // ---------------------------------------------------------------------------

  /** The members of `KeyVal`, in declaration order. */
  const KeyValMembers: seq<string> := ["key", "value"]

  /** Both members of `KeyVal` are strings. */
  function KeyValMember(i: nat, v: Json.Value): Option<Json.DeError> {
    Json.ErrorOf(Json.ReadString(v))
  }

  /** Derived `Deserialize for KeyVal`, from an object or a two-element array. */
  function ReadKeyVal(v: Json.Value): (r: Result<KeyVal, Json.DeError>)
    ensures !v.Object? && !v.Array? ==> r == Err(Json.InvalidType("struct KeyVal"))
  {
    var vals :- Json.ReadDerived("struct KeyVal", KeyValMembers, KeyValMember, v);
    assert KeyValMember(0, vals[0]).None? && KeyValMember(1, vals[1]).None?;
    Ok(KeyVal(vals[0].s, vals[1].s))
  }

  /** `Vec<KeyVal>`: the items in order, the first failing item's error. */
  function ReadKeyVals(items: seq<Json.Value>): (r: Result<seq<KeyVal>, Json.DeError>)
    ensures r.Ok? <==> forall i :: 0 <= i < |items| ==> ReadKeyVal(items[i]).Ok?
    ensures r.Ok? ==> |r.value| == |items|
    ensures r.Ok? ==> forall i :: 0 <= i < |items| ==> ReadKeyVal(items[i]) == Ok(r.value[i])
    ensures r.Err? ==> exists i :: 0 <= i < |items| && ReadKeyVal(items[i]) == Err(r.error)
                                 && forall j :: 0 <= j < i ==> ReadKeyVal(items[j]).Ok?
  {
    if |items| == 0 then Ok([])
    else
      var first :- ReadKeyVal(items[0]);
      var rest := ReadKeyVals(items[1..]);
      assert forall i :: 0 < i < |items| ==> items[i] == items[1..][i - 1];
      if rest.Err? then
        var i :| 0 <= i < |items[1..]| && ReadKeyVal(items[1..][i]) == Err(rest.error)
                 && forall j :: 0 <= j < i ==> ReadKeyVal(items[1..][j]).Ok?;
        assert ReadKeyVal(items[i + 1]) == Err(rest.error);
        Err(rest.error)
      else
        Ok([first] + rest.value)
  }

  /** The members of `VkError`, in declaration order. */
  const ErrorMembers: seq<string> := ["error_code", "error_msg", "request_params"]

  /** `request_params`: a sequence of pairs. */
  function ReadParams(v: Json.Value): (r: Result<seq<KeyVal>, Json.DeError>)
    ensures !v.Array? ==> r == Err(Json.InvalidType("sequence"))
  {
    if !v.Array? then Err(Json.InvalidType("sequence")) else ReadKeyVals(v.items)
  }

  /** The reader of each member of `VkError`: the code as a `u32`, the message
      as a string, the parameters as pairs. */
  function ErrorMember(i: nat, v: Json.Value): Option<Json.DeError> {
    if i == 0 then Json.ErrorOf(Json.ReadU32(v))
    else if i == 1 then Json.ErrorOf(Json.ReadString(v))
    else Json.ErrorOf(ReadParams(v))
  }

  /** Derived `Deserialize for VkError`, from an object or a three-element
      array; the code is read as a `u32` and mapped through `From<u32>`. */
  function ReadVkError(v: Json.Value): (r: Result<VkError, Json.DeError>)
    ensures !v.Object? && !v.Array? ==> r == Err(Json.InvalidType("struct VkError"))
    ensures r.Ok? ==> Canonical(r.value.code)
  {
    var vals :- Json.ReadDerived("struct VkError", ErrorMembers, ErrorMember, v);
    assert ErrorMember(0, vals[0]).None? && ErrorMember(1, vals[1]).None? && ErrorMember(2, vals[2]).None?;
    var c := vals[0].n as U32;
    CodeRoundTrip(c);
    Ok(VkError(FromCode(c), vals[1].s, ReadParams(vals[2]).value))
  }

  /** A pair object is read exactly when both members are strings, each given
      once; unknown members are skipped. */
  lemma ReadKeyValAccepts(v: Json.Value)
    requires v.Object?
    ensures ReadKeyVal(v).Ok? <==>
      Json.AllRead(KeyValMembers, KeyValMember, v.entries) && Json.NoRepeat(KeyValMembers, v.entries)
      && Json.Lookup(v.entries, "key").Some? && Json.Lookup(v.entries, "value").Some?
    ensures ReadKeyVal(v).Ok? ==>
      Json.Lookup(v.entries, "key") == Some(Json.Str(ReadKeyVal(v).value.key))
      && Json.Lookup(v.entries, "value") == Some(Json.Str(ReadKeyVal(v).value.value))
  {
    Json.ReadStructAccepts(KeyValMembers, KeyValMember, v.entries);
    assert KeyValMembers[0] == "key" && KeyValMembers[1] == "value";
  }

  /** A pair object is refused for the first problem in document order. */
  lemma ReadKeyValRefuses(v: Json.Value)
    requires v.Object?
    ensures ReadKeyVal(v).Err? ==> Json.Refusal(KeyValMembers, KeyValMember, v.entries, ReadKeyVal(v).error)
  {
    Json.ReadStructRefuses(KeyValMembers, KeyValMember, v.entries);
  }

  /** An error object is read exactly when its code is a `u32`, its message a
      string and its parameters a sequence of pairs, each given once; unknown
      members are skipped. */
  lemma ReadVkErrorAccepts(v: Json.Value)
    requires v.Object?
    ensures ReadVkError(v).Ok? <==>
      Json.AllRead(ErrorMembers, ErrorMember, v.entries) && Json.NoRepeat(ErrorMembers, v.entries)
      && Json.Lookup(v.entries, "error_code").Some? && Json.Lookup(v.entries, "error_msg").Some?
      && Json.Lookup(v.entries, "request_params").Some?
  {
    ReadVkErrorIsStruct(v);
    Json.ReadStructAccepts(ErrorMembers, ErrorMember, v.entries);
    var present := forall k :: 0 <= k < |ErrorMembers| ==> Json.Lookup(v.entries, ErrorMembers[k]).Some?;
    assert present <==> Json.Lookup(v.entries, ErrorMembers[0]).Some? && Json.Lookup(v.entries, ErrorMembers[1]).Some?
                        && Json.Lookup(v.entries, ErrorMembers[2]).Some?;
  }

  /** An error object is read exactly when the derived visitor accepts it. */
  lemma ReadVkErrorIsStruct(v: Json.Value)
    requires v.Object?
    ensures ReadVkError(v).Ok? <==> Json.ReadStruct(ErrorMembers, ErrorMember, v.entries).Ok?
  {
  }

  /** The members of an error read are the ones its object gives. */
  lemma ReadVkErrorMembers(v: Json.Value)
    requires v.Object? && ReadVkError(v).Ok?
    ensures Json.Lookup(v.entries, "error_code") == Some(Json.Int(ToCode(ReadVkError(v).value.code) as int))
    ensures Json.Lookup(v.entries, "error_msg") == Some(Json.Str(ReadVkError(v).value.msg))
    ensures Json.Lookup(v.entries, "request_params").Some?
            && ReadParams(Json.Lookup(v.entries, "request_params").value) == Ok(ReadVkError(v).value.params)
  {
    Json.ReadStructAccepts(ErrorMembers, ErrorMember, v.entries);
    var vals := Json.ReadStruct(ErrorMembers, ErrorMember, v.entries).value;
    assert Json.Lookup(v.entries, ErrorMembers[0]) == Some(vals[0]);
    assert Json.Lookup(v.entries, ErrorMembers[1]) == Some(vals[1]);
    assert Json.Lookup(v.entries, ErrorMembers[2]) == Some(vals[2]);
    assert ErrorMember(0, vals[0]).None? && ErrorMember(2, vals[2]).None?;
    CodeRoundTrip(vals[0].n as U32);
  }

  /** An error object is refused for the first problem the derived visitor
      meets: a mistyped value or a repeated member in document order, then
      the first absent member in declaration order. */
  lemma ReadVkErrorRefuses(v: Json.Value)
    requires v.Object?
    ensures ReadVkError(v).Err? ==> Json.Refusal(ErrorMembers, ErrorMember, v.entries, ReadVkError(v).error)
  {
    Json.ReadStructRefuses(ErrorMembers, ErrorMember, v.entries);
  }

  /** Members are read in document order: a mistyped message ahead of the
      code is the error, whether or not the code is there. */
  lemma ReadVkErrorDocumentOrder()
    ensures ReadVkError(Json.Object([("error_msg", Json.Int(1))])) == Err(Json.InvalidType("string"))
    ensures ReadVkError(Json.Object([("error_msg", Json.Int(1)), ("error_code", Json.Str("x")),
                                     ("request_params", Json.Array([]))])) == Err(Json.InvalidType("string"))
    ensures ReadVkError(Json.Object([("error_msg", Json.Str("m"))])) == Err(Json.MissingField("error_code"))
    ensures ReadVkError(Json.Object([("error_code", Json.Int(5)), ("error_code", Json.Int(5))]))
            == Err(Json.DuplicateField("error_code"))
  {
    var es := [("error_msg", Json.Int(1)), ("error_code", Json.Str("x")), ("request_params", Json.Array([]))];
    assert Json.VisitEntries(ErrorMembers, ErrorMember, es[..1]).Err?;
    Json.VisitEntriesStops(ErrorMembers, ErrorMember, es, 1);
  }

  /** A pair array is read exactly when it holds two strings: the key, then
      the value. */
  lemma ReadKeyValArray(v: Json.Value)
    requires v.Array?
    ensures ReadKeyVal(v).Ok? <==> |v.items| == 2 && v.items[0].Str? && v.items[1].Str?
    ensures ReadKeyVal(v).Ok? ==> ReadKeyVal(v).value == KeyVal(v.items[0].s, v.items[1].s)
    ensures ReadKeyVal(v).Err? ==> Json.TupleRefusal(KeyValMembers, KeyValMember, v.items, ReadKeyVal(v).error)
  {
    assert (forall k :: 0 <= k < |KeyValMembers| && k < |v.items| ==> KeyValMember(k, v.items[k]).None?)
           <==> (|v.items| > 0 ==> v.items[0].Str?) && (|v.items| > 1 ==> v.items[1].Str?);
  }

  /** An error array is read exactly when it holds a `u32` code, a string
      message and a sequence of pairs, in that order. */
  lemma ReadVkErrorArray(v: Json.Value)
    requires v.Array?
    ensures ReadVkError(v).Ok? <==>
      |v.items| == 3 && Json.ReadU32(v.items[0]).Ok? && v.items[1].Str? && ReadParams(v.items[2]).Ok?
    ensures ReadVkError(v).Ok? ==>
      ReadVkError(v).value == VkError(FromCode(v.items[0].n as U32), v.items[1].s, ReadParams(v.items[2]).value)
    ensures ReadVkError(v).Err? ==> Json.TupleRefusal(ErrorMembers, ErrorMember, v.items, ReadVkError(v).error)
  {
    var all := forall k :: 0 <= k < |ErrorMembers| && k < |v.items| ==> ErrorMember(k, v.items[k]).None?;
    assert |v.items| == 3 ==>
      (all <==> Json.ReadU32(v.items[0]).Ok? && v.items[1].Str? && ReadParams(v.items[2]).Ok?) by {
      if |v.items| == 3 {
        assert ErrorMember(0, v.items[0]).None? <==> Json.ReadU32(v.items[0]).Ok?;
        assert ErrorMember(1, v.items[1]).None? <==> v.items[1].Str?;
        assert ErrorMember(2, v.items[2]).None? <==> ReadParams(v.items[2]).Ok?;
      }
    }
  }

  /** The array form fills the members by position: a complete array reads,
      a short one is refused at its end, a long one at its first extra
      element, and a mistyped element before either. */
  lemma ReadVkErrorPositional()
    ensures ReadVkError(Json.Array([Json.Int(5), Json.Str("m"), Json.Array([])]))
            == Ok(VkError(Unauthorized, "m", []))
    ensures ReadVkError(Json.Array([Json.Int(5), Json.Str("m")])) == Err(Json.InvalidLength(2))
    ensures ReadVkError(Json.Array([Json.Int(5), Json.Str("m"), Json.Array([]), Json.Null]))
            == Err(Json.TrailingCharacters)
    ensures ReadVkError(Json.Array([Json.Int(5), Json.Int(1)])) == Err(Json.InvalidType("string"))
  {
    ReadVkErrorArray(Json.Array([Json.Int(5), Json.Str("m"), Json.Array([])]));
  }

  /** `VkResultField`: the only two keys an envelope may start with. */
  datatype EnvelopeKey = ResponseKey | ErrorKey

  /** `VkResultFieldVisitor::visit_str`. */
  function ReadEnvelopeKey(key: string): (r: Result<EnvelopeKey, Json.DeError>)
    ensures r == Ok(ResponseKey) <==> key == "response"
    ensures r == Ok(ErrorKey) <==> key == "error"
    ensures r.Err? ==> r.error == Json.Syntax("expected response or error")
  {
    if key == "response" then Ok(ResponseKey)
    else if key == "error" then Ok(ErrorKey)
    else Err(Json.Syntax("expected response or error"))
  }

  /** `Deserialize for VkResult<T>`: only the first key is read. "response"
      reads the payload with `payload` (the `T` decoder) into `Ok`, "error"
      reads a `VkError` into `Err`; a decoding failure of either is the outer
      error, never an API error. */
  function ReadEnvelope<T>(v: Json.Value, payload: Json.Value -> Result<T, Json.DeError>)
    : (r: Result<Result<T, VkError>, Json.DeError>)
    ensures !v.Object? ==> r == Err(Json.InvalidType("map"))
    ensures v.Object? && |v.entries| == 0 ==> r == Err(Json.MissingField("response or error"))
    ensures v.Object? && |v.entries| > 0 && v.entries[0].0 != "response" && v.entries[0].0 != "error" ==>
      r == Err(Json.Syntax("expected response or error"))
    ensures r.Ok? && r.value.Ok? <==>
      v.Object? && |v.entries| > 0 && v.entries[0].0 == "response" && payload(v.entries[0].1).Ok?
    ensures r.Ok? && r.value.Ok? ==> r.value.value == payload(v.entries[0].1).value
    ensures r.Ok? && r.value.Err? <==>
      v.Object? && |v.entries| > 0 && v.entries[0].0 == "error" && ReadVkError(v.entries[0].1).Ok?
    ensures r.Ok? && r.value.Err? ==> r.value.error == ReadVkError(v.entries[0].1).value
  {
    if !v.Object? then Err(Json.InvalidType("map"))
    else if |v.entries| == 0 then Err(Json.MissingField("response or error"))
    else
      var key :- ReadEnvelopeKey(v.entries[0].0);
      match key
      case ResponseKey =>
        var x :- payload(v.entries[0].1);
        Ok(Ok(x))
      case ErrorKey =>
        var e :- ReadVkError(v.entries[0].1);
        Ok(Err(e))
  }

  // ---------------------------------------------------------------------------
  // Writing an envelope: the inverse of reading one
  // ---------------------------------------------------------------------------

  function KeyValToJson(kv: KeyVal): Json.Value {
    Json.Object([("key", Json.Str(kv.key)), ("value", Json.Str(kv.value))])
  }

  function KeyValsToJson(kvs: seq<KeyVal>): (r: seq<Json.Value>)
    ensures |r| == |kvs|
    ensures forall i :: 0 <= i < |kvs| ==> r[i] == KeyValToJson(kvs[i])
  {
    if |kvs| == 0 then [] else [KeyValToJson(kvs[0])] + KeyValsToJson(kvs[1..])
  }

  /** An error object as the API sends it. */
  function VkErrorToJson(e: VkError): Json.Value {
    Json.Object([
      ("error_code", Json.Int(ToCode(e.code) as int)),
      ("error_msg", Json.Str(e.msg)),
      ("request_params", Json.Array(KeyValsToJson(e.params)))])
  }

  /** An envelope as the API sends it, the payload written by `write`. */
  function EnvelopeToJson<T>(r: Result<T, VkError>, write: T -> Json.Value): Json.Value {
    match r
    case Ok(x) => Json.Object([("response", write(x))])
    case Err(e) => Json.Object([("error", VkErrorToJson(e))])
  }

  lemma KeyValRoundTrip(kv: KeyVal)
    ensures ReadKeyVal(KeyValToJson(kv)) == Ok(kv)
  {
    Json.ReadStructExact(KeyValMembers, KeyValMember, KeyValToJson(kv).entries);
  }

  lemma {:induction false} KeyValsRoundTrip(kvs: seq<KeyVal>)
    ensures ReadKeyVals(KeyValsToJson(kvs)) == Ok(kvs)
    decreases |kvs|
  {
    if |kvs| > 0 {
      KeyValRoundTrip(kvs[0]);
      KeyValsRoundTrip(kvs[1..]);
      ReadKeyValsCons(KeyValToJson(kvs[0]), KeyValsToJson(kvs[1..]), kvs[0], kvs[1..]);
      assert [kvs[0]] + kvs[1..] == kvs;
    }
  }

  /** One more pair object in front reads to one more pair in front. */
  lemma ReadKeyValsCons(item: Json.Value, items: seq<Json.Value>, kv: KeyVal, kvs: seq<KeyVal>)
    requires ReadKeyVal(item) == Ok(kv) && ReadKeyVals(items) == Ok(kvs)
    ensures ReadKeyVals([item] + items) == Ok([kv] + kvs)
  {
    assert ([item] + items)[1..] == items;
  }

  /** An error with a canonical code reads back as itself. */
  lemma VkErrorRoundTrip(e: VkError)
    requires Canonical(e.code)
    ensures ReadVkError(VkErrorToJson(e)) == Ok(e)
  {
    var es := VkErrorToJson(e).entries;
    VkErrorObjectInOrder(e);
    Json.ReadStructExact(ErrorMembers, ErrorMember, es);
    var vals := Json.ReadStruct(ErrorMembers, ErrorMember, es).value;
    assert vals[0] == es[0].1 && vals[1] == es[1].1 && vals[2] == es[2].1;
    KeyValsRoundTrip(e.params);
    KindRoundTrip(e.code);
  }

  /** A written error object gives the members in declaration order, each
      readable. */
  lemma VkErrorObjectInOrder(e: VkError)
    ensures var es := VkErrorToJson(e).entries;
      && |es| == |ErrorMembers|
      && forall k :: 0 <= k < |ErrorMembers| ==> es[k].0 == ErrorMembers[k] && ErrorMember(k, es[k].1).None?
  {
    KeyValsRoundTrip(e.params);
  }

  /** Reading inverts writing: a payload that its decoder reads back, or an
      error with a canonical code, comes out as it went in. */
  lemma EnvelopeRoundTrip<T>(r: Result<T, VkError>, write: T -> Json.Value, read: Json.Value -> Result<T, Json.DeError>)
    requires r.Ok? ==> read(write(r.value)) == Ok(r.value)
    requires r.Err? ==> Canonical(r.error.code)
    ensures ReadEnvelope(EnvelopeToJson(r, write), read) == Ok(r)
  {
    if r.Err? {
      VkErrorRoundTrip(r.error);
    }
  }
}

=== FILE: enumstr.dfy ===
/** The `enum_str!` macro (src/macros.rs): an enum declared as a table of
    `Variant = "text"` rows gets `AsRef<str>` (the row's text), `FromStr` (the
    first row whose text equals the input, `Err(())` otherwise) and a serde
    `Deserialize` that reads a string through `FromStr`. */
module EnumStr {
  import opened Wrappers

  /** The rows of one `enum_str!` declaration, in declaration order. */
  type Table<V> = seq<(V, string)>

  /** Each variant has one row, as the generated `enum` has one variant per row. */
  predicate Declares<V(==)>(t: Table<V>, v: V) {
    exists i :: 0 <= i < |t| && t[i].0 == v
  }

  /** No two rows share a text: what makes `from_str` a left inverse. */
  predicate DistinctTexts<V>(t: Table<V>) {
    forall i, j :: 0 <= i < j < |t| ==> t[i].1 != t[j].1
  }

  /** No two rows share a variant, which the `enum` declaration guarantees. */
  predicate DistinctVariants<V(==)>(t: Table<V>) {
    forall i, j :: 0 <= i < j < |t| ==> t[i].0 != t[j].0
  }

  /** No text of `a` is a text of `b`. */
  predicate TextsDisjoint<V>(a: Table<V>, b: Table<V>) {
    forall i, j :: 0 <= i < |a| && 0 <= j < |b| ==> a[i].1 != b[j].1
  }

  /** No variant of `a` is a variant of `b`. */
  predicate VariantsDisjoint<V(==)>(a: Table<V>, b: Table<V>) {
    forall i, j :: 0 <= i < |a| && 0 <= j < |b| ==> a[i].0 != b[j].0
  }

  /** Two tables with nothing in common make one table without repeats. */
  lemma Concat<V>(a: Table<V>, b: Table<V>)
    requires DistinctTexts(a) && DistinctTexts(b) && TextsDisjoint(a, b)
    requires DistinctVariants(a) && DistinctVariants(b) && VariantsDisjoint(a, b)
    ensures DistinctTexts(a + b) && DistinctVariants(a + b)
  {
    var t := a + b;
    forall i, j | 0 <= i < j < |t| ensures t[i].1 != t[j].1 && t[i].0 != t[j].0 {
      if j < |a| {
        assert t[i] == a[i] && t[j] == a[j];
      } else if i < |a| {
        assert t[i] == a[i] && t[j] == b[j - |a|];
      } else {
        assert t[i] == b[i - |a|] && t[j] == b[j - |a|];
      }
    }
  }

  lemma DisjointConcat<V>(a: Table<V>, b: Table<V>, c: Table<V>)
    requires TextsDisjoint(a, c) && TextsDisjoint(b, c)
    requires VariantsDisjoint(a, c) && VariantsDisjoint(b, c)
    ensures TextsDisjoint(a + b, c) && VariantsDisjoint(a + b, c)
  {
    var t := a + b;
    forall i, j | 0 <= i < |t| && 0 <= j < |c| ensures t[i].1 != c[j].1 && t[i].0 != c[j].0 {
      if i < |a| {
        assert t[i] == a[i];
      } else {
        assert t[i] == b[i - |a|];
      }
    }
  }

  /** `<E as AsRef<str>>::as_ref`: the text of the variant's row. The
      generated `match` covers every variant, so a variant without a row
      does not arise; the model answers "" for it. */
  function AsRef<V(==)>(t: Table<V>, v: V): (r: string)
    ensures Declares(t, v) ==> exists i :: 0 <= i < |t| && t[i] == (v, r)
  {
    if |t| == 0 then ""
    else if t[0].0 == v then t[0].1
    else
      var r := AsRef(t[1..], v);
      assert Declares(t, v) ==> exists i :: 0 <= i < |t| && t[i] == (v, r) by {
        if Declares(t, v) {
          var i :| 0 <= i < |t| && t[i].0 == v;
          assert t[1..][i - 1].0 == v;
          var k :| 0 <= k < |t[1..]| && t[1..][k] == (v, r);
          assert t[k + 1] == (v, r);
        }
      }
      r
  }

  /** With one row per variant, `as_ref` is the text of that row. */
  lemma AsRefAt<V>(t: Table<V>, v: V, i: nat)
    requires DistinctVariants(t) && i < |t| && t[i].0 == v
    ensures AsRef(t, v) == t[i].1
  {
    var j :| 0 <= j < |t| && t[j] == (v, AsRef(t, v));
    assert t[i].0 == t[j].0;
  }

  /** `<E as FromStr>::from_str`: the `match` arms are tried in row order. */
  function FromStr<V>(t: Table<V>, s: string): (r: Result<V, Unit>)
    ensures r.Ok? <==> exists i :: 0 <= i < |t| && t[i].1 == s
    ensures r.Ok? ==> exists i :: 0 <= i < |t| && t[i] == (r.value, s)
  {
    if |t| == 0 then Err(Unit)
    else if t[0].1 == s then Ok(t[0].0)
    else
      var r := FromStr(t[1..], s);
      assert r.Ok? ==> exists i :: 0 <= i < |t| && t[i] == (r.value, s) by {
        if r.Ok? {
          var i :| 0 <= i < |t[1..]| && t[1..][i] == (r.value, s);
          assert t[i + 1] == (r.value, s);
        }
      }
      assert r.Err? ==> forall i :: 0 <= i < |t| ==> t[i].1 != s by {
        if r.Err? {
          forall i | 0 <= i < |t| ensures t[i].1 != s {
            if i > 0 {
              assert t[1..][i - 1] == t[i];
            }
          }
        }
      }
      r
  }

  /** Every variant's text parses back to that variant when no two rows share a text. */
  lemma FromStrAsRef<V>(t: Table<V>, v: V)
    requires DistinctTexts(t) && Declares(t, v)
    ensures FromStr(t, AsRef(t, v)) == Ok(v)
  {
    var s := AsRef(t, v);
    var i :| 0 <= i < |t| && t[i] == (v, s);
    var j :| 0 <= j < |t| && t[j] == (FromStr(t, s).value, s);
    assert t[i].1 == t[j].1;
  }

  /** Whatever parses is that variant's text; whatever matches no row is an error. */
  lemma AsRefFromStr<V>(t: Table<V>, s: string)
    requires DistinctVariants(t)
    ensures FromStr(t, s).Ok? ==> Declares(t, FromStr(t, s).value) && AsRef(t, FromStr(t, s).value) == s
    ensures FromStr(t, s).Err? <==> forall i :: 0 <= i < |t| ==> t[i].1 != s
  {
    if FromStr(t, s).Ok? {
      var v := FromStr(t, s).value;
      var i :| 0 <= i < |t| && t[i] == (v, s);
      var j :| 0 <= j < |t| && t[j] == (v, AsRef(t, v));
      assert t[i].0 == t[j].0;
    }
  }

  /** The serde error the generated visitor reports for an unknown string. */
  const UnexpectedValue := "unexpected value"

  /** The generated `Deserialize`: a JSON string read through `FromStr`,
      anything unknown reported as the syntax error "unexpected value". */
  function Deserialize<V>(t: Table<V>, s: string): (r: Result<V, string>)
    ensures r.Ok? <==> FromStr(t, s).Ok?
    ensures r.Ok? ==> r.value == FromStr(t, s).value
    ensures r.Err? ==> r.error == UnexpectedValue
  {
    match FromStr(t, s)
    case Ok(v) => Ok(v)
    case Err(_) => Err(UnexpectedValue)
  }
}

=== FILE: gifts.dfy ===
/** The gifts endpoint (src/gifts.rs): the privacy code of a gift and the
    `gifts.get` request. */
module Gifts {
  import opened Wrappers
  import Text
  import Json
  import Query

  /** `GiftPrivacy`, spelled as the source spells it. */
  datatype GiftPrivacy = Pubclic | SenderNameOnly | Private

  /** The integer the API uses for each privacy level. */
  function Code(p: GiftPrivacy): (r: nat)
    ensures r <= 2
  {
    match p
    case Pubclic => 0
    case SenderNameOnly => 1
    case Private => 2
  }

  /** `Deserialize for GiftPrivacy`: a `u32` from 0 to 2. Any larger integer
      reaches `unreachable!()`, so callers must not send one. */
  function ReadPrivacy(v: Json.Value): (r: Result<GiftPrivacy, Json.DeError>)
    requires Json.ReadU32(v).Ok? ==> Json.ReadU32(v).value <= 2
    ensures r.Ok? <==> Json.ReadU32(v).Ok?
    ensures r.Err? ==> r.error == Json.InvalidType("u32")
    ensures r.Ok? ==> Code(r.value) == v.n
  {
    var n :- Json.ReadU32(v);
    match n
    case 0 => Ok(Pubclic)
    case 1 => Ok(SenderNameOnly)
    case _ => Ok(Private)
  }

  /** Every privacy level reads back from its code, and only from it. */
  lemma PrivacyRoundTrip(p: GiftPrivacy)
    ensures ReadPrivacy(Json.Int(Code(p))) == Ok(p)
  {
  }

  /** `gifts.get`: three optional integers, then `v=5.44`. */
  const Get: Query.Decl := Query.Decl("gifts.get", [("v", "5.44")], [], Query.Owned([
    Query.Field("user_id", "user_id", Query.MaybeNumberKind, Query.TypeDefault),
    Query.Field("count", "count", Query.MaybeNumberKind, Query.TypeDefault),
    Query.Field("offset", "offset", Query.MaybeNumberKind, Query.TypeDefault)]))

  /** The query of a `gifts.get` value: each field that is `Some`, in order, then `v`. */
  lemma GetQuery(rec: Query.Record)
    requires Query.Fits(Get, rec)
    ensures Query.Query(Get, rec) ==
      Query.Sent(("user_id", Query.Render(rec[0])))
      + Query.Sent(("count", Query.Render(rec[1])))
      + Query.Sent(("offset", Query.Render(rec[2])))
      + [("v", "5.44")]
  {
    Query.Query3(Get, rec);
  }

  /** A default `gifts.get` is just `v=5.44`. */
  lemma GetDefaultQuery()
    ensures Query.InitsTyped(Get)
    ensures Query.Query(Get, Query.New(Get)) == [("v", "5.44")]
  {
    var rec := Query.New(Get);
    assert rec == [Query.MaybeNumber(None), Query.MaybeNumber(None), Query.MaybeNumber(None)];
    GetQuery(rec);
  }

  /** The setter `count` writes the second field and leaves the others. */
  lemma SetCount(rec: Query.Record, n: int)
    requires Query.Fits(Get, rec)
    ensures Query.CanSet(Get, rec, "count", Query.MaybeNumber(Some(n)))
    ensures Query.Set(Get, rec, "count", Query.MaybeNumber(Some(n))) == [rec[0], Query.MaybeNumber(Some(n)), rec[2]]
  {
    var fs := Query.Fields(Get);
    assert fs[0].name == "user_id" && fs[1].name == "count";
    Query.FieldIndexFirst(fs, "count", 1);
  }

  /** Setting `count` to `Some(n)` adds exactly the pair `count=n`, after
      `user_id` and before `offset`. */
  lemma SetCountQuery(rec: Query.Record, n: int)
    requires Query.Fits(Get, rec)
    ensures Query.CanSet(Get, rec, "count", Query.MaybeNumber(Some(n)))
    ensures Query.Query(Get, Query.Set(Get, rec, "count", Query.MaybeNumber(Some(n)))) ==
      Query.Sent(("user_id", Query.Render(rec[0])))
      + [("count", Text.IntToString(n))]
      + Query.Sent(("offset", Query.Render(rec[2])))
      + [("v", "5.44")]
  {
    SetCount(rec, n);
    var r := Query.Set(Get, rec, "count", Query.MaybeNumber(Some(n)));
    var c := ("count", Text.IntToString(n));
    assert Query.Sent(c) == [c];
    GetQuery(r);
  }
}

=== FILE: json.dfy ===
/** A parsed JSON document, as both JSON libraries the SDK uses hand it over:
    `rustc_serialize::json::Json` for the OAuth token response and serde's
    visitors for API responses. Objects keep their entries in document
    order. `Lookup` takes the first entry with a key, which is the only one
    once serde's derived visitor has refused repeats; `Find` takes the last,
    as rustc_serialize's parser inserts every entry into a `BTreeMap`. */
module Json {
  import opened Wrappers

  const I64Min: int := -0x8000_0000_0000_0000
  const I64Limit: int := 0x8000_0000_0000_0000
  const U64Limit: int := 0x1_0000_0000_0000_0000

  datatype Value =
    | Null
    | Bool(b: bool)
    | Int(n: int)
    | Float
    | Str(s: string)
    | Array(items: seq<Value>)
    | Object(entries: seq<(string, Value)>)

  /** The value of the first entry named `key`, if any. */
  function Lookup(entries: seq<(string, Value)>, key: string): (r: Option<Value>)
    ensures r.Some? <==> exists i :: 0 <= i < |entries| && entries[i].0 == key
    ensures r.Some? ==> exists i :: 0 <= i < |entries| && entries[i] == (key, r.value)
  {
    if |entries| == 0 then None
    else if entries[0].0 == key then Some(entries[0].1)
    else
      var r := Lookup(entries[1..], key);
      assert r.Some? ==> exists i :: 0 <= i < |entries| && entries[i] == (key, r.value) by {
        if r.Some? {
          var i :| 0 <= i < |entries[1..]| && entries[1..][i] == (key, r.value);
          assert entries[i + 1] == (key, r.value);
        }
      }
      r
  }

  /** The entry found has no earlier namesake. */
  lemma {:induction false} LookupFindsFirst(entries: seq<(string, Value)>, key: string)
    ensures Lookup(entries, key).Some? ==>
      exists i :: 0 <= i < |entries| && entries[i] == (key, Lookup(entries, key).value)
                  && forall j :: 0 <= j < i ==> entries[j].0 != key
    decreases |entries|
  {
    if |entries| > 0 && entries[0].0 != key && Lookup(entries, key).Some? {
      var rest := entries[1..];
      LookupFindsFirst(rest, key);
      var i :| 0 <= i < |rest| && rest[i] == (key, Lookup(rest, key).value)
               && forall j :: 0 <= j < i ==> rest[j].0 != key;
      assert entries[i + 1] == rest[i];
      forall j | 0 <= j < i + 1 ensures entries[j].0 != key {
        if j > 0 { assert entries[j] == rest[j - 1]; }
      }
    }
  }

  /** Appending an entry changes a lookup only when the key was absent so far. */
  lemma {:induction false} LookupSnoc(entries: seq<(string, Value)>, e: (string, Value), key: string)
    ensures Lookup(entries + [e], key) ==
      if Lookup(entries, key).Some? then Lookup(entries, key)
      else if e.0 == key then Some(e.1)
      else None
    decreases |entries|
  {
    if |entries| > 0 {
      assert (entries + [e])[1..] == entries[1..] + [e];
      LookupSnoc(entries[1..], e, key);
    }
  }

  /** The entry found is the first one with the key. */
  lemma {:induction false} LookupFirst(entries: seq<(string, Value)>, key: string, i: nat)
    requires i < |entries| && entries[i].0 == key
    requires forall j :: 0 <= j < i ==> entries[j].0 != key
    ensures Lookup(entries, key) == Some(entries[i].1)
    decreases i
  {
    if i > 0 {
      LookupFirst(entries[1..], key, i - 1);
    }
  }

  /** The value of the last entry named `key`, if any. */
  function LookupLast(entries: seq<(string, Value)>, key: string): (r: Option<Value>)
    ensures r.Some? <==> exists i :: 0 <= i < |entries| && entries[i].0 == key
    ensures r.Some? ==> exists i :: 0 <= i < |entries| && entries[i] == (key, r.value)
                                 && forall j :: i < j < |entries| ==> entries[j].0 != key
    decreases |entries|
  {
    if |entries| == 0 then None
    else if entries[|entries| - 1].0 == key then Some(entries[|entries| - 1].1)
    else
      var front := entries[..|entries| - 1];
      var r := LookupLast(front, key);
      assert r.Some? <==> exists i :: 0 <= i < |entries| && entries[i].0 == key by {
        if exists i :: 0 <= i < |entries| && entries[i].0 == key {
          var i :| 0 <= i < |entries| && entries[i].0 == key;
          assert front[i] == entries[i];
        }
      }
      assert r.Some? ==> exists i :: 0 <= i < |entries| && entries[i] == (key, r.value)
                                   && forall j :: i < j < |entries| ==> entries[j].0 != key by {
        if r.Some? {
          var i :| 0 <= i < |front| && front[i] == (key, r.value)
                   && forall j :: i < j < |front| ==> front[j].0 != key;
          assert entries[i] == front[i];
          assert forall j :: i < j < |entries| ==> entries[j].0 != key by {
            forall j | i < j < |entries| ensures entries[j].0 != key {
              if j < |front| { assert entries[j] == front[j]; }
            }
          }
        }
      }
      r
  }

  /** `Json::find`: the member `key` of an object, nothing for any other
      value. rustc_serialize parses an object by inserting each entry into a
      `BTreeMap`, so a repeated key keeps its last value. */
  function Find(v: Value, key: string): (r: Option<Value>)
    ensures r.Some? <==> v.Object? && exists i :: 0 <= i < |v.entries| && v.entries[i].0 == key
    ensures r.Some? ==> exists i :: 0 <= i < |v.entries| && v.entries[i] == (key, r.value)
                                 && forall j :: i < j < |v.entries| ==> v.entries[j].0 != key
  {
    if v.Object? then LookupLast(v.entries, key) else None
  }

  /** An entry appended to an object overrides every earlier one of its name,
      and leaves the other names alone. */
  lemma FindAppend(entries: seq<(string, Value)>, e: (string, Value), key: string)
    ensures Find(Object(entries + [e]), key) == if e.0 == key then Some(e.1) else Find(Object(entries), key)
  {
    assert (entries + [e])[..|entries|] == entries;
  }

  /** The entry `Find` takes is the last one with the key. */
  lemma FindLastOf(entries: seq<(string, Value)>, key: string, i: nat)
    requires i < |entries| && entries[i].0 == key
    requires forall j :: i < j < |entries| ==> entries[j].0 != key
    ensures Find(Object(entries), key) == Some(entries[i].1)
  {
    var r := Find(Object(entries), key);
    var k :| 0 <= k < |entries| && entries[k] == (key, r.value)
             && forall j :: k < j < |entries| ==> entries[j].0 != key;
    assert k == i;
  }

  /** `n as i64` for a `u64`: values from 2^63 on wrap to negative. */
  function WrapI64(n: nat): (r: int)
    requires n < U64Limit
    ensures I64Min <= r < I64Limit
    ensures (r - n) % U64Limit == 0
  {
    if n < I64Limit then n else n - U64Limit
  }

  /** `n as u64` for an `i64`: negative values wrap to 2^64 + n. */
  function WrapU64(n: int): (r: nat)
    requires I64Min <= n < I64Limit
    ensures r < U64Limit
    ensures (r - n) % U64Limit == 0
  {
    if n < 0 then n + U64Limit else n
  }

  /** An integer rustc_serialize's parser yields: `I64` when negative, `U64`
      otherwise. A literal outside both ranges is a parse error there, so it
      has no reading here. */
  predicate Parsed(v: Value) {
    v.Int? && I64Min <= v.n < U64Limit
  }

  /** `Json::as_i64`: an `I64` as it is, a `U64` cast `as i64`, so that a
      number from 2^63 on reads as negative. */
  function AsI64(v: Value): (r: Option<int>)
    ensures r.Some? <==> Parsed(v)
    ensures r.Some? ==> I64Min <= r.value < I64Limit && (r.value - v.n) % U64Limit == 0
  {
    if !Parsed(v) then None
    else if v.n < 0 then Some(v.n)
    else Some(WrapI64(v.n))
  }

  /** `Json::as_u64`: a `U64` as it is, an `I64` cast `as u64`, so that a
      negative number reads as 2^64 plus it. */
  function AsU64(v: Value): (r: Option<nat>)
    ensures r.Some? <==> Parsed(v)
    ensures r.Some? ==> r.value < U64Limit && (r.value - v.n) % U64Limit == 0
  {
    if !Parsed(v) then None
    else if v.n < 0 then Some(WrapU64(v.n))
    else Some(v.n)
  }

  /** Each cast is the identity on the range the two types share. */
  lemma CastsAgreeInRange(v: Value)
    requires v.Int? && 0 <= v.n < I64Limit
    ensures AsI64(v) == Some(v.n) && AsU64(v) == Some(v.n)
  {
  }

  /** Outside the shared range each cast wraps. */
  lemma CastsWrap()
    ensures AsI64(Int(I64Limit)) == Some(I64Min)
    ensures AsI64(Int(U64Limit - 1)) == Some(-1)
    ensures AsU64(Int(-1)) == Some(U64Limit - 1)
    ensures AsU64(Int(I64Min)) == Some(I64Limit)
  {
  }

  /** `Json::as_string`. */
  function AsString(v: Value): (r: Option<string>)
    ensures r.Some? <==> v.Str?
    ensures r.Some? ==> r.value == v.s
  {
    if v.Str? then Some(v.s) else None
  }

  // ---------------------------------------------------------------------------
  // serde's view: errors and struct fields
  // ---------------------------------------------------------------------------

  /** The `serde::de::Error` constructors the SDK's decoders reach. */
  datatype DeError =
    | MissingField(field: string)
    | DuplicateField(field: string)
    | Syntax(msg: string)
    | InvalidValue(msg: string)
    | InvalidType(expected: string)
    | InvalidLength(len: nat)
    | TrailingCharacters

  /** serde's `u32`: an integer in range, anything else a type error. */
  function ReadU32(v: Value): (r: Result<nat, DeError>)
    ensures r.Ok? <==> v.Int? && 0 <= v.n < 0x1_0000_0000
    ensures r.Ok? ==> r.value == v.n
  {
    if v.Int? && 0 <= v.n < 0x1_0000_0000 then Ok(v.n) else Err(InvalidType("u32"))
  }

  /** serde's `u8`. */
  function ReadU8(v: Value): (r: Result<nat, DeError>)
    ensures r.Ok? <==> v.Int? && 0 <= v.n < 0x100
    ensures r.Ok? ==> r.value == v.n
  {
    if v.Int? && 0 <= v.n < 0x100 then Ok(v.n) else Err(InvalidType("u8"))
  }

  /** serde's `String`. */
  function ReadString(v: Value): (r: Result<string, DeError>)
    ensures r.Ok? <==> v.Str?
    ensures r.Ok? ==> r.value == v.s
  {
    if v.Str? then Ok(v.s) else Err(InvalidType("string"))
  }

  /** The error of a read, if it failed. */
  function ErrorOf<T>(r: Result<T, DeError>): (e: Option<DeError>)
    ensures e.None? <==> r.Ok?
    ensures e.Some? ==> r == Err(e.value)
  {
    if r.Ok? then None else Some(r.error)
  }

  // ---------------------------------------------------------------------------
  // The derived `Deserialize` of a struct
  // ---------------------------------------------------------------------------

  /** A struct's member names, as `#[derive(Deserialize)]` requires: no name twice. */
  predicate Distinct(names: seq<string>) {
    forall i, j :: 0 <= i < j < |names| ==> names[i] != names[j]
  }

  /** The position of `key` among the member names. */
  function MemberIndex(names: seq<string>, key: string): (r: Option<nat>)
    ensures r.Some? <==> key in names
    ensures r.Some? ==> r.value < |names| && names[r.value] == key
    decreases |names|
  {
    if |names| == 0 then None
    else if names[0] == key then Some(0)
    else
      var r := MemberIndex(names[1..], key);
      if r.Some? then Some(r.value + 1) else None
  }

  /** The error reading the value of entry `(key, v)` raises by itself:
      `check(i, v)` reads `v` as member `i`; a key naming no member raises none. */
  function EntryError(names: seq<string>, check: (nat, Value) -> Option<DeError>, key: string, v: Value): Option<DeError> {
    match MemberIndex(names, key)
    case None => None
    case Some(i) => check(i, v)
  }

  /** Every value given for a member reads as that member. */
  predicate AllRead(names: seq<string>, check: (nat, Value) -> Option<DeError>, entries: seq<(string, Value)>) {
    forall i :: 0 <= i < |entries| ==> EntryError(names, check, entries[i].0, entries[i].1).None?
  }

  /** No member is given twice. */
  predicate NoRepeat(names: seq<string>, entries: seq<(string, Value)>) {
    forall i, j :: 0 <= i < j < |entries| && entries[i].0 in names ==> entries[i].0 != entries[j].0
  }

  /** One entry of the derived `visit_map`: a member already seen is a
      duplicate, a member's value is read at once, any other key is skipped.
      `seen` holds each member's value so far. */
  function VisitEntry(names: seq<string>, check: (nat, Value) -> Option<DeError>,
                      seen: seq<Option<Value>>, key: string, v: Value): (r: Result<seq<Option<Value>>, DeError>)
    requires |seen| == |names|
    ensures r.Ok? ==> |r.value| == |names|
  {
    match MemberIndex(names, key)
    case None => Ok(seen)
    case Some(i) =>
      if seen[i].Some? then Err(DuplicateField(key))
      else match check(i, v)
        case Some(e) => Err(e)
        case None => Ok(seen[i := Some(v)])
  }

  /** The derived `visit_map` over the entries in document order, stopping at
      the first error; the result holds each member's value, if given. */
  function VisitEntries(names: seq<string>, check: (nat, Value) -> Option<DeError>,
                        entries: seq<(string, Value)>): (r: Result<seq<Option<Value>>, DeError>)
    ensures r.Ok? ==> |r.value| == |names|
    ensures r.Ok? ==> forall k :: 0 <= k < |names| && r.value[k].Some? ==> check(k, r.value[k].value).None?
    decreases |entries|
  {
    if |entries| == 0 then Ok(seq(|names|, _ => None))
    else
      var seen :- VisitEntries(names, check, entries[..|entries| - 1]);
      VisitEntry(names, check, seen, entries[|entries| - 1].0, entries[|entries| - 1].1)
  }

  /** The first member without a value, in declaration order. */
  function FirstMissing(vals: seq<Option<Value>>): (r: Option<nat>)
    ensures r.Some? ==> r.value < |vals| && vals[r.value].None?
                        && forall m :: 0 <= m < r.value ==> vals[m].Some?
    ensures r.None? ==> forall m :: 0 <= m < |vals| ==> vals[m].Some?
    decreases |vals|
  {
    if |vals| == 0 then None
    else if vals[0].None? then Some(0)
    else
      var r := FirstMissing(vals[1..]);
      assert r.None? ==> forall m :: 0 <= m < |vals| ==> vals[m].Some? by {
        if r.None? {
          forall m | 0 <= m < |vals| ensures vals[m].Some? {
            if m > 0 { assert vals[m] == vals[1..][m - 1]; }
          }
        }
      }
      if r.Some? then
        assert forall m :: 0 <= m < r.value + 1 ==> vals[m].Some? by {
          forall m | 0 <= m < r.value + 1 ensures vals[m].Some? {
            if m > 0 { assert vals[m] == vals[1..][m - 1]; }
          }
        }
        Some(r.value + 1)
      else None
  }

  function Present(vals: seq<Option<Value>>): (r: seq<Value>)
    requires forall m :: 0 <= m < |vals| ==> vals[m].Some?
    ensures |r| == |vals|
    ensures forall m :: 0 <= m < |vals| ==> vals[m] == Some(r[m])
  {
    if |vals| == 0 then [] else [vals[0].value] + Present(vals[1..])
  }

  /** `#[derive(Deserialize)]` of a struct with members `names` from an
      object's entries: after the map, the first member without a value, in
      declaration order, is missing. The result holds every member's value,
      in declaration order, each readable by `check`. */
  function ReadStruct(names: seq<string>, check: (nat, Value) -> Option<DeError>,
                      entries: seq<(string, Value)>): (r: Result<seq<Value>, DeError>)
    ensures r.Ok? ==> |r.value| == |names|
    ensures r.Ok? ==> forall k :: 0 <= k < |names| ==> check(k, r.value[k]).None?
  {
    var vals :- VisitEntries(names, check, entries);
    match FirstMissing(vals)
    case Some(k) => Err(MissingField(names[k]))
    case None => Ok(Present(vals))
  }

  /** Entry `i` is the first problem: its value fails its member's reader
      with `e`, and no earlier entry was refused. */
  predicate RefusedValue(names: seq<string>, check: (nat, Value) -> Option<DeError>,
                         entries: seq<(string, Value)>, e: DeError, i: int) {
    0 <= i < |entries|
    && EntryError(names, check, entries[i].0, entries[i].1) == Some(e)
    && AllRead(names, check, entries[..i])
    && NoRepeat(names, entries[..i + 1])
  }

  /** Entry `j` is the first problem: it gives a member a second time. */
  predicate RefusedRepeat(names: seq<string>, check: (nat, Value) -> Option<DeError>,
                          entries: seq<(string, Value)>, e: DeError, j: int) {
    0 <= j < |entries|
    && e == DuplicateField(entries[j].0)
    && entries[j].0 in names
    && Lookup(entries[..j], entries[j].0).Some?
    && AllRead(names, check, entries[..j])
    && NoRepeat(names, entries[..j])
  }

  /** Every entry was accepted, and member `k` is the first absent one. */
  predicate RefusedAbsent(names: seq<string>, check: (nat, Value) -> Option<DeError>,
                          entries: seq<(string, Value)>, e: DeError, k: int) {
    0 <= k < |names|
    && e == MissingField(names[k])
    && AllRead(names, check, entries)
    && NoRepeat(names, entries)
    && Lookup(entries, names[k]).None?
    && forall m :: 0 <= m < k ==> Lookup(entries, names[m]).Some?
  }

  /** Why the derived visitor refuses `entries`, whichever it meets first:
      a value its member's reader rejects, a member given twice, or, once
      the map is read, the first absent member in declaration order. */
  predicate Refusal(names: seq<string>, check: (nat, Value) -> Option<DeError>,
                    entries: seq<(string, Value)>, e: DeError) {
    (exists i :: 0 <= i < |entries| && RefusedValue(names, check, entries, e, i))
    || (exists j :: 0 <= j < |entries| && RefusedRepeat(names, check, entries, e, j))
    || (exists k :: 0 <= k < |names| && RefusedAbsent(names, check, entries, e, k))
  }

  lemma AllReadPrefix(names: seq<string>, check: (nat, Value) -> Option<DeError>, entries: seq<(string, Value)>, n: nat)
    requires n <= |entries| && AllRead(names, check, entries)
    ensures AllRead(names, check, entries[..n])
  {
    forall i | 0 <= i < n ensures EntryError(names, check, entries[..n][i].0, entries[..n][i].1).None? {
      assert entries[..n][i] == entries[i];
    }
  }

  lemma NoRepeatPrefix(names: seq<string>, entries: seq<(string, Value)>, n: nat)
    requires n <= |entries| && NoRepeat(names, entries)
    ensures NoRepeat(names, entries[..n])
  {
    forall i, j | 0 <= i < j < n && entries[..n][i].0 in names ensures entries[..n][i].0 != entries[..n][j].0 {
      assert entries[..n][i] == entries[i] && entries[..n][j] == entries[j];
    }
  }

  /** The visitor accepts the entries exactly when every member's value reads
      and no member is given twice; it then holds each member's value. */
  lemma {:induction false} VisitEntriesAccepts(names: seq<string>, check: (nat, Value) -> Option<DeError>,
                                               entries: seq<(string, Value)>)
    requires Distinct(names)
    ensures VisitEntries(names, check, entries).Ok? <==> AllRead(names, check, entries) && NoRepeat(names, entries)
    ensures VisitEntries(names, check, entries).Ok? ==>
      forall k :: 0 <= k < |names| ==> VisitEntries(names, check, entries).value[k] == Lookup(entries, names[k])
    decreases |entries|
  {
    var n := |entries|;
    if n > 0 {
      var pre := entries[..n - 1];
      VisitEntriesAccepts(names, check, pre);
      if AllRead(names, check, entries) { AllReadPrefix(names, check, entries, n - 1); }
      if NoRepeat(names, entries) { NoRepeatPrefix(names, entries, n - 1); }
      if VisitEntries(names, check, pre).Ok? {
        LastEntryAccepted(names, check, entries);
        LastEntryValues(names, check, entries);
      }
    }
  }

  /** After an accepted prefix, the last entry is accepted exactly when its
      value reads and it does not repeat a member. */
  lemma LastEntryAccepted(names: seq<string>, check: (nat, Value) -> Option<DeError>, entries: seq<(string, Value)>)
    requires Distinct(names) && |entries| > 0
    requires var pre := entries[..|entries| - 1];
      && VisitEntries(names, check, pre).Ok?
      && AllRead(names, check, pre) && NoRepeat(names, pre)
      && forall k :: 0 <= k < |names| ==> VisitEntries(names, check, pre).value[k] == Lookup(pre, names[k])
    ensures VisitEntries(names, check, entries).Ok? <==> AllRead(names, check, entries) && NoRepeat(names, entries)
  {
    var n := |entries|;
    var pre := entries[..n - 1];
    var key, v := entries[n - 1].0, entries[n - 1].1;
    assert entries == pre + [(key, v)];
    var seen := VisitEntries(names, check, pre).value;
    match MemberIndex(names, key)
    case None =>
      AcceptedExtends(names, check, pre, (key, v));
    case Some(i) =>
      assert seen[i] == Lookup(pre, key);
      if seen[i].Some? {
        var a :| 0 <= a < |pre| && pre[a].0 == key;
        assert entries[a] == pre[a];
        assert !NoRepeat(names, entries);
      } else if check(i, v).Some? {
        assert EntryError(names, check, entries[n - 1].0, entries[n - 1].1).Some?;
      } else {
        AcceptedExtends(names, check, pre, (key, v));
      }
  }

  /** An accepted last entry fills its member's slot, if it names one, and
      leaves every other slot as it was. */
  lemma LastEntryValues(names: seq<string>, check: (nat, Value) -> Option<DeError>, entries: seq<(string, Value)>)
    requires Distinct(names) && |entries| > 0
    requires var pre := entries[..|entries| - 1];
      && VisitEntries(names, check, pre).Ok?
      && forall k :: 0 <= k < |names| ==> VisitEntries(names, check, pre).value[k] == Lookup(pre, names[k])
    ensures VisitEntries(names, check, entries).Ok? ==>
      forall k :: 0 <= k < |names| ==> VisitEntries(names, check, entries).value[k] == Lookup(entries, names[k])
  {
    var n := |entries|;
    var pre := entries[..n - 1];
    var key, v := entries[n - 1].0, entries[n - 1].1;
    assert entries == pre + [(key, v)];
    forall k | 0 <= k < |names|
      ensures Lookup(entries, names[k]) ==
        if Lookup(pre, names[k]).Some? then Lookup(pre, names[k]) else if key == names[k] then Some(v) else None
    {
      LookupSnoc(pre, (key, v), names[k]);
    }
    if MemberIndex(names, key).Some? {
      var i := MemberIndex(names, key).value;
      forall k | 0 <= k < |names| && k != i ensures names[k] != key { }
    }
  }

  /** An accepted run of entries stays accepted with one more entry whose
      value reads and which names no member seen so far. */
  lemma AcceptedExtends(names: seq<string>, check: (nat, Value) -> Option<DeError>,
                        pre: seq<(string, Value)>, e: (string, Value))
    requires AllRead(names, check, pre) && NoRepeat(names, pre)
    requires EntryError(names, check, e.0, e.1).None?
    requires e.0 in names ==> Lookup(pre, e.0).None?
    ensures AllRead(names, check, pre + [e]) && NoRepeat(names, pre + [e])
  {
    var entries := pre + [e];
    var n := |entries|;
    forall a | 0 <= a < n ensures EntryError(names, check, entries[a].0, entries[a].1).None? {
      if a < n - 1 { assert entries[a] == pre[a]; }
    }
    forall a, b | 0 <= a < b < n && entries[a].0 in names ensures entries[a].0 != entries[b].0 {
      assert entries[a] == pre[a];
      if b < n - 1 { assert entries[b] == pre[b]; }
    }
  }

  /** A refusal met while the map is still being read. */
  predicate EarlyRefusal(names: seq<string>, check: (nat, Value) -> Option<DeError>,
                         entries: seq<(string, Value)>, e: DeError) {
    (exists i :: 0 <= i < |entries| && RefusedValue(names, check, entries, e, i))
    || (exists j :: 0 <= j < |entries| && RefusedRepeat(names, check, entries, e, j))
  }

  /** A refusal among the first `n` entries is one among all of them. */
  lemma EarlyRefusalExtends(names: seq<string>, check: (nat, Value) -> Option<DeError>,
                            entries: seq<(string, Value)>, n: nat, e: DeError)
    requires n <= |entries| && EarlyRefusal(names, check, entries[..n], e)
    ensures EarlyRefusal(names, check, entries, e)
  {
    var pre := entries[..n];
    if i :| 0 <= i < |pre| && RefusedValue(names, check, pre, e, i) {
      assert pre[i] == entries[i] && pre[..i] == entries[..i] && pre[..i + 1] == entries[..i + 1];
      assert RefusedValue(names, check, entries, e, i);
    } else {
      var j :| 0 <= j < |pre| && RefusedRepeat(names, check, pre, e, j);
      assert pre[j] == entries[j] && pre[..j] == entries[..j];
      assert RefusedRepeat(names, check, entries, e, j);
    }
  }

  /** After an accepted prefix, the last entry is refused for its own reason. */
  lemma LastEntryRefused(names: seq<string>, check: (nat, Value) -> Option<DeError>, entries: seq<(string, Value)>)
    requires Distinct(names) && |entries| > 0
    requires VisitEntries(names, check, entries[..|entries| - 1]).Ok?
    requires VisitEntries(names, check, entries).Err?
    ensures EarlyRefusal(names, check, entries, VisitEntries(names, check, entries).error)
  {
    var n := |entries|;
    var e := VisitEntries(names, check, entries).error;
    var pre := entries[..n - 1];
    var key := entries[n - 1].0;
    VisitEntriesAccepts(names, check, pre);
    var seen := VisitEntries(names, check, pre).value;
    var i := MemberIndex(names, key).value;
    assert seen[i] == Lookup(pre, key);
    if seen[i].Some? {
      assert RefusedRepeat(names, check, entries, e, n - 1);
    } else {
      assert entries[..n] == entries;
      forall a, b | 0 <= a < b < n && entries[a].0 in names ensures entries[a].0 != entries[b].0 {
        assert entries[a] == pre[a];
        if b < n - 1 { assert entries[b] == pre[b]; }
      }
      assert RefusedValue(names, check, entries, e, n - 1);
    }
  }

  /** The visitor stops at the first entry it refuses, for the reason that
      entry gives. */
  lemma {:induction false} VisitEntriesRefuses(names: seq<string>, check: (nat, Value) -> Option<DeError>,
                                               entries: seq<(string, Value)>)
    requires Distinct(names)
    ensures VisitEntries(names, check, entries).Err? ==>
      EarlyRefusal(names, check, entries, VisitEntries(names, check, entries).error)
    decreases |entries|
  {
    var n := |entries|;
    if n > 0 && VisitEntries(names, check, entries).Err? {
      var pre := entries[..n - 1];
      if VisitEntries(names, check, pre).Err? {
        assert VisitEntries(names, check, entries).error == VisitEntries(names, check, pre).error;
        VisitEntriesRefuses(names, check, pre);
        EarlyRefusalExtends(names, check, entries, n - 1, VisitEntries(names, check, pre).error);
      } else {
        LastEntryRefused(names, check, entries);
      }
    }
  }

  /** A struct is read exactly when every member's value reads, no member is
      given twice and none is absent; each member then has the value its
      entry gives. */
  lemma ReadStructAccepts(names: seq<string>, check: (nat, Value) -> Option<DeError>, entries: seq<(string, Value)>)
    requires Distinct(names)
    ensures ReadStruct(names, check, entries).Ok? <==>
      AllRead(names, check, entries) && NoRepeat(names, entries)
      && forall k :: 0 <= k < |names| ==> Lookup(entries, names[k]).Some?
    ensures ReadStruct(names, check, entries).Ok? ==>
      forall k :: 0 <= k < |names| ==> Lookup(entries, names[k]) == Some(ReadStruct(names, check, entries).value[k])
  {
    VisitEntriesAccepts(names, check, entries);
  }

  /** A struct is refused for the first reason the derived visitor meets. */
  lemma ReadStructRefuses(names: seq<string>, check: (nat, Value) -> Option<DeError>, entries: seq<(string, Value)>)
    requires Distinct(names)
    ensures ReadStruct(names, check, entries).Err? ==> Refusal(names, check, entries, ReadStruct(names, check, entries).error)
  {
    var r := ReadStruct(names, check, entries);
    VisitEntriesAccepts(names, check, entries);
    VisitEntriesRefuses(names, check, entries);
    if r.Err? && VisitEntries(names, check, entries).Ok? {
      var k := FirstMissing(VisitEntries(names, check, entries).value).value;
      assert RefusedAbsent(names, check, entries, r.error, k);
    }
  }

  /** Once the visitor has refused an entry, nothing after it is read. */
  lemma {:induction false} VisitEntriesStops(names: seq<string>, check: (nat, Value) -> Option<DeError>,
                                             entries: seq<(string, Value)>, n: nat)
    requires n <= |entries| && VisitEntries(names, check, entries[..n]).Err?
    ensures VisitEntries(names, check, entries) == VisitEntries(names, check, entries[..n])
    decreases |entries| - n
  {
    assert entries[..|entries|] == entries;
    if n < |entries| {
      var m := |entries|;
      assert entries[..m - 1][..n] == entries[..n];
      VisitEntriesStops(names, check, entries[..m - 1], n);
      assert VisitEntries(names, check, entries[..m - 1]).Err?;
      assert entries[..m] == entries;
    }
  }

  /** An object giving every member once, in declaration order, each readable,
      is read to exactly its values. */
  lemma ReadStructExact(names: seq<string>, check: (nat, Value) -> Option<DeError>, entries: seq<(string, Value)>)
    requires Distinct(names) && |entries| == |names|
    requires forall k :: 0 <= k < |names| ==> entries[k].0 == names[k] && check(k, entries[k].1).None?
    ensures ReadStruct(names, check, entries).Ok?
    ensures forall k :: 0 <= k < |names| ==> ReadStruct(names, check, entries).value[k] == entries[k].1
  {
    forall k | 0 <= k < |names| ensures MemberIndex(names, names[k]) == Some(k) { }
    forall k | 0 <= k < |names| ensures Lookup(entries, names[k]) == Some(entries[k].1) {
      LookupFirst(entries, names[k], k);
    }
    ReadStructAccepts(names, check, entries);
  }

  /** The first of the first `n` elements that its member's reader refuses. */
  function FirstRefused(check: (nat, Value) -> Option<DeError>, items: seq<Value>, n: nat): (r: Option<nat>)
    requires n <= |items|
    ensures r.Some? ==> r.value < n && check(r.value, items[r.value]).Some?
                        && forall m :: 0 <= m < r.value ==> check(m, items[m]).None?
    ensures r.None? ==> forall m :: 0 <= m < n ==> check(m, items[m]).None?
    decreases n
  {
    if n == 0 then None
    else
      var r := FirstRefused(check, items, n - 1);
      if r.Some? then r
      else if check(n - 1, items[n - 1]).Some? then Some(n - 1)
      else None
  }

  /** Why the sequence visitor refuses `items`, whichever comes first in
      position order: an element its member's reader rejects, the end of a
      short array, or an element past the last member. */
  predicate TupleRefusal(names: seq<string>, check: (nat, Value) -> Option<DeError>,
                         items: seq<Value>, e: DeError) {
    (exists k :: 0 <= k < |names| && k < |items| && check(k, items[k]) == Some(e)
                 && forall m :: 0 <= m < k ==> check(m, items[m]).None?)
    || (|items| < |names| && e == InvalidLength(|items|)
        && forall m :: 0 <= m < |items| ==> check(m, items[m]).None?)
    || (|items| > |names| && e == TrailingCharacters
        && forall m :: 0 <= m < |names| ==> check(m, items[m]).None?)
  }

  /** The derived `visit_seq`, which serde_json calls for an array: the
      elements are the members by position in declaration order, each read
      by its member's reader as it comes. An array that ends before the last
      member is an invalid-length error carrying the number of elements;
      an element past the last member is refused when serde_json closes the
      sequence. */
  function ReadTuple(names: seq<string>, check: (nat, Value) -> Option<DeError>,
                     items: seq<Value>): (r: Result<seq<Value>, DeError>)
    ensures r.Ok? <==> |items| == |names| && forall k :: 0 <= k < |names| ==> check(k, items[k]).None?
    ensures r.Ok? ==> r.value == items
    ensures r.Err? ==> TupleRefusal(names, check, items, r.error)
  {
    var n := if |items| < |names| then |items| else |names|;
    match FirstRefused(check, items, n)
    case Some(k) => Err(check(k, items[k]).value)
    case None =>
      if |items| < |names| then Err(InvalidLength(|items|))
      else if |items| > |names| then Err(TrailingCharacters)
      else Ok(items)
  }

  /** `#[derive(Deserialize)]` of a struct from any value: an object goes to
      the map visitor, an array to the sequence visitor, and anything else is
      a type error naming the struct (`what`, as in "struct KeyVal"). */
  function ReadDerived(what: string, names: seq<string>, check: (nat, Value) -> Option<DeError>,
                       v: Value): (r: Result<seq<Value>, DeError>)
    ensures !v.Object? && !v.Array? ==> r == Err(InvalidType(what))
    ensures r.Ok? ==> |r.value| == |names|
    ensures r.Ok? ==> forall k :: 0 <= k < |names| ==> check(k, r.value[k]).None?
  {
    if v.Object? then ReadStruct(names, check, v.entries)
    else if v.Array? then ReadTuple(names, check, v.items)
    else Err(InvalidType(what))
  }
}

=== FILE: photos.dfy ===
/** The photo requests of src/photos.rs that the model covers, the photo
    size letters of `ThumbKind` and the `photos::Sort` order. */
module Photos {
  import opened Wrappers
  import Text
  import Json
  import Scopes
  import Query

  // ---------------------------------------------------------------------------
  // `ThumbKind`: the size letter of a photo copy
  // ---------------------------------------------------------------------------

  /** `enum ThumbKind`, `#[repr(u8)]`: proportional copies up to a width, and
      copies adapted to a square. */
  datatype ThumbKind =
    | Prop75 | Prop130 | Prop604
    | Adapt130 | Adapt200 | Adapt320
    | Prop807 | Prop1280x1024 | Prop2560x2048

  /** The letter each copy is named by in API responses. */
  function Letter(k: ThumbKind): char {
    match k
    case Prop75 => 's'
    case Prop130 => 'm'
    case Prop604 => 'x'
    case Adapt130 => 'o'
    case Adapt200 => 'p'
    case Adapt320 => 'q'
    case Prop807 => 'y'
    case Prop1280x1024 => 'z'
    case Prop2560x2048 => 'w'
  }

  /** The `u8` discriminant, declared as the ASCII code of the letter. */
  function Discriminant(k: ThumbKind): (r: nat)
    ensures r < 0x100
    ensures r == Letter(k) as int
  {
    match k
    case Prop75 => 115
    case Prop130 => 109
    case Prop604 => 120
    case Adapt130 => 111
    case Adapt200 => 112
    case Adapt320 => 113
    case Prop807 => 121
    case Prop1280x1024 => 122
    case Prop2560x2048 => 119
  }

  /** The message of the decoder's error. */
  const AlbumSizeType := "album size type"

  /** `Deserialize for ThumbKind`: a one-letter string names a copy; any other
      string is the serde error `invalid_value("album size type")`. */
  function ReadThumbKind(s: string): (r: Result<ThumbKind, Json.DeError>)
    ensures r.Err? ==> r.error == Json.InvalidValue(AlbumSizeType)
    ensures r.Ok? ==> |s| == 1
  {
    if s == "s" then Ok(Prop75)
    else if s == "m" then Ok(Prop130)
    else if s == "x" then Ok(Prop604)
    else if s == "o" then Ok(Adapt130)
    else if s == "p" then Ok(Adapt200)
    else if s == "q" then Ok(Adapt320)
    else if s == "y" then Ok(Prop807)
    else if s == "z" then Ok(Prop1280x1024)
    else if s == "w" then Ok(Prop2560x2048)
    else Err(Json.InvalidValue(AlbumSizeType))
  }

  /** Each copy's letter reads back as that copy. */
  lemma ReadLetter(k: ThumbKind)
    ensures ReadThumbKind([Letter(k)]) == Ok(k)
  {
  }

  /** The decoder accepts exactly the nine letters, and what it reads is the
      copy named by the letter it was given. */
  lemma ReadThumbKindIff(s: string)
    ensures ReadThumbKind(s).Ok? <==> exists k :: s == [Letter(k)]
    ensures ReadThumbKind(s).Ok? ==> s == [Letter(ReadThumbKind(s).value)]
  {
    if ReadThumbKind(s).Err? {
      forall k ensures s != [Letter(k)] {
        ReadLetter(k);
      }
    } else {
      assert s == [Letter(ReadThumbKind(s).value)];
    }
  }

  /** No two copies share a letter, so none shares a discriminant. */
  lemma LettersDistinct(a: ThumbKind, b: ThumbKind)
    ensures Letter(a) == Letter(b) <==> a == b
    ensures Discriminant(a) == Discriminant(b) <==> a == b
  {
    if Letter(a) == Letter(b) {
      ReadLetter(a);
      ReadLetter(b);
    }
  }

  // ---------------------------------------------------------------------------
  // `photos::Sort`
  // ---------------------------------------------------------------------------

  /** `photos::Sort`, `#[repr(u8)]`. */
  datatype Sort = DateAdded | Popularity

  function SortCode(s: Sort): nat {
    match s
    case DateAdded => 0
    case Popularity => 1
  }

  /** `AsRef<str> for Sort`. */
  function SortText(s: Sort): string {
    match s
    case DateAdded => "0"
    case Popularity => "1"
  }

  /** `Default for Sort`. */
  const DefaultSort: Sort := Popularity

  /** The text of an order is its discriminant in decimal; the default order
      is written "1". */
  lemma SortTextIsCode(s: Sort)
    ensures SortText(s) == Text.NatToString(SortCode(s))
    ensures SortText(DefaultSort) == "1"
  {
    assert Text.NatToString(0) == "0" && Text.NatToString(1) == "1";
  }

  // ---------------------------------------------------------------------------
  // `photos.createAlbum`
  // ---------------------------------------------------------------------------

  const CreateAlbumSized: seq<Query.Field> := [
    Query.Field("group_id", "group_id", Query.MaybeNumberKind, Query.TypeDefault),
    Query.Field("upload_by_admins_only", "upload_by_admins_only", Query.FlagKind, Query.TypeDefault),
    Query.Field("comments_disabled", "comments_disabled", Query.FlagKind, Query.TypeDefault)]

  const CreateAlbumUnsized: seq<Query.Field> := [
    Query.Field("title", "title", Query.TextKind, Query.Given(Query.Str(""))),
    Query.Field("description", "description", Query.TextKind, Query.Given(Query.Str(""))),
    Query.Field("privacy_view", "privacy_view", Query.TextKind, Query.Given(Query.Str(""))),
    Query.Field("privacy_comment", "privacy_comment", Query.TextKind, Query.Given(Query.Str("")))]

  const CreateAlbum: Query.Decl := Query.Decl("photos.createAlbum", [("v", "5.45")], [Scopes.Photos],
    Query.Borrowing(CreateAlbumSized, CreateAlbumUnsized))

  /** A default album creation sends the two switches as 0, no group and no
      texts, then `v=5.45`. */
  lemma CreateAlbumDefaultQuery()
    ensures Query.InitsTyped(CreateAlbum)
    ensures Query.Query(CreateAlbum, Query.New(CreateAlbum)) ==
      [("upload_by_admins_only", "0"), ("comments_disabled", "0"), ("v", "5.45")]
  {
    Query.AllTypedAppend(CreateAlbumSized, CreateAlbumUnsized);
    Query.NewQuery(CreateAlbum);
    CreateAlbumSent();
  }

  lemma CreateAlbumSent()
    ensures Query.DefaultsSent(Query.Fields(CreateAlbum)) ==
      [("upload_by_admins_only", "0"), ("comments_disabled", "0")]
  {
    CreateAlbumSizedSent();
    CreateAlbumUnsizedQuiet();
    Query.DefaultsSentAppend(CreateAlbumSized, CreateAlbumUnsized);
  }

  lemma CreateAlbumSizedSent()
    ensures Query.DefaultsSent(CreateAlbumSized) ==
      [("upload_by_admins_only", "0"), ("comments_disabled", "0")]
  {
  }

  lemma CreateAlbumUnsizedQuiet()
    ensures Query.DefaultsSent(CreateAlbumUnsized) == []
  {
    Query.QuietDefaults(CreateAlbumUnsized);
  }

  // ---------------------------------------------------------------------------
  // `photos.getAlbums`
  // ---------------------------------------------------------------------------

  /** The first page of a list: offset 0, count 100. */
  const Page: seq<Query.Field> := [
    Query.Field("offset", "offset", Query.NumberKind, Query.Given(Query.Number(0))),
    Query.Field("count", "count", Query.NumberKind, Query.Given(Query.Number(100)))]

  lemma PageSent()
    ensures Query.DefaultsSent(Page) == [("offset", "0"), ("count", "100")]
  {
    assert Text.IntToString(100) == "100" by {
      assert Text.NatToString(10) == "10";
    }
  }

  /** The owner and the three switches of an album list. */
  const AlbumsHead: seq<Query.Field> := [
    Query.Field("owner_id", "owner_id", Query.MaybeNumberKind, Query.TypeDefault),
    Query.Field("need_system", "need_system", Query.FlagKind, Query.TypeDefault),
    Query.Field("need_covers", "need_covers", Query.FlagKind, Query.TypeDefault),
    Query.Field("photo_sizes", "photo_sizes", Query.FlagKind, Query.TypeDefault)]

  const GetAlbumsUnsized: seq<Query.Field> := [
    Query.Field("album_ids", "album_ids", Query.NumberListKind, Query.Given(Query.Numbers([])))]

  /** `photos.getAlbums`: unlike the photo lists, `photo_sizes` is a field here. */
  const GetAlbums: Query.Decl := Query.Decl("photos.getAlbums", [("v", "5.45")], [],
    Query.Borrowing(AlbumsHead + Page, GetAlbumsUnsized))

  /** A default album list sends the three switches as 0, offset 0, count 100,
      then `v=5.45`; it needs no permission. */
  lemma GetAlbumsDefaultQuery()
    ensures Query.InitsTyped(GetAlbums)
    ensures Query.Query(GetAlbums, Query.New(GetAlbums)) ==
      [("need_system", "0"), ("need_covers", "0"), ("photo_sizes", "0"),
       ("offset", "0"), ("count", "100")] + [("v", "5.45")]
    ensures Query.RequestPermissions(GetAlbums) == Scopes.Empty
  {
    GetAlbumsTyped();
    GetAlbumsSent();
    Query.DefaultQueryIs(GetAlbums, Query.DefaultsSent(Query.Fields(GetAlbums)));
    Query.NoFlagsNoPermissions(GetAlbums);
  }

  lemma GetAlbumsTyped()
    ensures Query.InitsTyped(GetAlbums)
  {
    Query.AllTypedAppend(AlbumsHead, Page);
    Query.AllTypedAppend(AlbumsHead + Page, GetAlbumsUnsized);
  }

  lemma GetAlbumsSent()
    ensures Query.DefaultsSent(Query.Fields(GetAlbums)) ==
      [("need_system", "0"), ("need_covers", "0"), ("photo_sizes", "0"),
       ("offset", "0"), ("count", "100")]
  {
    GetAlbumsSizedSent();
    GetAlbumsUnsizedQuiet();
    Query.DefaultsSentAppend(AlbumsHead + Page, GetAlbumsUnsized);
  }

  lemma GetAlbumsSizedSent()
    ensures Query.DefaultsSent(AlbumsHead + Page) ==
      [("need_system", "0"), ("need_covers", "0"), ("photo_sizes", "0"),
       ("offset", "0"), ("count", "100")]
  {
    AlbumsHeadSent();
    PageSent();
    Query.DefaultsSentAppend(AlbumsHead, Page);
  }

  lemma AlbumsHeadSent()
    ensures Query.DefaultsSent(AlbumsHead) ==
      [("need_system", "0"), ("need_covers", "0"), ("photo_sizes", "0")]
  {
  }

  lemma GetAlbumsUnsizedQuiet()
    ensures Query.DefaultsSent(GetAlbumsUnsized) == []
  {
    Query.QuietDefaults(GetAlbumsUnsized);
  }

  /** The `photo_sizes` switch of an album list is always sent, as given:
      "1" when on, "0" when off. */
  lemma GetAlbumsPhotoSizes(rec: Query.Record)
    requires Query.Fits(GetAlbums, rec)
    ensures rec[3].Flag?
    ensures ("photo_sizes", if rec[3].b then "1" else "0") in Query.Query(GetAlbums, rec)
  {
    GetAlbumsSwitch(rec);
    Query.FieldSentIff(GetAlbums, rec, 3);
  }

  /** The fourth field of an album list is a switch. */
  lemma GetAlbumsSwitch(rec: Query.Record)
    requires Query.Fits(GetAlbums, rec)
    ensures rec[3].Flag? && Query.Fields(GetAlbums)[3].wire == "photo_sizes"
  {
    assert Query.Fields(GetAlbums)[3] == AlbumsHead[3];
  }

  // ---------------------------------------------------------------------------
  // `photos.get` and `photos.getAll`: two constants each
  // ---------------------------------------------------------------------------

  /** The constants of both photo lists: `v=5.45` then `photo_sizes=1`. */
  const PhotoListConsts: seq<(string, string)> := [("v", "5.45"), ("photo_sizes", "1")]

  /** The owner, the album and the switches of `photos.get`. */
  const GetHead: seq<Query.Field> := [
    Query.Field("owner_id", "owner_id", Query.MaybeNumberKind, Query.TypeDefault),
    Query.Field("album_id", "album_id", Query.MaybeNumberKind, Query.TypeDefault),
    Query.Field("rev", "rev", Query.FlagKind, Query.TypeDefault),
    Query.Field("extended", "extended", Query.FlagKind, Query.TypeDefault),
    Query.Field("feed", "feed", Query.MaybeNumberKind, Query.TypeDefault)]

  const GetUnsized: seq<Query.Field> := [
    Query.Field("photo_ids", "photo_ids", Query.NumberListKind, Query.Given(Query.Numbers([]))),
    Query.Field("feed_type", "feed_type", Query.TextKind, Query.Given(Query.Str("")))]

  /** `photos.get`. */
  const Get: Query.Decl := Query.Decl("photos.get", PhotoListConsts, [],
    Query.Borrowing(GetHead + Page, GetUnsized))

  /** Whatever the fields hold, a photo list ends with `v=5.45` then
      `photo_sizes=1`, after the fields that are not blank. */
  lemma GetConstsLast(rec: Query.Record)
    requires Query.Fits(Get, rec)
    ensures Query.Query(Get, rec) ==
      Query.KeepNonEmpty(Query.FieldPairs(Query.Fields(Get), rec)) + [("v", "5.45"), ("photo_sizes", "1")]
  {
    Query.QueryConstsLast(Get, rec);
  }

  /** A default photo list sends rev and extended as 0, offset 0, count 100,
      then the two constants. */
  lemma GetDefaultQuery()
    ensures Query.InitsTyped(Get)
    ensures Query.Query(Get, Query.New(Get)) ==
      [("rev", "0"), ("extended", "0"), ("offset", "0"), ("count", "100")]
      + [("v", "5.45"), ("photo_sizes", "1")]
  {
    GetTyped();
    GetSent();
    Query.DefaultQueryIs(Get, Query.DefaultsSent(Query.Fields(Get)));
  }

  lemma GetTyped()
    ensures Query.InitsTyped(Get)
  {
    Query.AllTypedAppend(GetHead, Page);
    Query.AllTypedAppend(GetHead + Page, GetUnsized);
  }

  lemma GetSent()
    ensures Query.DefaultsSent(Query.Fields(Get)) ==
      [("rev", "0"), ("extended", "0"), ("offset", "0"), ("count", "100")]
  {
    GetSizedSent();
    GetUnsizedQuiet();
    Query.DefaultsSentAppend(GetHead + Page, GetUnsized);
  }

  lemma GetSizedSent()
    ensures Query.DefaultsSent(GetHead + Page) ==
      [("rev", "0"), ("extended", "0"), ("offset", "0"), ("count", "100")]
  {
    GetHeadSent();
    PageSent();
    Query.DefaultsSentAppend(GetHead, Page);
  }

  lemma GetHeadSent()
    ensures Query.DefaultsSent(GetHead) == [("rev", "0"), ("extended", "0")]
  {
  }

  lemma GetUnsizedQuiet()
    ensures Query.DefaultsSent(GetUnsized) == []
  {
    Query.QuietDefaults(GetUnsized);
  }

  /** The owner and the first page of `photos.getAll`, twenty photos long. */
  const GetAllHead: seq<Query.Field> := [
    Query.Field("owner_id", "owner_id", Query.MaybeNumberKind, Query.TypeDefault),
    Query.Field("extended", "extended", Query.FlagKind, Query.TypeDefault),
    Query.Field("offset", "offset", Query.NumberKind, Query.Given(Query.Number(0))),
    Query.Field("count", "count", Query.NumberKind, Query.Given(Query.Number(20)))]

  /** The three album switches of `photos.getAll`. */
  const GetAllSwitches: seq<Query.Field> := [
    Query.Field("no_service_albums", "no_service_albums", Query.FlagKind, Query.TypeDefault),
    Query.Field("need_hidden", "need_hidden", Query.FlagKind, Query.TypeDefault),
    Query.Field("skip_hidden", "skip_hidden", Query.FlagKind, Query.TypeDefault)]

  /** `photos.getAll`: an owned request of seven fields. */
  const GetAll: Query.Decl := Query.Decl("photos.getAll", PhotoListConsts, [Scopes.Photos],
    Query.Owned(GetAllHead + GetAllSwitches))

  /** Whatever the fields hold, `photos.getAll` ends with `v=5.45` then
      `photo_sizes=1`. */
  lemma GetAllConstsLast(rec: Query.Record)
    requires Query.Fits(GetAll, rec)
    ensures Query.Query(GetAll, rec) ==
      Query.KeepNonEmpty(Query.FieldPairs(Query.Fields(GetAll), rec)) + [("v", "5.45"), ("photo_sizes", "1")]
  {
    Query.QueryConstsLast(GetAll, rec);
  }

  /** A default `photos.getAll` sends extended 0, offset 0, count 20 and the
      three album switches as 0, then the two constants. */
  lemma GetAllDefaultQuery()
    ensures Query.InitsTyped(GetAll)
    ensures Query.Query(GetAll, Query.New(GetAll)) ==
      [("extended", "0"), ("offset", "0"), ("count", "20"), ("no_service_albums", "0"),
       ("need_hidden", "0"), ("skip_hidden", "0")] + [("v", "5.45"), ("photo_sizes", "1")]
  {
    GetAllTyped();
    GetAllSent();
    Query.DefaultQueryIs(GetAll, Query.DefaultsSent(Query.Fields(GetAll)));
  }

  lemma GetAllTyped()
    ensures Query.InitsTyped(GetAll)
  {
    Query.AllTypedAppend(GetAllHead, GetAllSwitches);
  }

  lemma GetAllSent()
    ensures Query.DefaultsSent(Query.Fields(GetAll)) ==
      [("extended", "0"), ("offset", "0"), ("count", "20"), ("no_service_albums", "0"),
       ("need_hidden", "0"), ("skip_hidden", "0")]
  {
    GetAllHeadSent();
    GetAllSwitchesSent();
    Query.DefaultsSentAppend(GetAllHead, GetAllSwitches);
  }

  lemma GetAllHeadSent()
    ensures Query.DefaultsSent(GetAllHead) == [("extended", "0"), ("offset", "0"), ("count", "20")]
  {
    assert Text.IntToString(20) == "20" by {
      assert Text.NatToString(2) == "2";
    }
  }

  lemma GetAllSwitchesSent()
    ensures Query.DefaultsSent(GetAllSwitches) ==
      [("no_service_albums", "0"), ("need_hidden", "0"), ("skip_hidden", "0")]
  {
  }

  // ---------------------------------------------------------------------------
  // `video.putTag`, declared among the photo requests
  // ---------------------------------------------------------------------------

  /** The request src/photos.rs names `PutTag`: it calls `video.putTag` with
      `v=5.44` and asks for the photos permission. The four `f32` corners of
      the tag are not modelled. */
  const PutTag: Query.Decl := Query.Decl("video.putTag", [("v", "5.44")], [Scopes.Photos],
    Query.Owned(
    [Query.Field("owner_id", "owner_id", Query.MaybeNumberKind, Query.TypeDefault),
     Query.Field("user_id", "user_id", Query.NumberKind, Query.TypeDefault),
     Query.Field("photo_id", "photo_id", Query.NumberKind, Query.TypeDefault)]))

  /** The modelled pairs of a tag: its owner when given, then the user and
      the photo, then `v=5.44`. The source sends the four corners between
      the photo and `v`. */
  lemma PutTagQuery(rec: Query.Record)
    requires Query.Fits(PutTag, rec)
    ensures Query.Query(PutTag, rec) ==
      Query.Sent(("owner_id", Query.Render(rec[0])))
      + [("user_id", Query.Render(rec[1])), ("photo_id", Query.Render(rec[2]))]
      + [("v", "5.44")]
  {
    PutTagIds(rec);
    Query.AlwaysSent("user_id", rec[1]);
    Query.AlwaysSent("photo_id", rec[2]);
    Query.Query3(PutTag, rec);
  }

  /** The user and the photo of a tag are plain numbers. */
  lemma PutTagIds(rec: Query.Record)
    requires Query.Fits(PutTag, rec)
    ensures rec[1].Number? && rec[2].Number?
  {
    assert Query.Fields(PutTag)[1].kind == Query.NumberKind;
    assert Query.Fields(PutTag)[2].kind == Query.NumberKind;
  }

  // ---------------------------------------------------------------------------
  // Permissions
  // ---------------------------------------------------------------------------

  /** Album creation, `photos.getAll` and the tag ask for exactly the photos
      permission. */
  lemma PhotosPermissions(d: Query.Decl)
    requires d in {CreateAlbum, GetAll, PutTag}
    ensures forall p :: Scopes.Has(Query.RequestPermissions(d), p) <==> p == Scopes.Photos
  {
  }

  /** That permission is bit 2 alone: `permissions()` is the value 4. */
  lemma PhotosPermissionBits(d: Query.Decl)
    requires d in {CreateAlbum, GetAll, PutTag}
    ensures Query.RequestPermissions(d).bits == {2}
  {
    PhotosPermissions(d);
    assert Scopes.BitIndex(Scopes.Photos) == 2;
    forall i | i in Query.RequestPermissions(d).bits ensures i == 2 {
      Scopes.KnownBitFlag(i);
    }
  }
}

=== FILE: query.dfy ===
/** The request macros of src/macros.rs, read as one generic definition.
    `request!` and `request_ref!` declare a struct whose fields each carry a
    wire name, an initial value and a value rule; `request_trait_impl!` turns a
    value of that struct into the `(name, value)` pairs handed to the form
    serializer (`qs!`), with the declaration's constant parameters last and
    every pair whose value is empty left out. A declaration is a `Decl`, a
    value of the struct is a `Record`: one `FieldValue` per field, in order. */
module Query {
  import opened Wrappers
  import Text
  import Seqs
  import Scopes

  // ---------------------------------------------------------------------------
  // Field values and the value rules of `expand_value_expr!`
  // ---------------------------------------------------------------------------

  /** The field types, grouped by the rule that writes them:
      `bool` with `{bool}`; integers with `{}` (`ToString`); `str` with `{=}`,
      `String` with `{Borrow}` and an enum with `{AsRef}`, all written as the
      text itself; a slice of enums with `{AsRef<Vec>}`; a slice of integers
      with `{Vec}`; `Option` of an integer with `{Option}`; `Option` of an
      enum with `{AsRef<Option>}`. */
  datatype Kind =
    | FlagKind
    | NumberKind
    | TextKind
    | TextListKind
    | NumberListKind
    | MaybeNumberKind
    | MaybeTextKind

  /** A field's value. Enums are held as their `as_ref` text. */
  datatype FieldValue =
    | Flag(b: bool)
    | Number(n: int)
    | Str(s: string)
    | Strs(ss: seq<string>)
    | Numbers(ns: seq<int>)
    | MaybeNumber(on: Option<int>)
    | MaybeStr(os: Option<string>)

  function KindOf(v: FieldValue): Kind {
    match v
    case Flag(_) => FlagKind
    case Number(_) => NumberKind
    case Str(_) => TextKind
    case Strs(_) => TextListKind
    case Numbers(_) => NumberListKind
    case MaybeNumber(_) => MaybeNumberKind
    case MaybeStr(_) => MaybeTextKind
  }

  /** The values whose written form is empty, so whose pair `qs!` drops:
      an empty text, an empty list (or a list of one empty text), a `None`,
      or `Some` of an empty text. Booleans and integers are never blank. */
  predicate Blank(v: FieldValue) {
    match v
    case Flag(_) => false
    case Number(_) => false
    case Str(s) => s == ""
    case Strs(ss) => |ss| == 0 || ss == [""]
    case Numbers(ns) => |ns| == 0
    case MaybeNumber(o) => o.None?
    case MaybeStr(o) => o.None? || o.value == ""
  }

  /** `to_string` of each integer of a list. */
  function Numerals(ns: seq<int>): (r: seq<string>)
    ensures |r| == |ns|
    ensures forall i :: 0 <= i < |ns| ==> r[i] == Text.IntToString(ns[i])
  {
    if |ns| == 0 then [] else [Text.IntToString(ns[0])] + Numerals(ns[1..])
  }

  /** `expand_value_expr!`: the text a field's value is sent as. */
  function Render(v: FieldValue): (r: string)
    ensures r == "" <==> Blank(v)
  {
    match v
    case Flag(b) => if b then "1" else "0"
    case Number(n) => Text.IntToString(n)
    case Str(s) => s
    case Strs(ss) => Text.Join(ss, ',')
    case Numbers(ns) => Text.Join(Numerals(ns), ',')
    case MaybeNumber(o) => if o.Some? then Text.IntToString(o.value) else ""
    case MaybeStr(o) => if o.Some? then o.value else ""
  }

  // ---------------------------------------------------------------------------
  // Reading a value back: the inverse of `Render`
  // ---------------------------------------------------------------------------

  function ParseNumerals(ts: seq<string>): (r: Option<seq<int>>)
    ensures r.Some? ==> |r.value| == |ts|
    ensures r.Some? ==> forall i :: 0 <= i < |ts| ==> Text.ParseInt(ts[i]) == Some(r.value[i])
  {
    if |ts| == 0 then Some([])
    else
      match (Text.ParseInt(ts[0]), ParseNumerals(ts[1..]))
      case (Some(n), Some(ns)) => Some([n] + ns)
      case _ => None
  }

  /** Reads a written value of kind `k` back, as a server reading the query would. */
  function Decode(k: Kind, s: string): (r: Option<FieldValue>)
    ensures r.Some? ==> KindOf(r.value) == k
  {
    match k
    case FlagKind => if s == "1" then Some(Flag(true)) else if s == "0" then Some(Flag(false)) else None
    case NumberKind =>
      var n := Text.ParseInt(s);
      if n.Some? then Some(Number(n.value)) else None
    case TextKind => Some(Str(s))
    case TextListKind => if s == "" then Some(Strs([])) else Some(Strs(Text.Split(s, ',')))
    case NumberListKind =>
      if s == "" then Some(Numbers([]))
      else
        var ns := ParseNumerals(Text.Split(s, ','));
        if ns.Some? then Some(Numbers(ns.value)) else None
    case MaybeNumberKind =>
      if s == "" then Some(MaybeNumber(None))
      else
        var n := Text.ParseInt(s);
        if n.Some? then Some(MaybeNumber(Some(n.value))) else None
    case MaybeTextKind => if s == "" then Some(MaybeStr(None)) else Some(MaybeStr(Some(s)))
  }

  /** The values that survive being written: list items hold no ',', and no
      list is the single empty text, nor an `Option` `Some("")`, whose written
      forms coincide with an empty list and with `None`. */
  predicate Readable(v: FieldValue) {
    match v
    case Strs(ss) => ss != [""] && forall i :: 0 <= i < |ss| ==> ',' !in ss[i]
    case MaybeStr(o) => o != Some("")
    case _ => true
  }

  lemma {:induction false} NumeralsParse(ns: seq<int>)
    ensures ParseNumerals(Numerals(ns)) == Some(ns)
    decreases |ns|
  {
    if |ns| > 0 {
      NumeralsParse(ns[1..]);
      Text.IntToStringRoundTrip(ns[0]);
      ParseNumeralsCons(Text.IntToString(ns[0]), Numerals(ns[1..]), ns[0], ns[1..]);
      assert [ns[0]] + ns[1..] == ns;
    }
  }

  /** One more numeral in front parses to one more integer in front. */
  lemma ParseNumeralsCons(t: string, ts: seq<string>, n: int, ns: seq<int>)
    requires Text.ParseInt(t) == Some(n) && ParseNumerals(ts) == Some(ns)
    ensures ParseNumerals([t] + ts) == Some([n] + ns)
  {
    assert ([t] + ts)[1..] == ts;
  }

  /** Writing loses nothing: every readable value is read back as itself. */
  lemma DecodeRender(v: FieldValue)
    requires Readable(v)
    ensures Decode(KindOf(v), Render(v)) == Some(v)
  {
    match v
    case Flag(_) =>
    case Number(n) => Text.IntToStringRoundTrip(n);
    case Str(_) =>
    case Strs(ss) =>
      if |ss| > 0 && ss != [""] {
        Text.SplitJoin(ss, ',');
      }
    case Numbers(ns) =>
      if |ns| > 0 {
        var ts := Numerals(ns);
        assert forall i :: 0 <= i < |ts| ==> ',' !in ts[i];
        Text.SplitJoin(ts, ',');
        NumeralsParse(ns);
      }
    case MaybeNumber(o) =>
      if o.Some? {
        Text.IntToStringRoundTrip(o.value);
      }
    case MaybeStr(_) =>
  }

  // ---------------------------------------------------------------------------
  // Declarations
  // ---------------------------------------------------------------------------

  /** `expand_init_expr!`: `(value)` gives `value`, `()` gives `Default::default()`. */
  datatype Init = Given(value: FieldValue) | TypeDefault

  /** One field of a request struct: the Rust name (also the setter's name),
      the wire name (`as ("alias")`, otherwise the Rust name), its kind and
      initial value. */
  datatype Field = Field(name: string, wire: string, kind: Kind, init: Init)

  /** `request!` declares one list of fields; `request_ref!` a `sized` list
      and an `unsized` (borrowed) list. */
  datatype Layout =
    | Owned(fields: seq<Field>)
    | Borrowing(sized: seq<Field>, unsized: seq<Field>)

  /** A request declaration: `[method](consts) -> Response [permissions] { fields }`. */
  datatype Decl = Decl(
    methodName: string,
    consts: seq<(string, string)>,
    perms: seq<Scopes.Permission>,
    layout: Layout)

  /** The struct's fields in order: `request_ref!` lists the sized fields
      before the unsized ones, in the struct, in `new()` and in the query. */
  function Fields(d: Decl): seq<Field> {
    match d.layout
    case Owned(fs) => fs
    case Borrowing(sized, unsized) => sized + unsized
  }

  /** `Default::default()` of each kind. */
  function Zero(k: Kind): (r: FieldValue)
    ensures KindOf(r) == k
    ensures Blank(r) <==> k != FlagKind && k != NumberKind
  {
    match k
    case FlagKind => Flag(false)
    case NumberKind => Number(0)
    case TextKind => Str("")
    case TextListKind => Strs([])
    case NumberListKind => Numbers([])
    case MaybeNumberKind => MaybeNumber(None)
    case MaybeTextKind => MaybeStr(None)
  }

  /** A given initial value has its field's type, as the compiler checks. */
  predicate Typed(f: Field) {
    f.init.Given? ==> KindOf(f.init.value) == f.kind
  }

  predicate AllTyped(fs: seq<Field>) {
    forall i :: 0 <= i < |fs| ==> Typed(fs[i])
  }

  lemma AllTypedAppend(a: seq<Field>, b: seq<Field>)
    requires AllTyped(a) && AllTyped(b)
    ensures AllTyped(a + b)
  {
    forall i | 0 <= i < |a + b| ensures Typed((a + b)[i]) {
      if i >= |a| {
        assert (a + b)[i] == b[i - |a|];
      }
    }
  }

  /** Every field of the declaration is typed. */
  predicate InitsTyped(d: Decl) {
    AllTyped(Fields(d))
  }

  /** Every constant has a non-empty text, as every constant the modelled
      requests declare does. */
  predicate ConstsPresent(d: Decl) {
    forall i :: 0 <= i < |d.consts| ==> d.consts[i].1 != ""
  }

  /** A value of the declared struct: one value of the right kind per field. */
  type Record = seq<FieldValue>

  predicate Fits(d: Decl, rec: Record) {
    && |rec| == |Fields(d)|
    && forall i :: 0 <= i < |rec| ==> KindOf(rec[i]) == Fields(d)[i].kind
  }

  // ---------------------------------------------------------------------------
  // Encoding: `request_trait_impl!` and `qs!`
  // ---------------------------------------------------------------------------

  /** One `(wire name, written value)` pair per field, in field order. */
  function FieldPairs(fs: seq<Field>, rec: Record): (r: seq<(string, string)>)
    requires |rec| == |fs|
    ensures |r| == |fs|
    ensures forall i :: 0 <= i < |fs| ==> r[i] == (fs[i].wire, Render(rec[i]))
  {
    if |fs| == 0 then [] else [(fs[0].wire, Render(rec[0]))] + FieldPairs(fs[1..], rec[1..])
  }

  /** The filter of `qs!`: keeps, in order, exactly the pairs whose value is not empty. */
  function KeepNonEmpty(ps: seq<(string, string)>): (r: seq<(string, string)>)
    ensures forall i :: 0 <= i < |r| ==> r[i].1 != ""
    ensures forall p :: p in ps && p.1 != "" ==> p in r
    ensures forall p :: p in r ==> p in ps
    ensures Seqs.Subsequence(r, ps)
  {
    if |ps| == 0 then []
    else
      var rest := KeepNonEmpty(ps[1..]);
      assert forall p :: p in ps <==> p == ps[0] || p in ps[1..] by {
        assert ps == [ps[0]] + ps[1..];
      }
      if ps[0].1 != "" then
        var r := [ps[0]] + rest;
        Seqs.SubsequenceTake(ps[0], rest, ps);
        r
      else
        Seqs.SubsequenceSkip(rest, ps);
        rest
  }

  /** The filter keeps every pair with a value as often as it occurs, and no
      pair without one. */
  lemma {:induction false} KeepNonEmptyCounts(ps: seq<(string, string)>)
    ensures forall p :: multiset(KeepNonEmpty(ps))[p] == if p.1 == "" then 0 else multiset(ps)[p]
    decreases |ps|
  {
    if |ps| > 0 {
      KeepNonEmptyCounts(ps[1..]);
      assert ps == [ps[0]] + ps[1..];
      assert multiset(ps) == multiset{ps[0]} + multiset(ps[1..]);
      if ps[0].1 != "" {
        assert multiset(KeepNonEmpty(ps)) == multiset{ps[0]} + multiset(KeepNonEmpty(ps[1..]));
      }
    }
  }

  lemma {:induction false} KeepAppend(a: seq<(string, string)>, b: seq<(string, string)>)
    ensures KeepNonEmpty(a + b) == KeepNonEmpty(a) + KeepNonEmpty(b)
    decreases |a|
  {
    if |a| > 0 {
      assert (a + b)[1..] == a[1..] + b;
      KeepAppend(a[1..], b);
    } else {
      assert a + b == b;
    }
  }

  /** A single pair is kept exactly when its value is not empty. */
  lemma KeepOne(p: (string, string))
    ensures KeepNonEmpty([p]) == if p.1 == "" then [] else [p]
  {
    assert [p][1..] == [];
  }

  lemma {:induction false} KeepAllNonEmpty(ps: seq<(string, string)>)
    requires forall i :: 0 <= i < |ps| ==> ps[i].1 != ""
    ensures KeepNonEmpty(ps) == ps
    decreases |ps|
  {
    if |ps| > 0 {
      KeepAllNonEmpty(ps[1..]);
      assert [ps[0]] + ps[1..] == ps;
    }
  }

  /** `to_query_string`: the field pairs, then the constant parameters, with
      every empty value dropped; this list is what the form serializer
      escapes and joins. */
  function Query(d: Decl, rec: Record): (r: seq<(string, string)>)
    requires Fits(d, rec)
    ensures Seqs.Subsequence(r, FieldPairs(Fields(d), rec) + d.consts)
    ensures forall i :: 0 <= i < |r| ==> r[i].1 != ""
  {
    KeepNonEmpty(FieldPairs(Fields(d), rec) + d.consts)
  }

  /** The constants come last and are always present: the query is the
      non-empty field pairs followed by every constant, in declaration order. */
  lemma QueryConstsLast(d: Decl, rec: Record)
    requires ConstsPresent(d) && Fits(d, rec)
    ensures Query(d, rec) == KeepNonEmpty(FieldPairs(Fields(d), rec)) + d.consts
  {
    KeepAppend(FieldPairs(Fields(d), rec), d.consts);
    KeepAllNonEmpty(d.consts);
  }

  /** The pair of field `i`. */
  function Pair(d: Decl, rec: Record, i: nat): (string, string)
    requires Fits(d, rec) && i < |rec|
  {
    (Fields(d)[i].wire, Render(rec[i]))
  }

  /** The pair if it is sent: nothing when its value is empty. */
  function Sent(p: (string, string)): seq<(string, string)> {
    if p.1 == "" then [] else [p]
  }

  /** The sent pairs of the fields from `i` on, field by field. */
  function SentFrom(d: Decl, rec: Record, i: nat): seq<(string, string)>
    requires Fits(d, rec) && i <= |rec|
    decreases |rec| - i
  {
    if i == |rec| then [] else Sent(Pair(d, rec, i)) + SentFrom(d, rec, i + 1)
  }

  lemma {:induction false} KeepFrom(d: Decl, rec: Record, i: nat)
    requires Fits(d, rec) && i <= |rec|
    ensures KeepNonEmpty(FieldPairs(Fields(d), rec)[i..]) == SentFrom(d, rec, i)
    decreases |rec| - i
  {
    var all := FieldPairs(Fields(d), rec);
    if i < |rec| {
      KeepFrom(d, rec, i + 1);
      PairAt(d, rec, i);
      KeepStep(all, i);
    } else {
      assert all[i..] == [];
    }
  }

  lemma PairAt(d: Decl, rec: Record, i: nat)
    requires Fits(d, rec) && i < |rec|
    ensures FieldPairs(Fields(d), rec)[i] == Pair(d, rec, i)
  {
  }

  /** The filter from position `i` on: the pair at `i` if kept, then the rest. */
  lemma KeepStep(ps: seq<(string, string)>, i: nat)
    requires i < |ps|
    ensures KeepNonEmpty(ps[i..]) == Sent(ps[i]) + KeepNonEmpty(ps[i + 1..])
  {
    assert ps[i..] == [ps[i]] + ps[i + 1..];
    KeepAppend([ps[i]], ps[i + 1..]);
    KeepOne(ps[i]);
  }

  /** The query spelled out field by field: each field's pair when its
      value is not empty, in declaration order, then every constant. */
  lemma QueryFields(d: Decl, rec: Record)
    requires ConstsPresent(d) && Fits(d, rec)
    ensures Query(d, rec) == SentFrom(d, rec, 0) + d.consts
  {
    QueryConstsLast(d, rec);
    KeepFrom(d, rec, 0);
    assert FieldPairs(Fields(d), rec)[0..] == FieldPairs(Fields(d), rec);
  }

  /** Fields whose initial values are all blank send nothing when fresh. */
  lemma {:induction false} QuietDefaults(fs: seq<Field>)
    requires forall i :: 0 <= i < |fs| ==> Blank(InitialValue(fs[i]))
    ensures DefaultsSent(fs) == []
  {
    if |fs| > 0 {
      assert Blank(InitialValue(fs[0]));
      QuietDefaults(fs[1..]);
    }
  }

  lemma {:induction false} NewSentFrom(d: Decl, i: nat)
    requires InitsTyped(d) && i <= |Fields(d)|
    ensures SentFrom(d, New(d), i) == DefaultsSent(Fields(d)[i..])
    decreases |Fields(d)| - i
  {
    if i < |Fields(d)| {
      NewSentFrom(d, i + 1);
      assert Fields(d)[i..][1..] == Fields(d)[i + 1..];
    }
  }

  /** The query of a fresh request: the non-blank initial values in field
      order, then the constants. */
  lemma NewQuery(d: Decl)
    requires InitsTyped(d) && ConstsPresent(d)
    ensures Query(d, New(d)) == DefaultsSent(Fields(d)) + d.consts
  {
    QueryFields(d, New(d));
    NewSentFrom(d, 0);
    assert Fields(d)[0..] == Fields(d);
  }

  /** The query of a fresh request whose initial values send `sent`. */
  lemma DefaultQueryIs(d: Decl, sent: seq<(string, string)>)
    requires InitsTyped(d) && ConstsPresent(d) && DefaultsSent(Fields(d)) == sent
    ensures Query(d, New(d)) == sent + d.consts
  {
    NewQuery(d);
  }

  /** Numbers and switches are never blank, so their pair is always sent. */
  lemma AlwaysSent(w: string, v: FieldValue)
    requires v.Number? || v.Flag?
    ensures Sent((w, Render(v))) == [(w, Render(v))]
  {
  }

  /** The query of a three-field request, field by field. */
  lemma Query3(d: Decl, rec: Record)
    requires ConstsPresent(d) && Fits(d, rec) && |rec| == 3
    ensures Query(d, rec) ==
      Sent((Fields(d)[0].wire, Render(rec[0])))
      + Sent((Fields(d)[1].wire, Render(rec[1])))
      + Sent((Fields(d)[2].wire, Render(rec[2])))
      + d.consts
  {
    QueryFields(d, rec);
    SentFrom3(d, rec);
  }

  lemma SentFrom3(d: Decl, rec: Record)
    requires Fits(d, rec) && |rec| == 3
    ensures SentFrom(d, rec, 0) ==
      Sent((Fields(d)[0].wire, Render(rec[0])))
      + Sent((Fields(d)[1].wire, Render(rec[1])))
      + Sent((Fields(d)[2].wire, Render(rec[2])))
  {
    SentFromStep(d, rec, 0);
    SentFromStep(d, rec, 1);
    SentFromStep(d, rec, 2);
    assert SentFrom(d, rec, 3) == [];
  }

  lemma SentFromStep(d: Decl, rec: Record, i: nat)
    requires Fits(d, rec) && i < |rec|
    ensures SentFrom(d, rec, i) == Sent((Fields(d)[i].wire, Render(rec[i]))) + SentFrom(d, rec, i + 1)
  {
  }

  lemma {:induction false} FieldPairsAppend(a: seq<Field>, b: seq<Field>, rec: Record)
    requires |rec| == |a| + |b|
    ensures FieldPairs(a + b, rec) == FieldPairs(a, rec[..|a|]) + FieldPairs(b, rec[|a|..])
  {
    var l := FieldPairs(a + b, rec);
    var r := FieldPairs(a, rec[..|a|]) + FieldPairs(b, rec[|a|..]);
    assert |l| == |r|;
    forall i | 0 <= i < |l| ensures l[i] == r[i] {
      if i < |a| {
        assert (a + b)[i] == a[i];
      } else {
        assert (a + b)[i] == b[i - |a|];
      }
    }
  }

  /** `request_ref!`: every sized field's pair comes before every unsized
      field's pair, each group in declaration order, then the constants. */
  lemma QueryBorrowingOrder(d: Decl, rec: Record)
    requires ConstsPresent(d) && Fits(d, rec) && d.layout.Borrowing?
    ensures var n := |d.layout.sized|;
      Query(d, rec) ==
        KeepNonEmpty(FieldPairs(d.layout.sized, rec[..n]))
        + KeepNonEmpty(FieldPairs(d.layout.unsized, rec[n..]))
        + d.consts
  {
    var n := |d.layout.sized|;
    QueryConstsLast(d, rec);
    FieldPairsAppend(d.layout.sized, d.layout.unsized, rec);
    KeepAppend(FieldPairs(d.layout.sized, rec[..n]), FieldPairs(d.layout.unsized, rec[n..]));
  }

  /** A field is sent exactly when its value is not blank. */
  lemma FieldSentIff(d: Decl, rec: Record, i: nat)
    requires Fits(d, rec) && i < |rec|
    ensures (Fields(d)[i].wire, Render(rec[i])) in Query(d, rec) <==> !Blank(rec[i])
  {
    var ps := FieldPairs(Fields(d), rec) + d.consts;
    assert ps[i] == (Fields(d)[i].wire, Render(rec[i]));
    if !Blank(rec[i]) {
      assert ps[i] in ps;
    }
  }

  /** A blank field whose wire name no other field or constant uses leaves
      no pair of that name in the query. */
  lemma BlankNotSent(d: Decl, rec: Record, i: nat)
    requires Fits(d, rec) && i < |rec| && Blank(rec[i])
    requires forall j :: 0 <= j < |rec| && j != i ==> Fields(d)[j].wire != Fields(d)[i].wire
    requires forall j :: 0 <= j < |d.consts| ==> d.consts[j].0 != Fields(d)[i].wire
    ensures forall p :: p in Query(d, rec) ==> p.0 != Fields(d)[i].wire
  {
    var fp := FieldPairs(Fields(d), rec);
    var w := Fields(d)[i].wire;
    assert Query(d, rec) == KeepNonEmpty(fp + d.consts);
    forall p | p in Query(d, rec) ensures p.0 != w {
      assert p in fp + d.consts && p.1 != "";
      if p in fp {
        var k :| 0 <= k < |fp| && fp[k] == p;
        assert k != i;
      } else {
        var k :| 0 <= k < |d.consts| && d.consts[k] == p;
      }
    }
  }

  // ---------------------------------------------------------------------------
  // The builder: `request_builder_impl!`
  // ---------------------------------------------------------------------------

  function InitialValue(f: Field): FieldValue {
    match f.init
    case Given(v) => v
    case TypeDefault => Zero(f.kind)
  }

  /** The pairs a fresh record sends: each field's initial value, when not blank. */
  function DefaultsSent(fs: seq<Field>): seq<(string, string)> {
    if |fs| == 0 then [] else Sent((fs[0].wire, Render(InitialValue(fs[0])))) + DefaultsSent(fs[1..])
  }

  lemma {:induction false} DefaultsSentAppend(a: seq<Field>, b: seq<Field>)
    ensures DefaultsSent(a + b) == DefaultsSent(a) + DefaultsSent(b)
  {
    if |a| > 0 {
      assert (a + b)[1..] == a[1..] + b;
      DefaultsSentAppend(a[1..], b);
    } else {
      assert a + b == b;
    }
  }

  /** `new()`: every field at its declared initial value, or at
      `Default::default()` when the declaration gives `()`. */
  function New(d: Decl): (r: Record)
    requires InitsTyped(d)
    ensures Fits(d, r)
    ensures forall i :: 0 <= i < |r| && Fields(d)[i].init.Given? ==> r[i] == Fields(d)[i].init.value
    ensures forall i :: 0 <= i < |r| && Fields(d)[i].init.TypeDefault? ==> r[i] == Zero(Fields(d)[i].kind)
  {
    seq(|Fields(d)|, i requires 0 <= i < |Fields(d)| => InitialValue(Fields(d)[i]))
  }

  /** A field left at `Default::default()` is sent as "0" when it is a
      boolean or an integer, and not sent at all otherwise. */
  lemma DefaultFieldSent(d: Decl, i: nat)
    requires InitsTyped(d) && i < |Fields(d)| && Fields(d)[i].init.TypeDefault?
    ensures var f := Fields(d)[i];
      (f.kind == FlagKind || f.kind == NumberKind) ==> (f.wire, "0") in Query(d, New(d))
    ensures var f := Fields(d)[i];
      (f.kind != FlagKind && f.kind != NumberKind) ==> (f.wire, Render(New(d)[i])) !in Query(d, New(d))
  {
    FieldSentIff(d, New(d), i);
  }

  /** The position of the field named `name`, if the struct has one. */
  function FieldIndex(fs: seq<Field>, name: string): (r: Option<nat>)
    ensures r.Some? ==> r.value < |fs| && fs[r.value].name == name
    ensures r.None? <==> forall i :: 0 <= i < |fs| ==> fs[i].name != name
  {
    if |fs| == 0 then None
    else if fs[0].name == name then Some(0)
    else
      var r := FieldIndex(fs[1..], name);
      assert r.None? ==> forall i :: 0 <= i < |fs| ==> fs[i].name != name by {
        if r.None? {
          forall i | 0 <= i < |fs| ensures fs[i].name != name {
            if i > 0 {
              assert fs[1..][i - 1] == fs[i];
            }
          }
        }
      }
      if r.Some? then Some(r.value + 1) else None
  }

  /** The setter found is the first field with the name. */
  lemma {:induction false} FieldIndexFirst(fs: seq<Field>, name: string, i: nat)
    requires i < |fs| && fs[i].name == name
    requires forall j :: 0 <= j < i ==> fs[j].name != name
    ensures FieldIndex(fs, name) == Some(i)
    decreases i
  {
    if i > 0 {
      FieldIndexFirst(fs[1..], name, i - 1);
    }
  }

  /** The setter named `name` exists and accepts `v` (`Into` the field's type). */
  predicate CanSet(d: Decl, rec: Record, name: string, v: FieldValue) {
    && Fits(d, rec)
    && FieldIndex(Fields(d), name).Some?
    && KindOf(v) == Fields(d)[FieldIndex(Fields(d), name).value].kind
  }

  /** The setter `name(value)`: that field takes `v`, every other field keeps its value. */
  function Set(d: Decl, rec: Record, name: string, v: FieldValue): (r: Record)
    requires CanSet(d, rec, name, v)
    ensures Fits(d, r)
    ensures r[FieldIndex(Fields(d), name).value] == v
    ensures forall j :: 0 <= j < |r| && Fields(d)[j].name != name ==> r[j] == rec[j]
  {
    rec[FieldIndex(Fields(d), name).value := v]
  }

  /** Setting two different fields gives the same record in either order. */
  lemma SetCommutes(d: Decl, rec: Record, a: string, va: FieldValue, b: string, vb: FieldValue)
    requires CanSet(d, rec, a, va) && CanSet(d, rec, b, vb) && a != b
    ensures CanSet(d, Set(d, rec, a, va), b, vb) && CanSet(d, Set(d, rec, b, vb), a, va)
    ensures Set(d, Set(d, rec, a, va), b, vb) == Set(d, Set(d, rec, b, vb), a, va)
  {
  }

  /** A second call of the same setter overrides the first. */
  lemma SetOverrides(d: Decl, rec: Record, name: string, v: FieldValue, w: FieldValue)
    requires CanSet(d, rec, name, v) && CanSet(d, rec, name, w)
    ensures CanSet(d, Set(d, rec, name, v), name, w)
    ensures Set(d, Set(d, rec, name, v), name, w) == Set(d, rec, name, w)
  {
  }

  /** A setter changes only its own field's pair. */
  lemma SetChangesOnePair(d: Decl, rec: Record, name: string, v: FieldValue)
    requires CanSet(d, rec, name, v)
    ensures var i := FieldIndex(Fields(d), name).value;
      FieldPairs(Fields(d), Set(d, rec, name, v))
        == FieldPairs(Fields(d), rec)[i := (Fields(d)[i].wire, Render(v))]
  {
  }

  // ---------------------------------------------------------------------------
  // Permissions and method name
  // ---------------------------------------------------------------------------

  /** `permissions()`: `Permissions::new` of the OR of the declared flags. */
  function RequestPermissions(d: Decl): (r: Scopes.Permissions)
    ensures forall p :: Scopes.Has(r, p) <==> p in d.perms && Scopes.Official(p)
    ensures r.bits <= Scopes.MaskAll
  {
    Scopes.New(Scopes.FromIter(d.perms).bits)
  }

  /** No declared flags, no permissions. */
  lemma NoFlagsNoPermissions(d: Decl)
    requires |d.perms| == 0
    ensures RequestPermissions(d) == Scopes.Empty
  {
  }
}

=== FILE: scopes.dfy ===
/** Permission scopes (src/auth.rs): the fixed table of VK access flags, the
    `Permissions` bit set over them, its masking and unmasked constructors,
    rendering to the comma-separated `scope` list and parsing it back. */
module Scopes {
  import opened Wrappers
  import Text
  import Seqs

  /** The flags of `enum Permission`, in declaration order. */
  datatype Permission =
    | Notify | Friends | Photos | Audio | Video | Docs | Notes | Pages | Menu
    | Status | Offers | Questions | Wall | Groups | Messages | Email
    | Notifications | Stats | Ads | Offline | NoHttps

  /** A 32-bit pattern, kept as the set of positions of its 1-bits: position 0
      is the least significant bit, 31 the sign bit of the source's `i32`.
      Bitwise `|` is union and `&` is intersection. */
  type Bits = s: set<nat> | forall i :: i in s ==> i < 32

  /** `Permission::mask`: the `i32` discriminant, a single bit (`BitIndex` says
      which); `NoHttps` is `0x8000_0000 as i32`, the sign bit. */
  function Mask(p: Permission): (r: Bits)
    ensures |r| == 1
  {
    {BitIndex(p)}
  }

  /** `Permission::mask_all`, 0x5ebdff: bits 0-8, 10-13, 15, 17-20 and 22. */
  const MaskAll: Bits := {0, 1, 2, 3, 4, 5, 6, 7, 8, 10, 11, 12, 13, 15, 17, 18, 19, 20, 22}

  /** The slice `PERMISSIONS` returned by `Permission::variants`. */
  const Variants: seq<Permission> :=
    [Notify, Friends, Photos, Audio, Video, Docs, Notes, Pages, Menu, Status,
     Offers, Questions, Wall, Groups, Messages, Email, Notifications, Stats,
     Ads, Offline, NoHttps]

  /** The two flags the table marks as unofficial. */
  predicate Official(p: Permission) {
    p != Offline && p != NoHttps
  }

  /** `Permission::to_str`: the wire name of a flag. */
  function ToStr(p: Permission): string {
    match p
    case Notify => "notify"
    case Friends => "friends"
    case Photos => "photos"
    case Audio => "audio"
    case Video => "video"
    case Docs => "docs"
    case Notes => "notes"
    case Pages => "pages"
    case Menu => "menu"
    case Status => "status"
    case Offers => "offers"
    case Questions => "questions"
    case Wall => "wall"
    case Groups => "groups"
    case Messages => "messages"
    case Email => "email"
    case Notifications => "notifications"
    case Stats => "stats"
    case Ads => "ads"
    case Offline => "offline"
    case NoHttps => "nohttps"
  }

  /** `<Permission as FromStr>::from_str`: exact, case-sensitive name lookup. */
  function FromStr(s: string): Result<Permission, Unit> {
    match s
    case "notify" => Ok(Notify)
    case "friends" => Ok(Friends)
    case "photos" => Ok(Photos)
    case "audio" => Ok(Audio)
    case "video" => Ok(Video)
    case "docs" => Ok(Docs)
    case "notes" => Ok(Notes)
    case "pages" => Ok(Pages)
    case "menu" => Ok(Menu)
    case "status" => Ok(Status)
    case "offers" => Ok(Offers)
    case "questions" => Ok(Questions)
    case "wall" => Ok(Wall)
    case "groups" => Ok(Groups)
    case "messages" => Ok(Messages)
    case "email" => Ok(Email)
    case "notifications" => Ok(Notifications)
    case "stats" => Ok(Stats)
    case "ads" => Ok(Ads)
    case "offline" => Ok(Offline)
    case "nohttps" => Ok(NoHttps)
    case _ => Err(Unit)
  }

  // ---------------------------------------------------------------------------
  // Facts about the flag table
  // ---------------------------------------------------------------------------

  /** Every name parses back to its flag. */
  lemma FromStrToStr(p: Permission)
    ensures FromStr(ToStr(p)) == Ok(p)
  {
  }

  /** Whatever parses is the name of the flag it parses to; anything else is an error. */
  lemma ToStrFromStr(s: string)
    ensures FromStr(s).Ok? ==> ToStr(FromStr(s).value) == s
    ensures FromStr(s).Err? <==> forall p: Permission :: ToStr(p) != s
  {
    if FromStr(s).Err? {
      forall p: Permission ensures ToStr(p) != s {
        FromStrToStr(p);
      }
    }
  }

  /** Names are non-empty, comma-free and carry no surrounding whitespace. */
  lemma NameShape(p: Permission)
    ensures |ToStr(p)| > 0 && ',' !in ToStr(p) && Text.NoEdgeWhitespace(ToStr(p))
  {
    NameNoComma(p);
    NameTrimmed(p);
  }

  lemma NameNoComma(p: Permission)
    ensures |ToStr(p)| > 0 && ',' !in ToStr(p)
  {
  }

  lemma NameTrimmed(p: Permission)
    ensures Text.NoEdgeWhitespace(ToStr(p))
  {
  }

  /** Bit position of each flag's discriminant (`Notify = 1 << 0`, …, `NoHttps = 1 << 31`). */
  function BitIndex(p: Permission): (i: nat)
    ensures i < 32
  {
    match p
    case Notify => 0
    case Friends => 1
    case Photos => 2
    case Audio => 3
    case Video => 4
    case Docs => 17
    case Notes => 11
    case Pages => 7
    case Menu => 8
    case Status => 10
    case Offers => 5
    case Questions => 6
    case Wall => 13
    case Groups => 18
    case Messages => 12
    case Email => 22
    case Notifications => 19
    case Stats => 20
    case Ads => 15
    case Offline => 30
    case NoHttps => 31
  }

  /** The flag whose discriminant is bit `i`, if any. */
  function FlagAt(i: nat): Option<Permission> {
    match i
    case 0 => Some(Notify)
    case 1 => Some(Friends)
    case 2 => Some(Photos)
    case 3 => Some(Audio)
    case 4 => Some(Video)
    case 17 => Some(Docs)
    case 11 => Some(Notes)
    case 7 => Some(Pages)
    case 8 => Some(Menu)
    case 10 => Some(Status)
    case 5 => Some(Offers)
    case 6 => Some(Questions)
    case 13 => Some(Wall)
    case 18 => Some(Groups)
    case 12 => Some(Messages)
    case 22 => Some(Email)
    case 19 => Some(Notifications)
    case 20 => Some(Stats)
    case 15 => Some(Ads)
    case 30 => Some(Offline)
    case 31 => Some(NoHttps)
    case _ => None
  }

  /** Every flag owns its bit: `FlagAt` inverts `BitIndex`, so distinct flags
      have disjoint masks. */
  lemma FlagAtBitIndex(p: Permission)
    ensures FlagAt(BitIndex(p)) == Some(p)
  {
  }

  lemma BitIndexInjective(p: Permission, q: Permission)
    ensures BitIndex(p) == BitIndex(q) <==> p == q
  {
    FlagAtBitIndex(p);
    FlagAtBitIndex(q);
  }

  /** A flag's bit is inside `mask_all` exactly when the flag is official. */
  lemma OfficialBit(p: Permission)
    ensures BitIndex(p) in MaskAll <==> Official(p)
  {
    match p
    case Offline =>
    case NoHttps =>
    case _ =>
  }

  /** Every bit of `KnownBits` belongs to a flag. */
  lemma KnownBitFlag(i: nat)
    requires i in KnownBits
    ensures FlagAt(i).Some? && BitIndex(FlagAt(i).value) == i
  {
    if i < 11 {
      LowBitFlag(i);
    } else {
      HighBitFlag(i);
    }
  }

  lemma LowBitFlag(i: nat)
    requires i in KnownBits && i < 11
    ensures FlagAt(i).Some? && BitIndex(FlagAt(i).value) == i
  {
  }

  lemma HighBitFlag(i: nat)
    requires i in KnownBits && i >= 11
    ensures FlagAt(i).Some? && BitIndex(FlagAt(i).value) == i
  {
  }

  /** `mask_all` holds exactly the bits of the 19 official flags: `Offline`
      and `NoHttps` lie outside it, and no other bit is in it. */
  lemma MaskAllIsOfficialFlags()
    ensures forall p :: BitIndex(p) in MaskAll <==> Official(p)
    ensures forall i :: i in MaskAll ==> FlagAt(i).Some? && Official(FlagAt(i).value)
  {
    forall p ensures BitIndex(p) in MaskAll <==> Official(p) {
      OfficialBit(p);
    }
    forall i | i in MaskAll ensures FlagAt(i).Some? && Official(FlagAt(i).value) {
      KnownBitFlag(i);
      OfficialBit(FlagAt(i).value);
    }
  }

  // ---------------------------------------------------------------------------
  // Permissions
  // ---------------------------------------------------------------------------

  /** `struct Permissions(i32)`. */
  datatype Permissions = Permissions(bits: Bits)

  const Empty := Permissions({})

  /** The set holds `p` when `p`'s bit is on. */
  predicate Has(s: Permissions, p: Permission) {
    BitIndex(p) in s.bits
  }

  /** The bits of all 21 flags, 0xC05EBDFF. */
  const KnownBits: Bits := MaskAll + {30, 31}

  /** Only bits of named flags are on. */
  predicate OnlyKnownBits(s: Permissions) {
    s.bits <= KnownBits
  }

  /** Two sets made of named flags only are equal when they hold the same flags. */
  lemma Extensionality(a: Permissions, b: Permissions)
    requires OnlyKnownBits(a) && OnlyKnownBits(b)
    requires forall p :: Has(a, p) <==> Has(b, p)
    ensures a == b
  {
    forall i | i in a.bits ensures i in b.bits {
      KnownBitFlag(i);
      assert Has(a, FlagAt(i).value);
    }
    forall i | i in b.bits ensures i in a.bits {
      KnownBitFlag(i);
      assert Has(b, FlagAt(i).value);
    }
  }

  /** `Permissions::new`: keeps exactly the official flags of `n`, drops every other bit. */
  function New(n: Bits): (r: Permissions)
    ensures r.bits <= MaskAll
    ensures forall p :: Has(r, p) <==> Has(Permissions(n), p) && Official(p)
  {
    var r := Permissions(n * MaskAll);
    assert forall p :: Has(r, p) <==> Has(Permissions(n), p) && Official(p) by {
      forall p ensures Has(r, p) <==> Has(Permissions(n), p) && Official(p) {
        OfficialBit(p);
      }
    }
    r
  }

  /** Masking twice is masking once. */
  lemma NewIdempotent(n: Bits)
    ensures New(New(n).bits) == New(n)
  {
    assert n * MaskAll * MaskAll == n * MaskAll;
  }

  /** The unofficial flags do not survive the masking constructor. */
  lemma NewDropsUnofficial()
    ensures New(Mask(Offline)) == Empty
    ensures New(Mask(NoHttps)) == Empty
  {
    OfficialBit(Offline);
    OfficialBit(NoHttps);
    assert Mask(Offline) * MaskAll == {};
    assert Mask(NoHttps) * MaskAll == {};
  }

  /** `From<Permission>`: the flag's bit, not masked. */
  function FromPermission(p: Permission): (r: Permissions)
    ensures forall q :: Has(r, q) <==> q == p
    ensures OnlyKnownBits(r)
  {
    var r := Permissions(Mask(p));
    assert forall q :: Has(r, q) <==> q == p by {
      forall q ensures Has(r, q) <==> q == p {
        BitIndexInjective(p, q);
      }
    }
    r
  }

  /** `FromIterator<Permission>` (and `From` of an iterable of flags): OR of the
      flags' bits, left to right from 0, with no masking. */
  function FromIter(ps: seq<Permission>): (r: Permissions)
    ensures forall q :: Has(r, q) <==> q in ps
    ensures OnlyKnownBits(r)
  {
    if |ps| == 0 then Empty
    else
      var prev := FromIter(ps[..|ps| - 1]);
      var last := ps[|ps| - 1];
      assert ps == ps[..|ps| - 1] + [last];
      AddFlag(prev, ps[..|ps| - 1], last);
      FlagKnown(last);
      Permissions(prev.bits + Mask(last))
  }

  /** Every flag's bit is one of `KnownBits`. */
  lemma FlagKnown(p: Permission)
    ensures Mask(p) <= KnownBits
  {
    OfficialBit(p);
  }

  /** OR-ing one more flag into a set of the flags of `init` gives the set of
      the flags of `init + [last]`. */
  lemma AddFlag(prev: Permissions, init: seq<Permission>, last: Permission)
    requires forall q :: Has(prev, q) <==> q in init
    ensures forall q :: Has(Permissions(prev.bits + Mask(last)), q) <==> q in init + [last]
  {
    forall q ensures Has(Permissions(prev.bits + Mask(last)), q) <==> q in init + [last] {
      BitIndexInjective(last, q);
      assert q in init + [last] <==> q in init || q == last;
    }
  }

  /** `FromIterator<i32>`: OR of raw integers, with no masking. */
  function FromInts(ns: seq<Bits>): (r: Permissions)
    ensures forall i :: i in r.bits <==> exists k :: 0 <= k < |ns| && i in ns[k]
  {
    if |ns| == 0 then Empty
    else
      var prev := FromInts(ns[..|ns| - 1]);
      var last := ns[|ns| - 1];
      var r := Permissions(prev.bits + last);
      assert forall i :: i in r.bits <==> exists k :: 0 <= k < |ns| && i in ns[k] by {
        forall i ensures i in r.bits <==> exists k :: 0 <= k < |ns| && i in ns[k] {
          if i in prev.bits {
            var k :| 0 <= k < |ns| - 1 && i in ns[..|ns| - 1][k];
            assert i in ns[k];
          }
          if exists k :: 0 <= k < |ns| && i in ns[k] {
            var k :| 0 <= k < |ns| && i in ns[k];
            if k < |ns| - 1 {
              assert ns[..|ns| - 1][k] == ns[k];
            }
          }
        }
      }
      r
  }

  /** The unmasked paths keep the unofficial flags that `New` would drop. */
  lemma UnmaskedPathsKeepUnofficial()
    ensures Has(FromPermission(Offline), Offline)
    ensures Has(FromIter([Photos, NoHttps]), NoHttps)
    ensures Has(FromInts([Mask(Offline)]), Offline)
    ensures !Has(New(FromIter([Photos, NoHttps]).bits), NoHttps)
  {
    assert NoHttps in [Photos, NoHttps];
    assert BitIndex(Offline) in [Mask(Offline)][0];
  }

  /** The flags of `ps` that are on in `bits`, in the order of `ps`. */
  function SetFlags(ps: seq<Permission>, bits: Bits): (r: seq<Permission>)
    ensures forall q :: q in r <==> q in ps && BitIndex(q) in bits
    ensures Seqs.Subsequence(r, ps)
  {
    if |ps| == 0 then []
    else
      var rest := SetFlags(ps[1..], bits);
      assert forall q :: q in ps <==> q == ps[0] || q in ps[1..] by {
        assert ps == [ps[0]] + ps[1..];
      }
      if BitIndex(ps[0]) in bits then
        var r := [ps[0]] + rest;
        assert r[1..] == rest;
        r
      else
        Seqs.SubsequenceSkip(rest, ps);
        rest
  }

  /** `Into<Vec<Permission>>`: the flags that are on, in `PERMISSIONS` order. */
  function ToVec(s: Permissions): (r: seq<Permission>)
    ensures forall q :: q in r <==> Has(s, q)
    ensures Seqs.Subsequence(r, Variants)
  {
    assert forall q :: q in Variants by {
      forall q ensures q in Variants {
        InVariants(q);
      }
    }
    SetFlags(Variants, s.bits)
  }

  lemma InVariants(q: Permission)
    ensures q in Variants
  {
    match q
    case Notify => assert Variants[0] == q;
    case Friends => assert Variants[1] == q;
    case Photos => assert Variants[2] == q;
    case Audio => assert Variants[3] == q;
    case Video => assert Variants[4] == q;
    case Docs => assert Variants[5] == q;
    case Notes => assert Variants[6] == q;
    case Pages => assert Variants[7] == q;
    case Menu => assert Variants[8] == q;
    case Status => assert Variants[9] == q;
    case Offers => assert Variants[10] == q;
    case Questions => assert Variants[11] == q;
    case Wall => assert Variants[12] == q;
    case Groups => assert Variants[13] == q;
    case Messages => assert Variants[14] == q;
    case Email => assert Variants[15] == q;
    case Notifications => assert Variants[16] == q;
    case Stats => assert Variants[17] == q;
    case Ads => assert Variants[18] == q;
    case Offline => assert Variants[19] == q;
    case NoHttps => assert Variants[20] == q;
  }

  function Names(ps: seq<Permission>): (r: seq<string>)
    ensures |r| == |ps|
    ensures forall i :: 0 <= i < |ps| ==> r[i] == ToStr(ps[i])
  {
    if |ps| == 0 then [] else [ToStr(ps[0])] + Names(ps[1..])
  }

  /** `Into<Vec<&str>>`: the names of the flags that are on, in `PERMISSIONS` order. */
  function ToNames(s: Permissions): seq<string> {
    Names(ToVec(s))
  }

  /** `Into<String>`: the names joined with ",". */
  function Render(s: Permissions): string {
    Text.Join(ToNames(s), ',')
  }

  /** Maps every trimmed token through `Permission::from_str`, stopping at the
      first unknown one (`collect` into a `Result`). */
  function ParseTokens(tokens: seq<string>): (r: Result<seq<Permission>, Unit>)
    ensures r.Ok? <==> forall i :: 0 <= i < |tokens| ==> FromStr(Text.Trim(tokens[i])).Ok?
    ensures r.Ok? ==> |r.value| == |tokens|
    ensures r.Ok? ==> forall i :: 0 <= i < |tokens| ==> FromStr(Text.Trim(tokens[i])) == Ok(r.value[i])
  {
    if |tokens| == 0 then Ok([])
    else
      match FromStr(Text.Trim(tokens[0]))
      case Err(e) => Err(e)
      case Ok(p) =>
        match ParseTokens(tokens[1..])
        case Err(e) =>
          ParseTokensTailFails(tokens);
          Err(e)
        case Ok(ps) =>
          ParseTokensCons(tokens, p, ps);
          Ok([p] + ps)
  }

  /** A token after the first that fails makes the whole list fail. */
  lemma ParseTokensTailFails(tokens: seq<string>)
    requires |tokens| > 0
    requires !forall i :: 0 <= i < |tokens| - 1 ==> FromStr(Text.Trim(tokens[1..][i])).Ok?
    ensures !forall i :: 0 <= i < |tokens| ==> FromStr(Text.Trim(tokens[i])).Ok?
  {
    var j :| 0 <= j < |tokens| - 1 && !FromStr(Text.Trim(tokens[1..][j])).Ok?;
    assert tokens[1..][j] == tokens[j + 1];
  }

  /** The first token's flag before the rest's flags matches every token. */
  lemma ParseTokensCons(tokens: seq<string>, p: Permission, ps: seq<Permission>)
    requires |tokens| > 0 && FromStr(Text.Trim(tokens[0])) == Ok(p)
    requires |ps| == |tokens| - 1
    requires forall i :: 0 <= i < |tokens| - 1 ==> FromStr(Text.Trim(tokens[1..][i])) == Ok(ps[i])
    ensures forall i :: 0 <= i < |tokens| ==> FromStr(Text.Trim(tokens[i])) == Ok(([p] + ps)[i])
  {
    forall i | 0 <= i < |tokens| ensures FromStr(Text.Trim(tokens[i])) == Ok(([p] + ps)[i]) {
      if i > 0 {
        assert tokens[i] == tokens[1..][i - 1];
      }
    }
  }

  /** `<Permissions as FromStr>::from_str`: split on ",", trim each token, fail
      on the first unknown name, OR the flags (unmasked) otherwise. */
  function Parse(s: string): (r: Result<Permissions, Unit>)
    ensures r.Ok? ==> OnlyKnownBits(r.value)
    ensures r.Ok? <==> forall t :: t in Text.Split(s, ',') ==> FromStr(Text.Trim(t)).Ok?
  {
    match ParseTokens(Text.Split(s, ','))
    case Err(e) => Err(e)
    case Ok(ps) => Ok(FromIter(ps))
  }

  // ---------------------------------------------------------------------------
  // Rendering and parsing
  // ---------------------------------------------------------------------------

  /** "" does not parse: it splits into one token, the empty name, which no
      flag has. So the empty set, which renders as "" (`RenderEmptyIff`),
      does not survive a round trip. */
  lemma ParseEmptyFails()
    ensures Parse("").Err?
  {
    assert Text.Split("", ',') == [""];
    assert Text.Trim("") == "";
    EmptyNameUnknown();
  }

  /** No flag is named by the empty text. */
  lemma EmptyNameUnknown()
    ensures FromStr("").Err?
  {
  }

  /** A set renders as "" exactly when none of the table's flags is on. */
  lemma RenderEmptyIff(s: Permissions)
    ensures Render(s) == "" <==> forall q :: !Has(s, q)
  {
    var vs := ToVec(s);
    if |vs| > 0 {
      NameShape(vs[0]);
      assert Has(s, vs[0]);
    } else {
      forall q ensures !Has(s, q) {
        assert q !in vs;
      }
    }
  }

  /** Rendering then parsing gives the set back, for any non-empty set of named flags. */
  lemma ParseRender(s: Permissions)
    requires OnlyKnownBits(s)
    requires exists q :: Has(s, q)
    ensures Parse(Render(s)) == Ok(s)
  {
    var vs := ToVec(s);
    assert |vs| > 0 by {
      var q :| Has(s, q);
      assert q in vs;
    }
    NamesSplit(vs);
    NamesParse(vs);
    Extensionality(FromIter(vs), s);
  }

  /** The joined names of a non-empty list of flags split back into those names. */
  lemma NamesSplit(vs: seq<Permission>)
    requires |vs| > 0
    ensures Text.Split(Text.Join(Names(vs), ','), ',') == Names(vs)
  {
    var ns := Names(vs);
    forall i | 0 <= i < |ns| ensures ',' !in ns[i] {
      NameShape(vs[i]);
    }
    Text.SplitJoin(ns, ',');
  }

  /** The names of a list of flags parse back to that list. */
  lemma NamesParse(vs: seq<Permission>)
    ensures ParseTokens(Names(vs)) == Ok(vs)
  {
    var ns := Names(vs);
    forall i | 0 <= i < |ns| ensures FromStr(Text.Trim(ns[i])) == Ok(vs[i]) {
      NameShape(vs[i]);
      FromStrToStr(vs[i]);
    }
    var r := ParseTokens(ns);
    assert r.Ok?;
    assert r.value == vs;
  }

  /** A flag comes out of the token list exactly when some token trims to its name. */
  lemma TokenNamesFlag(tokens: seq<string>, ps: seq<Permission>, q: Permission)
    requires ParseTokens(tokens) == Ok(ps)
    ensures q in ps <==> exists t :: t in tokens && Text.Trim(t) == ToStr(q)
  {
    if q in ps {
      var i :| 0 <= i < |ps| && ps[i] == q;
      assert FromStr(Text.Trim(tokens[i])) == Ok(q);
      ToStrFromStr(Text.Trim(tokens[i]));
      assert tokens[i] in tokens;
    }
    if exists t :: t in tokens && Text.Trim(t) == ToStr(q) {
      var t :| t in tokens && Text.Trim(t) == ToStr(q);
      var i :| 0 <= i < |tokens| && tokens[i] == t;
      FromStrToStr(q);
      assert ps[i] == q;
    }
  }

  /** A parsed set holds exactly the flags named by some trimmed token of the
      input, whatever order, repetition or spacing the input used. */
  lemma ParseNamedFlags(text: string)
    ensures Parse(text).Ok? ==> forall q :: Has(Parse(text).value, q) <==>
      exists t :: t in Text.Split(text, ',') && Text.Trim(t) == ToStr(q)
  {
    if Parse(text).Ok? {
      var tokens := Text.Split(text, ',');
      ParseIsFromIter(text);
      var ps := ParseTokens(tokens).value;
      forall q ensures Has(FromIter(ps), q) <==> exists t :: t in tokens && Text.Trim(t) == ToStr(q) {
        FlagNamedByToken(tokens, ps, q);
      }
    }
  }

  /** A parse succeeds when its tokens do, and is then the set of their flags. */
  lemma ParseIsFromIter(text: string)
    ensures Parse(text).Ok? <==> ParseTokens(Text.Split(text, ',')).Ok?
    ensures Parse(text).Ok? ==> Parse(text).value == FromIter(ParseTokens(Text.Split(text, ',')).value)
  {
  }

  /** The set of a token list's flags holds a flag exactly when some token
      trims to its name. */
  lemma FlagNamedByToken(tokens: seq<string>, ps: seq<Permission>, q: Permission)
    requires ParseTokens(tokens) == Ok(ps)
    ensures Has(FromIter(ps), q) <==> exists t :: t in tokens && Text.Trim(t) == ToStr(q)
  {
    TokenNamesFlag(tokens, ps, q);
  }
}

=== FILE: seqs.dfy ===
/** Order-preserving selection from a sequence, the shape of every
    `iter().filter(..).collect()` in the SDK. */
module Seqs {

  /** `xs` lists some of the elements of `ys`, in the order of `ys`. */
  predicate Subsequence<T(==)>(xs: seq<T>, ys: seq<T>)
    decreases |ys|
  {
    if |xs| == 0 then true
    else if |ys| == 0 then false
    else (xs[0] == ys[0] && Subsequence(xs[1..], ys[1..])) || Subsequence(xs, ys[1..])
  }

  lemma SubsequenceSkip<T>(xs: seq<T>, ys: seq<T>)
    requires |ys| > 0 && Subsequence(xs, ys[1..])
    ensures Subsequence(xs, ys)
  {
  }

  lemma SubsequenceTake<T>(x: T, xs: seq<T>, ys: seq<T>)
    requires |ys| > 0 && ys[0] == x && Subsequence(xs, ys[1..])
    ensures Subsequence([x] + xs, ys)
  {
    assert ([x] + xs)[1..] == xs;
  }
}

=== FILE: text.dfy ===
/** String primitives the SDK takes from Rust's standard library: integer
    `to_string`, `join(",")`, `split(",")` and `str::trim`. */
module Text {
  import opened Wrappers

  // ---------------------------------------------------------------------------
  // Decimal rendering (`ToString` on integers)
  // ---------------------------------------------------------------------------

  predicate IsDigit(c: char) {
    '0' <= c <= '9'
  }

  predicate AllDigits(s: string) {
    forall i :: 0 <= i < |s| ==> IsDigit(s[i])
  }

  function DigitChar(d: nat): (c: char)
    requires d < 10
    ensures IsDigit(c) && c as int - '0' as int == d
  {
    (d + '0' as int) as char
  }

  /** Shortest decimal form of `n`, as Rust's `to_string` writes it. */
  function NatToString(n: nat): (r: string)
    ensures |r| >= 1 && AllDigits(r)
    ensures r[0] == '0' ==> n == 0 && |r| == 1
    decreases n
  {
    if n < 10 then [DigitChar(n)] else NatToString(n / 10) + [DigitChar(n % 10)]
  }

  /** `to_string` of a signed integer: a leading '-' for negative values. */
  function IntToString(i: int): (r: string)
    ensures |r| >= 1 && ',' !in r
  {
    if i < 0 then "-" + NatToString(-i) else NatToString(i)
  }

  /** The value of a string of decimal digits, read most significant first. */
  function DigitsValue(s: string): nat
    requires AllDigits(s)
  {
    if |s| == 0 then 0
    else DigitsValue(s[..|s| - 1]) * 10 + (s[|s| - 1] as int - '0' as int)
  }

  /** Reads back what `IntToString` writes: an optional '-' and at least one digit. */
  function ParseInt(s: string): Option<int> {
    if |s| >= 2 && s[0] == '-' && AllDigits(s[1..]) then Some(0 - DigitsValue(s[1..]) as int)
    else if |s| >= 1 && AllDigits(s) then Some(DigitsValue(s))
    else None
  }

  lemma {:induction false} NatToStringValue(n: nat)
    ensures DigitsValue(NatToString(n)) == n
    decreases n
  {
    if n >= 10 {
      NatToStringValue(n / 10);
      var s := NatToString(n / 10);
      var t := s + [DigitChar(n % 10)];
      assert t[..|t| - 1] == s;
    }
  }

  /** Decimal rendering is lossless: the text reads back as the same integer. */
  lemma IntToStringRoundTrip(i: int)
    ensures ParseInt(IntToString(i)) == Some(i)
  {
    if i < 0 {
      NegativeRoundTrip(-i);
    } else {
      NatRoundTrip(i);
    }
  }

  lemma NatRoundTrip(n: nat)
    ensures ParseInt(NatToString(n)) == Some(n)
  {
    var s := NatToString(n);
    assert IsDigit(s[0]);
    NatToStringValue(n);
  }

  lemma NegativeRoundTrip(n: nat)
    ensures ParseInt("-" + NatToString(n)) == Some(-(n as int))
  {
    var s := "-" + NatToString(n);
    assert s[1..] == NatToString(n);
    NatToStringValue(n);
  }

  /** Two integers render alike only if they are equal. */
  lemma IntToStringInjective(i: int, j: int)
    ensures IntToString(i) == IntToString(j) ==> i == j
  {
    IntToStringRoundTrip(i);
    IntToStringRoundTrip(j);
  }

  // ---------------------------------------------------------------------------
  // join / split
  // ---------------------------------------------------------------------------

  /** `slice.join(sep)`: the pieces with one separator between neighbours. */
  function Join(xs: seq<string>, sep: char): (r: string)
    ensures r == "" <==> |xs| == 0 || (|xs| == 1 && xs[0] == "")
    ensures |xs| >= 2 ==> sep in r
  {
    if |xs| == 0 then ""
    else if |xs| == 1 then xs[0]
    else xs[0] + [sep] + Join(xs[1..], sep)
  }

  /** Two pieces are joined around one separator. */
  lemma JoinPair(a: string, b: string, sep: char)
    ensures Join([a, b], sep) == a + [sep] + b
  {
    assert [a, b][1..] == [b];
  }

  /** `str::split(sep)`: the maximal separator-free pieces, always at least one;
      the empty string splits into one empty piece. */
  function Split(s: string, sep: char): (r: seq<string>)
    ensures |r| >= 1
    ensures forall i :: 0 <= i < |r| ==> sep !in r[i]
    decreases |s|
  {
    if |s| == 0 then [""]
    else
      var rest := Split(s[1..], sep);
      if s[0] == sep then [""] + rest
      else [[s[0]] + rest[0]] + rest[1..]
  }

  lemma {:induction false} SplitNoSep(x: string, sep: char)
    requires sep !in x
    ensures Split(x, sep) == [x]
    decreases |x|
  {
    if |x| > 0 {
      SplitNoSep(x[1..], sep);
      assert [x[0]] + x[1..] == x;
    }
  }

  lemma {:induction false} SplitPiece(x: string, sep: char, t: string)
    requires sep !in x
    ensures Split(x + [sep] + t, sep) == [x] + Split(t, sep)
    decreases |x|
  {
    var s := x + [sep] + t;
    if |x| == 0 {
      assert s[1..] == t;
    } else {
      assert s[1..] == x[1..] + [sep] + t;
      SplitPiece(x[1..], sep, t);
      assert [x[0]] + x[1..] == x;
    }
  }

  /** Splitting a join gives the pieces back when no piece holds the separator. */
  lemma {:induction false} SplitJoin(xs: seq<string>, sep: char)
    requires |xs| >= 1
    requires forall i :: 0 <= i < |xs| ==> sep !in xs[i]
    ensures Split(Join(xs, sep), sep) == xs
    decreases |xs|
  {
    if |xs| == 1 {
      SplitNoSep(xs[0], sep);
    } else {
      SplitJoin(xs[1..], sep);
      SplitPiece(xs[0], sep, Join(xs[1..], sep));
      assert [xs[0]] + xs[1..] == xs;
    }
  }

  /** Joining the pieces of a split restores the original string. */
  lemma {:induction false} JoinSplit(s: string, sep: char)
    ensures Join(Split(s, sep), sep) == s
    decreases |s|
  {
    if |s| > 0 {
      JoinSplit(s[1..], sep);
      var rest := Split(s[1..], sep);
      if s[0] != sep {
        var r := [[s[0]] + rest[0]] + rest[1..];
        assert r[1..] == rest[1..];
        if |rest| >= 2 {
          assert rest[1..][0] == rest[1];
          assert Join(rest, sep) == rest[0] + [sep] + Join(rest[1..], sep);
        }
        assert [s[0]] + s[1..] == s;
      } else {
        var r := [""] + rest;
        assert r[1..] == rest;
        assert [s[0]] + s[1..] == s;
      }
    }
  }

  // ---------------------------------------------------------------------------
  // trim
  // ---------------------------------------------------------------------------

  /** Unicode `White_Space`, the set `char::is_whitespace` and `str::trim` use. */
  predicate IsWhitespace(c: char) {
    || ('\t' <= c <= '\r') || c == ' ' || c == '\U{85}' || c == '\U{A0}'
    || c == '\U{1680}' || ('\U{2000}' <= c <= '\U{200A}') || c == '\U{2028}'
    || c == '\U{2029}' || c == '\U{202F}' || c == '\U{205F}' || c == '\U{3000}'
  }

  predicate NoEdgeWhitespace(s: string) {
    |s| > 0 ==> !IsWhitespace(s[0]) && !IsWhitespace(s[|s| - 1])
  }

  function TrimStart(s: string): (r: string)
    ensures |r| <= |s| && r == s[|s| - |r|..]
    ensures |r| > 0 ==> !IsWhitespace(r[0])
    ensures forall i :: 0 <= i < |s| - |r| ==> IsWhitespace(s[i])
  {
    if |s| > 0 && IsWhitespace(s[0]) then TrimStart(s[1..]) else s
  }

  function TrimEnd(s: string): (r: string)
    ensures |r| <= |s| && r == s[..|r|]
    ensures |r| > 0 ==> !IsWhitespace(r[|r| - 1])
    ensures forall i :: |r| <= i < |s| ==> IsWhitespace(s[i])
  {
    if |s| > 0 && IsWhitespace(s[|s| - 1]) then TrimEnd(s[..|s| - 1]) else s
  }

  /** `str::trim`: drops leading and trailing whitespace, keeps the inside. */
  function Trim(s: string): (r: string)
    ensures NoEdgeWhitespace(r)
    ensures NoEdgeWhitespace(s) ==> r == s
  {
    TrimEnd(TrimStart(s))
  }

  /** `trim` cuts only whitespace: the result is a slice of the string with
      nothing but whitespace on either side of it. */
  lemma TrimSlice(s: string)
    ensures exists i, j :: 0 <= i <= j <= |s| && Trim(s) == s[i..j]
                           && (forall k :: 0 <= k < i ==> IsWhitespace(s[k]))
                           && (forall k :: j <= k < |s| ==> IsWhitespace(s[k]))
  {
    var t := TrimStart(s);
    var r := TrimEnd(t);
    var i := |s| - |t|;
    assert r == s[i..i + |r|];
    assert forall k :: i + |r| <= k < |s| ==> s[k] == t[k - i];
  }
}

=== FILE: token.dfy ===
/** Access tokens (src/auth.rs): reading the token endpoint's JSON answer
    (`FromResponse`), expiry (`Lifetime::expired`) and the serde form of the
    lifetime. An instant is seconds since the Unix epoch plus nanoseconds;
    the clock reading `UTC::now()` is the parameter `now`. */
module Token {
  import opened Wrappers
  import Json

  /** `oauth2::client::response::ParseError::ExpectedFieldType(field, type)`. */
  datatype ParseError = ExpectedFieldType(field: string, expected: string)

  /** Nanoseconds past a whole second. */
  type Nanos = n: nat | n < 1_000_000_000

  /** A `DateTime<UTC>`: the whole seconds since the Unix epoch (rounded
      down) and the nanoseconds past them. */
  datatype Instant = Instant(secs: int, nanos: Nanos)

  /** chrono's order of instants: by seconds, then by nanoseconds. */
  predicate AtOrBefore(a: Instant, b: Instant) {
    a.secs < b.secs || (a.secs == b.secs && a.nanos <= b.nanos)
  }

  /** `t + Duration::seconds(d)`. */
  function AddSeconds(t: Instant, d: int): (r: Instant)
    ensures r.nanos == t.nanos && r.secs - t.secs == d
  {
    Instant(t.secs + d, t.nanos)
  }

  /** `AccessTokenLifetime`: the instant the token stops being valid, if ever. */
  datatype Lifetime = Lifetime(expires: Option<Instant>)

  /** `Lifetime::expired`: false when there is no expiry, `expires <= now` otherwise. */
  predicate Expired(l: Lifetime, now: Instant) {
    l.expires.Some? && AtOrBefore(l.expires.value, now)
  }

  /** Once expired, a lifetime stays expired. */
  lemma ExpiredStays(l: Lifetime, now: Instant, later: Instant)
    requires Expired(l, now) && AtOrBefore(now, later)
    ensures Expired(l, later)
  {
  }

  /** A lifetime without expiry never expires. */
  lemma NoExpiryNeverExpires(now: Instant)
    ensures !Expired(Lifetime(None), now)
  {
  }

  /** The `expires_in` member when it is an `i64`. */
  function ExpiresIn(json: Json.Value): Option<int> {
    var f := Json.Find(json, "expires_in");
    if f.Some? then Json.AsI64(f.value) else None
  }

  /** `AccessTokenLifetime::from_response`: `expires_in` must be an `i64`; a
      positive value expires that many seconds after `now`, zero or less never. */
  function LifetimeFromResponse(json: Json.Value, now: Instant): (r: Result<Lifetime, ParseError>)
    ensures r.Err? <==> ExpiresIn(json).None?
    ensures r.Err? ==> r.error == ExpectedFieldType("expires_in", "i64")
    ensures r.Ok? ==> (r.value.expires.Some? <==> ExpiresIn(json).value > 0)
    ensures r.Ok? && r.value.expires.Some? ==>
      r.value.expires.value.secs - now.secs == ExpiresIn(json).value && r.value.expires.value.nanos == now.nanos
  {
    match ExpiresIn(json)
    case None => Err(ExpectedFieldType("expires_in", "i64"))
    case Some(e) => Ok(Lifetime(if e > 0 then Some(AddSeconds(now, e)) else None))
  }

  /** A lifetime read at `now` is not expired at `now`; with a positive
      `expires_in` it is expired at exactly the instants from `expires_in`
      seconds after `now` on. */
  lemma FreshLifetime(json: Json.Value, now: Instant)
    requires LifetimeFromResponse(json, now).Ok?
    ensures !Expired(LifetimeFromResponse(json, now).value, now)
    ensures var e := ExpiresIn(json).value;
      e > 0 ==> forall t :: Expired(LifetimeFromResponse(json, now).value, t) <==> AtOrBefore(AddSeconds(now, e), t)
  {
  }

  /** A repeated `expires_in` counts with its last value, as `Json::find` sees it. */
  lemma LastExpiresInCounts()
    ensures LifetimeFromResponse(Json.Object([("expires_in", Json.Int(5)), ("expires_in", Json.Int(0))]), Instant(100, 0))
            == Ok(Lifetime(None))
    ensures LifetimeFromResponse(Json.Object([("expires_in", Json.Int(0)), ("expires_in", Json.Int(5))]), Instant(100, 7))
            == Ok(Lifetime(Some(Instant(105, 7))))
  {
    Json.FindAppend([("expires_in", Json.Int(5))], ("expires_in", Json.Int(0)), "expires_in");
    Json.FindAppend([("expires_in", Json.Int(0))], ("expires_in", Json.Int(5)), "expires_in");
  }

  /** `AccessToken` (declared in a generated file): the optional e-mail, the
      user id, the token text and its lifetime. */
  datatype AccessToken = AccessToken(email: Option<string>, userId: nat, accessToken: string, lifetime: Lifetime)

  /** `Token::expired` delegates to the lifetime. */
  predicate TokenExpired(t: AccessToken, now: Instant) {
    Expired(t.lifetime, now)
  }

  function UserIdField(json: Json.Value): (r: Option<nat>) {
    var f := Json.Find(json, "user_id");
    if f.Some? then Json.AsU64(f.value) else None
  }

  function TokenTextField(json: Json.Value): (r: Option<string>) {
    var f := Json.Find(json, "access_token");
    if f.Some? then Json.AsString(f.value) else None
  }

  function EmailField(json: Json.Value): (r: Option<string>) {
    var f := Json.Find(json, "email");
    if f.Some? then Json.AsString(f.value) else None
  }

  /** `AccessToken::from_response`: `user_id` (a `u64`), then `access_token`
      (a string), then the lifetime, each failure ending the read; `email` is
      taken when it is a string and ignored otherwise. */
  function TokenFromResponse(json: Json.Value, now: Instant): (r: Result<AccessToken, ParseError>)
    ensures UserIdField(json).None? ==> r == Err(ExpectedFieldType("user_id", "u64"))
    ensures UserIdField(json).Some? && TokenTextField(json).None? ==>
      r == Err(ExpectedFieldType("access_token", "string"))
    ensures UserIdField(json).Some? && TokenTextField(json).Some? ==>
      (r.Err? <==> LifetimeFromResponse(json, now).Err?)
    ensures r.Ok? ==> r.value.userId == UserIdField(json).value
    ensures r.Ok? ==> r.value.accessToken == TokenTextField(json).value
    ensures r.Ok? ==> r.value.email == EmailField(json)
    ensures r.Ok? ==> r.value.lifetime == LifetimeFromResponse(json, now).value
  {
    var email := EmailField(json);
    var userId := UserIdField(json);
    if userId.None? then Err(ExpectedFieldType("user_id", "u64"))
    else
      var text := TokenTextField(json);
      if text.None? then Err(ExpectedFieldType("access_token", "string"))
      else
        var lifetime :- LifetimeFromResponse(json, now);
        Ok(AccessToken(email, userId.value, text.value, lifetime))
  }

  /** A token read at `now` is not expired at `now`. */
  lemma FreshToken(json: Json.Value, now: Instant)
    requires TokenFromResponse(json, now).Ok?
    ensures !TokenExpired(TokenFromResponse(json, now).value, now)
  {
    FreshLifetime(json, now);
  }

  /** A repeated `user_id` counts with its last value, even when an earlier
      one is mistyped, as `Json::find` sees it. */
  lemma LastUserIdCounts()
    ensures TokenFromResponse(Json.Object([("user_id", Json.Str("x")), ("access_token", Json.Str("t")),
                                           ("expires_in", Json.Int(0)), ("user_id", Json.Int(7))]), Instant(0, 0))
            == Ok(AccessToken(None, 7, "t", Lifetime(None)))
  {
    var es := [("user_id", Json.Str("x")), ("access_token", Json.Str("t")),
               ("expires_in", Json.Int(0)), ("user_id", Json.Int(7))];
    var json := Json.Object(es);
    FindInFront(es);
    assert UserIdField(json) == Some(7);
    assert TokenTextField(json) == Some("t");
    assert ExpiresIn(json) == Some(0);
    assert EmailField(json) == None;
    assert LifetimeFromResponse(json, Instant(0, 0)) == Ok(Lifetime(None));
  }

  /** The members of the object of `LastUserIdCounts`, each the last entry
      of its name. */
  lemma FindInFront(es: seq<(string, Json.Value)>)
    requires es == [("user_id", Json.Str("x")), ("access_token", Json.Str("t")),
                    ("expires_in", Json.Int(0)), ("user_id", Json.Int(7))]
    ensures Json.Find(Json.Object(es), "user_id") == Some(Json.Int(7))
    ensures Json.Find(Json.Object(es), "access_token") == Some(Json.Str("t"))
    ensures Json.Find(Json.Object(es), "expires_in") == Some(Json.Int(0))
    ensures Json.Find(Json.Object(es), "email") == None
  {
    Json.FindLastOf(es, "user_id", 3);
    Json.FindLastOf(es, "access_token", 1);
    Json.FindLastOf(es, "expires_in", 2);
    assert es[0].0 != "email" && es[1].0 != "email" && es[2].0 != "email" && es[3].0 != "email";
  }

  /** A mistyped last `user_id` is refused even after a well-typed one. */
  lemma LastUserIdRefused()
    ensures TokenFromResponse(Json.Object([("user_id", Json.Int(7)), ("access_token", Json.Str("t")),
                                           ("expires_in", Json.Int(0)), ("user_id", Json.Str("x"))]), Instant(0, 0))
            == Err(ExpectedFieldType("user_id", "u64"))
  {
    var front := [("user_id", Json.Int(7)), ("access_token", Json.Str("t")), ("expires_in", Json.Int(0))];
    Json.FindAppend(front, ("user_id", Json.Str("x")), "user_id");
  }

  /** An `expires_in` from 2^63 on is cast by `as_i64` to a negative number,
      so the token never expires. */
  lemma HugeExpiresInNeverExpires(now: Instant)
    ensures LifetimeFromResponse(Json.Object([("expires_in", Json.Int(Json.I64Limit))]), now) == Ok(Lifetime(None))
  {
    Json.FindLastOf([("expires_in", Json.Int(Json.I64Limit))], "expires_in", 0);
  }

  /** A negative `user_id` is cast by `as_u64` to 2^64 plus it. */
  lemma NegativeUserIdWraps()
    ensures TokenFromResponse(Json.Object([("user_id", Json.Int(-1)), ("access_token", Json.Str("t")),
                                           ("expires_in", Json.Int(0))]), Instant(0, 0))
            == Ok(AccessToken(None, Json.U64Limit - 1, "t", Lifetime(None)))
  {
    var es := [("user_id", Json.Int(-1)), ("access_token", Json.Str("t")), ("expires_in", Json.Int(0))];
    var json := Json.Object(es);
    Json.FindLastOf(es, "user_id", 0);
    Json.FindLastOf(es, "access_token", 1);
    Json.FindLastOf(es, "expires_in", 2);
    assert es[0].0 != "email" && es[1].0 != "email" && es[2].0 != "email";
    assert UserIdField(json) == Some(Json.U64Limit - 1);
    assert LifetimeFromResponse(json, Instant(0, 0)) == Ok(Lifetime(None));
  }

  // ---------------------------------------------------------------------------
  // serde form of the lifetime
  // ---------------------------------------------------------------------------

  /** `Serialize`: the expiry's `timestamp()`, its whole seconds, or null. */
  function LifetimeToJson(l: Lifetime): (r: Json.Value)
    ensures r.Null? <==> l.expires.None?
    ensures r.Int? <==> l.expires.Some?
    ensures r.Int? ==> AtOrBefore(Instant(r.n, 0), l.expires.value)
                       && !AtOrBefore(Instant(r.n + 1, 0), l.expires.value)
  {
    if l.expires.Some? then Json.Int(l.expires.value.secs) else Json.Null
  }

  /** `Deserialize`: an `Option<u64>` whose value is cast `as i64`. */
  function LifetimeFromJson(v: Json.Value): (r: Result<Lifetime, Json.DeError>)
    ensures r.Ok? <==> v.Null? || (v.Int? && 0 <= v.n < Json.U64Limit)
  {
    if v.Null? then Ok(Lifetime(None))
    else if v.Int? && 0 <= v.n < Json.U64Limit then Ok(Lifetime(Some(Instant(Json.WrapI64(v.n), 0))))
    else Err(Json.InvalidType("u64"))
  }

  /** The lifetime with its expiry's nanoseconds dropped. */
  function WholeSeconds(l: Lifetime): (r: Lifetime)
    ensures r.expires.None? <==> l.expires.None?
    ensures r.expires.Some? ==> r.expires.value.secs == l.expires.value.secs && r.expires.value.nanos == 0
  {
    if l.expires.Some? then Lifetime(Some(Instant(l.expires.value.secs, 0))) else l
  }

  /** For no expiry and every expiry from the epoch up to the `i64` limit,
      the serde form reads back as the same second with the nanoseconds
      dropped: the very lifetime exactly when it has no nanoseconds. */
  lemma LifetimeJsonRoundTrip(l: Lifetime)
    requires l.expires.Some? ==> 0 <= l.expires.value.secs < Json.I64Limit
    ensures LifetimeFromJson(LifetimeToJson(l)) == Ok(WholeSeconds(l))
    ensures LifetimeFromJson(LifetimeToJson(l)) == Ok(l) <==> l.expires.None? || l.expires.value.nanos == 0
  {
  }

  /** A lifetime read from the token endpoint at a clock reading with
      nanoseconds does not survive the serde round trip: the derived
      `PartialEq` tells it from what is read back. */
  lemma ResponseLifetimeLosesNanos(json: Json.Value, now: Instant)
    requires LifetimeFromResponse(json, now).Ok? && ExpiresIn(json).value > 0
    requires now.nanos > 0 && 0 <= now.secs + ExpiresIn(json).value < Json.I64Limit
    ensures LifetimeFromJson(LifetimeToJson(LifetimeFromResponse(json, now).value))
            != Ok(LifetimeFromResponse(json, now).value)
  {
    LifetimeJsonRoundTrip(LifetimeFromResponse(json, now).value);
  }

  /** An expiry before the epoch is written as a negative number, which the
      `u64` reader rejects. */
  lemma NegativeExpiryUnreadable(t: Instant)
    requires t.secs < 0
    ensures LifetimeFromJson(LifetimeToJson(Lifetime(Some(t)))).Err?
  {
  }
}

=== FILE: user_fields.dfy ===
/** `users::UserOptionField` (src/users.rs): the profile fields a user
    request can ask for, an `enum_str!` table of 51 rows. The table is
    written in blocks of nine rows, and its distinctness is established block
    by block. */
module UserFields {
  import opened Wrappers
  import EnumStr

  datatype UserOptionField =
    | Verified
    | Blacklisted
    | Sex
    | Birthdate
    | City
    | Country
    | HomeTown
    | Photo50
    | Photo100
    | Photo200Orig
    | Photo200
    | Photo400Orig
    | PhotoMax
    | PhotoMaxOrig
    | Online
    | Lists
    | Domain
    | HasMobile
    | Contacts
    | Site
    | Education
    | Universities
    | Schools
    | Status
    | LastSeen
    | FollowersCount
    | CommonCount
    | Counters
    | Occupation
    | Nickname
    | Relatives
    | Relation
    | Personal
    | Connections
    | Exports
    | WallComments
    | Activities
    | Interests
    | Music
    | Movies
    | TvShows
    | Books
    | Games
    | About
    | Quotes
    | CanPost
    | CanSeeAllPosts
    | CanSeeAudio
    | CanWritePrivateMessage
    | Timezone
    | ScreenName

  const R0: EnumStr.Table<UserOptionField> := [
    (Verified, "verified"),
    (Blacklisted, "blacklisted"),
    (Sex, "sex"),
    (Birthdate, "bdate"),
    (City, "city"),
    (Country, "country"),
    (HomeTown, "home_town"),
    (Photo50, "photo_50"),
    (Photo100, "photo_100")]

  const R1: EnumStr.Table<UserOptionField> := [
    (Photo200Orig, "photo_200_orig"),
    (Photo200, "photo_200"),
    (Photo400Orig, "photo_400_orig"),
    (PhotoMax, "photo_max"),
    (PhotoMaxOrig, "photo_max_orig"),
    (Online, "online"),
    (Lists, "lists"),
    (Domain, "domain"),
    (HasMobile, "has_mobile")]

  const R2: EnumStr.Table<UserOptionField> := [
    (Contacts, "contacts"),
    (Site, "site"),
    (Education, "education"),
    (Universities, "universities"),
    (Schools, "schools"),
    (Status, "status"),
    (LastSeen, "last_seen"),
    (FollowersCount, "followers_count"),
    (CommonCount, "common_count")]

  const R3: EnumStr.Table<UserOptionField> := [
    (Counters, "counters"),
    (Occupation, "occupation"),
    (Nickname, "nickname"),
    (Relatives, "relatives"),
    (Relation, "relation"),
    (Personal, "personal"),
    (Connections, "connections"),
    (Exports, "exports"),
    (WallComments, "wall_comments")]

  const R4: EnumStr.Table<UserOptionField> := [
    (Activities, "activities"),
    (Interests, "interests"),
    (Music, "music"),
    (Movies, "movies"),
    (TvShows, "tv"),
    (Books, "books"),
    (Games, "games"),
    (About, "about"),
    (Quotes, "quotes")]

  const R5: EnumStr.Table<UserOptionField> := [
    (CanPost, "canPost"),
    (CanSeeAllPosts, "can_see_all_posts"),
    (CanSeeAudio, "can_see_audio"),
    (CanWritePrivateMessage, "can_write_private_message"),
    (Timezone, "timezone"),
    (ScreenName, "screen_name")]

  /** The rows in declaration order. */
  const Rows: EnumStr.Table<UserOptionField> := R0 + R1 + R2 + R3 + R4 + R5

  /** Every text is a non-empty word without a comma, so a list of fields
      is read back from its comma-joined form. */
  predicate ListSafe(t: EnumStr.Table<UserOptionField>) {
    forall i :: 0 <= i < |t| ==> t[i].1 != "" && ',' !in t[i].1
  }

  lemma Texts0()
    ensures EnumStr.DistinctTexts(R0)
  {
  }

  lemma Variants0()
    ensures EnumStr.DistinctVariants(R0)
  {
  }

  lemma Safe0()
    ensures ListSafe(R0)
  {
  }

  lemma Texts1()
    ensures EnumStr.DistinctTexts(R1)
  {
  }

  lemma Variants1()
    ensures EnumStr.DistinctVariants(R1)
  {
  }

  lemma Safe1()
    ensures ListSafe(R1)
  {
  }

  lemma Texts2()
    ensures EnumStr.DistinctTexts(R2)
  {
  }

  lemma Variants2()
    ensures EnumStr.DistinctVariants(R2)
  {
  }

  lemma Safe2()
    ensures ListSafe(R2)
  {
  }

  lemma Texts3()
    ensures EnumStr.DistinctTexts(R3)
  {
  }

  lemma Variants3()
    ensures EnumStr.DistinctVariants(R3)
  {
  }

  lemma Safe3()
    ensures ListSafe(R3)
  {
  }

  lemma Texts4()
    ensures EnumStr.DistinctTexts(R4)
  {
  }

  lemma Variants4()
    ensures EnumStr.DistinctVariants(R4)
  {
  }

  lemma Safe4()
    ensures ListSafe(R4)
  {
  }

  lemma Texts5()
    ensures EnumStr.DistinctTexts(R5)
  {
  }

  lemma Variants5()
    ensures EnumStr.DistinctVariants(R5)
  {
  }

  lemma Safe5()
    ensures ListSafe(R5)
  {
  }

  lemma TextsApart01()
    ensures EnumStr.TextsDisjoint(R0, R1)
  {
  }

  lemma VariantsApart01()
    ensures EnumStr.VariantsDisjoint(R0, R1)
  {
  }

  lemma TextsApart02()
    ensures EnumStr.TextsDisjoint(R0, R2)
  {
  }

  lemma VariantsApart02()
    ensures EnumStr.VariantsDisjoint(R0, R2)
  {
  }

  lemma TextsApart03()
    ensures EnumStr.TextsDisjoint(R0, R3)
  {
  }

  lemma VariantsApart03()
    ensures EnumStr.VariantsDisjoint(R0, R3)
  {
  }

  lemma TextsApart04()
    ensures EnumStr.TextsDisjoint(R0, R4)
  {
  }

  lemma VariantsApart04()
    ensures EnumStr.VariantsDisjoint(R0, R4)
  {
  }

  lemma TextsApart05()
    ensures EnumStr.TextsDisjoint(R0, R5)
  {
  }

  lemma VariantsApart05()
    ensures EnumStr.VariantsDisjoint(R0, R5)
  {
  }

  lemma TextsApart12()
    ensures EnumStr.TextsDisjoint(R1, R2)
  {
  }

  lemma VariantsApart12()
    ensures EnumStr.VariantsDisjoint(R1, R2)
  {
  }

  lemma TextsApart13()
    ensures EnumStr.TextsDisjoint(R1, R3)
  {
  }

  lemma VariantsApart13()
    ensures EnumStr.VariantsDisjoint(R1, R3)
  {
  }

  lemma TextsApart14()
    ensures EnumStr.TextsDisjoint(R1, R4)
  {
  }

  lemma VariantsApart14()
    ensures EnumStr.VariantsDisjoint(R1, R4)
  {
  }

  lemma TextsApart15()
    ensures EnumStr.TextsDisjoint(R1, R5)
  {
  }

  lemma VariantsApart15()
    ensures EnumStr.VariantsDisjoint(R1, R5)
  {
  }

  lemma TextsApart23()
    ensures EnumStr.TextsDisjoint(R2, R3)
  {
  }

  lemma VariantsApart23()
    ensures EnumStr.VariantsDisjoint(R2, R3)
  {
  }

  lemma TextsApart24()
    ensures EnumStr.TextsDisjoint(R2, R4)
  {
  }

  lemma VariantsApart24()
    ensures EnumStr.VariantsDisjoint(R2, R4)
  {
  }

  lemma TextsApart25()
    ensures EnumStr.TextsDisjoint(R2, R5)
  {
  }

  lemma VariantsApart25()
    ensures EnumStr.VariantsDisjoint(R2, R5)
  {
  }

  lemma TextsApart34()
    ensures EnumStr.TextsDisjoint(R3, R4)
  {
  }

  lemma VariantsApart34()
    ensures EnumStr.VariantsDisjoint(R3, R4)
  {
  }

  lemma TextsApart35()
    ensures EnumStr.TextsDisjoint(R3, R5)
  {
  }

  lemma VariantsApart35()
    ensures EnumStr.VariantsDisjoint(R3, R5)
  {
  }

  lemma TextsApart45()
    ensures EnumStr.TextsDisjoint(R4, R5)
  {
  }

  lemma VariantsApart45()
    ensures EnumStr.VariantsDisjoint(R4, R5)
  {
  }

  /** The table is a proper `enum_str!` table: no two rows share a text or
      a variant, and every text is list-safe. */
  lemma RowsWellFormed()
    ensures EnumStr.DistinctTexts(Rows) && EnumStr.DistinctVariants(Rows)
    ensures ListSafe(Rows)
  {
    Texts0();
    Variants0();
    Safe0();
    Texts1();
    Variants1();
    Safe1();
    Texts2();
    Variants2();
    Safe2();
    Texts3();
    Variants3();
    Safe3();
    Texts4();
    Variants4();
    Safe4();
    Texts5();
    Variants5();
    Safe5();
    TextsApart01();
    VariantsApart01();
    TextsApart02();
    VariantsApart02();
    TextsApart03();
    VariantsApart03();
    TextsApart04();
    VariantsApart04();
    TextsApart05();
    VariantsApart05();
    TextsApart12();
    VariantsApart12();
    TextsApart13();
    VariantsApart13();
    TextsApart14();
    VariantsApart14();
    TextsApart15();
    VariantsApart15();
    TextsApart23();
    VariantsApart23();
    TextsApart24();
    VariantsApart24();
    TextsApart25();
    VariantsApart25();
    TextsApart34();
    VariantsApart34();
    TextsApart35();
    VariantsApart35();
    TextsApart45();
    VariantsApart45();
    EnumStr.Concat(R0, R1);
    EnumStr.DisjointConcat(R0, R1, R2);
    EnumStr.Concat(R0 + R1, R2);
    EnumStr.DisjointConcat(R0, R1, R3);
    EnumStr.DisjointConcat(R0 + R1, R2, R3);
    EnumStr.Concat(R0 + R1 + R2, R3);
    EnumStr.DisjointConcat(R0, R1, R4);
    EnumStr.DisjointConcat(R0 + R1, R2, R4);
    EnumStr.DisjointConcat(R0 + R1 + R2, R3, R4);
    EnumStr.Concat(R0 + R1 + R2 + R3, R4);
    EnumStr.DisjointConcat(R0, R1, R5);
    EnumStr.DisjointConcat(R0 + R1, R2, R5);
    EnumStr.DisjointConcat(R0 + R1 + R2, R3, R5);
    EnumStr.DisjointConcat(R0 + R1 + R2 + R3, R4, R5);
    EnumStr.Concat(R0 + R1 + R2 + R3 + R4, R5);
  }

  /** The row of each variant. */
  function Row(f: UserOptionField): (i: nat)
    ensures i < |Rows| && Rows[i].0 == f
  {
    match f
    case Verified => 0
    case Blacklisted => 1
    case Sex => 2
    case Birthdate => 3
    case City => 4
    case Country => 5
    case HomeTown => 6
    case Photo50 => 7
    case Photo100 => 8
    case Photo200Orig => 9
    case Photo200 => 10
    case Photo400Orig => 11
    case PhotoMax => 12
    case PhotoMaxOrig => 13
    case Online => 14
    case Lists => 15
    case Domain => 16
    case HasMobile => 17
    case Contacts => 18
    case Site => 19
    case Education => 20
    case Universities => 21
    case Schools => 22
    case Status => 23
    case LastSeen => 24
    case FollowersCount => 25
    case CommonCount => 26
    case Counters => 27
    case Occupation => 28
    case Nickname => 29
    case Relatives => 30
    case Relation => 31
    case Personal => 32
    case Connections => 33
    case Exports => 34
    case WallComments => 35
    case Activities => 36
    case Interests => 37
    case Music => 38
    case Movies => 39
    case TvShows => 40
    case Books => 41
    case Games => 42
    case About => 43
    case Quotes => 44
    case CanPost => 45
    case CanSeeAllPosts => 46
    case CanSeeAudio => 47
    case CanWritePrivateMessage => 48
    case Timezone => 49
    case ScreenName => 50
  }

  /** `as_ref` then `from_str` gives the field back; a text that parses is
      the text of the field it gives; a text of no row is rejected. */
  lemma RoundTrip(f: UserOptionField, s: string)
    ensures EnumStr.FromStr(Rows, EnumStr.AsRef(Rows, f)) == Ok(f)
    ensures EnumStr.FromStr(Rows, s).Ok? ==> EnumStr.AsRef(Rows, EnumStr.FromStr(Rows, s).value) == s
    ensures EnumStr.FromStr(Rows, s).Err? <==> forall i :: 0 <= i < |Rows| ==> Rows[i].1 != s
  {
    RowsWellFormed();
    var i := Row(f);
    EnumStr.FromStrAsRef(Rows, f);
    EnumStr.AsRefFromStr(Rows, s);
  }
}

=== FILE: users.dfy ===
/** The users endpoint (src/users.rs): its string tables, the integer
    codes of sex and relationship status, and the `users.get`,
    `users.search` and `users.report` requests. */
module Users {
  import opened Wrappers
  import Text
  import Json
  import EnumStr
  import Query
  import UserFields

  // ---------------------------------------------------------------------------
  // `enum_str!` tables
  // ---------------------------------------------------------------------------

  /** `NameCase`: the grammatical case names are returned in. */
  datatype NameCase = Nominative | Genetive | Dative | Accusative | Instrumental | Ablative

  const NameCases: EnumStr.Table<NameCase> := [
    (Nominative, "nom"),
    (Genetive, "gen"),
    (Dative, "dat"),
    (Accusative, "acc"),
    (Instrumental, "ins"),
    (Ablative, "abl")]

  lemma NameCasesDistinct()
    ensures EnumStr.DistinctTexts(NameCases)
    ensures EnumStr.DistinctVariants(NameCases)
  {
    assert EnumStr.DistinctTexts(NameCases);
  }

  function NameCaseRow(c: NameCase): (i: nat)
    ensures i < |NameCases| && NameCases[i].0 == c
  {
    match c
    case Nominative => 0
    case Genetive => 1
    case Dative => 2
    case Accusative => 3
    case Instrumental => 4
    case Ablative => 5
  }

  /** Every case's text parses back to it; a text that parses is the text of
      the case it gives; any other text is rejected. */
  lemma NameCaseRoundTrip(c: NameCase, s: string)
    ensures EnumStr.FromStr(NameCases, EnumStr.AsRef(NameCases, c)) == Ok(c)
    ensures EnumStr.FromStr(NameCases, s).Ok? ==>
      EnumStr.AsRef(NameCases, EnumStr.FromStr(NameCases, s).value) == s
    ensures EnumStr.FromStr(NameCases, s).Err? <==> forall i :: 0 <= i < |NameCases| ==> NameCases[i].1 != s
  {
    NameCasesDistinct();
    var i := NameCaseRow(c);
    EnumStr.FromStrAsRef(NameCases, c);
    EnumStr.AsRefFromStr(NameCases, s);
  }

  /** `ReportKind`: why a user is reported. */
  datatype ReportKind = Porn | Spam | Insult | Ads

  const ReportKinds: EnumStr.Table<ReportKind> := [
    (Porn, "porn"),
    (Spam, "spam"),
    (Insult, "insult"),
    (Ads, "advertisment")]

  lemma ReportKindsDistinct()
    ensures EnumStr.DistinctTexts(ReportKinds) && EnumStr.DistinctVariants(ReportKinds)
  {
  }

  function ReportKindRow(k: ReportKind): (i: nat)
    ensures i < |ReportKinds| && ReportKinds[i].0 == k
  {
    match k
    case Porn => 0
    case Spam => 1
    case Insult => 2
    case Ads => 3
  }

  /** `Ads` goes out spelled "advertisment". */
  lemma AdsSpelling()
    ensures EnumStr.AsRef(ReportKinds, Ads) == "advertisment"
  {
    ReportKindsDistinct();
    EnumStr.AsRefAt(ReportKinds, Ads, 3);
  }

  /** Every kind's text parses back to it, and any text outside the table
      is rejected. */
  lemma ReportKindRoundTrip(k: ReportKind, s: string)
    ensures EnumStr.FromStr(ReportKinds, EnumStr.AsRef(ReportKinds, k)) == Ok(k)
    ensures EnumStr.FromStr(ReportKinds, s).Ok? ==>
      EnumStr.AsRef(ReportKinds, EnumStr.FromStr(ReportKinds, s).value) == s
    ensures EnumStr.FromStr(ReportKinds, s).Err? <==> forall i :: 0 <= i < |ReportKinds| ==> ReportKinds[i].1 != s
  {
    ReportKindsDistinct();
    var i := ReportKindRow(k);
    EnumStr.FromStrAsRef(ReportKinds, k);
    EnumStr.AsRefFromStr(ReportKinds, s);
  }

  // ---------------------------------------------------------------------------
  // Integer-coded enums: `as_ref` gives the discriminant's digits
  // ---------------------------------------------------------------------------

  /** `Sex`, `#[repr(u8)]`. */
  datatype Sex = Any | Female | Male

  function SexCode(s: Sex): (r: nat)
    ensures r <= 2
  {
    match s
    case Any => 0
    case Female => 1
    case Male => 2
  }

  /** `AsRef<str> for Sex`. */
  function SexText(s: Sex): string {
    match s
    case Any => "0"
    case Female => "1"
    case Male => "2"
  }

  /** `Deserialize for Sex`: a `u8`, then 0, 1 or 2; any other byte is an
      invalid value. */
  function ReadSex(v: Json.Value): (r: Result<Sex, Json.DeError>)
    ensures Json.ReadU8(v).Err? ==> r == Err(Json.InvalidType("u8"))
    ensures r.Ok? <==> v.Int? && 0 <= v.n <= 2
    ensures r.Ok? ==> SexCode(r.value) == v.n
    ensures Json.ReadU8(v).Ok? && v.n > 2 ==>
      r == Err(Json.InvalidValue("integer value in range 0...2 expected"))
  {
    var n :- Json.ReadU8(v);
    match n
    case 0 => Ok(Any)
    case 1 => Ok(Female)
    case 2 => Ok(Male)
    case _ => Err(Json.InvalidValue("integer value in range 0...2 expected"))
  }

  /** The integer the API sends for a sex decodes to it, and its text is the
      decimal form of that integer. */
  lemma SexRoundTrip(s: Sex)
    ensures ReadSex(Json.Int(SexCode(s))) == Ok(s)
    ensures SexText(s) == Text.NatToString(SexCode(s))
  {
    assert Text.NatToString(0) == "0" && Text.NatToString(1) == "1" && Text.NatToString(2) == "2";
  }

  /** `Status`, `#[repr(u8)]`: relationship status. */
  datatype Status =
    | Unspecified
    | NotMarried
    | InRelationship
    | Engaged
    | Married
    | ItsComplicated
    | ActiveSearch
    | InLove

  function StatusCode(s: Status): (r: nat)
    ensures r <= 7
  {
    match s
    case Unspecified => 0
    case NotMarried => 1
    case InRelationship => 2
    case Engaged => 3
    case Married => 4
    case ItsComplicated => 5
    case ActiveSearch => 6
    case InLove => 7
  }

  /** `AsRef<str> for Status`. */
  function StatusText(s: Status): string {
    match s
    case Unspecified => "0"
    case NotMarried => "1"
    case InRelationship => "2"
    case Engaged => "3"
    case Married => "4"
    case ItsComplicated => "5"
    case ActiveSearch => "6"
    case InLove => "7"
  }

  /** `Deserialize for Status`: a `u8`, then 0 to 7; any other byte is an
      invalid value. */
  function ReadStatus(v: Json.Value): (r: Result<Status, Json.DeError>)
    ensures Json.ReadU8(v).Err? ==> r == Err(Json.InvalidType("u8"))
    ensures r.Ok? <==> v.Int? && 0 <= v.n <= 7
    ensures r.Ok? ==> StatusCode(r.value) == v.n
    ensures Json.ReadU8(v).Ok? && v.n > 7 ==>
      r == Err(Json.InvalidValue("integer value in range 0...7 expected"))
  {
    var n :- Json.ReadU8(v);
    match n
    case 0 => Ok(Unspecified)
    case 1 => Ok(NotMarried)
    case 2 => Ok(InRelationship)
    case 3 => Ok(Engaged)
    case 4 => Ok(Married)
    case 5 => Ok(ItsComplicated)
    case 6 => Ok(ActiveSearch)
    case 7 => Ok(InLove)
    case _ => Err(Json.InvalidValue("integer value in range 0...7 expected"))
  }

  /** The integer the API sends for a status decodes to it, and its text is
      the decimal form of that integer. */
  lemma StatusRoundTrip(s: Status)
    ensures ReadStatus(Json.Int(StatusCode(s))) == Ok(s)
    ensures StatusText(s) == Text.NatToString(StatusCode(s))
  {
    assert Text.NatToString(0) == "0" && Text.NatToString(1) == "1";
    assert Text.NatToString(2) == "2" && Text.NatToString(3) == "3";
    assert Text.NatToString(4) == "4" && Text.NatToString(5) == "5";
    assert Text.NatToString(6) == "6" && Text.NatToString(7) == "7";
  }

  /** `Radius` of `users.getNearby`, discriminants 1 to 4. */
  datatype Radius = R300 | R2400 | R18000 | R150000

  function RadiusCode(r: Radius): nat {
    match r
    case R300 => 1
    case R2400 => 2
    case R18000 => 3
    case R150000 => 4
  }

  /** `AsRef<str> for Radius`. */
  function RadiusText(r: Radius): string {
    match r
    case R300 => "1"
    case R2400 => "2"
    case R18000 => "3"
    case R150000 => "4"
  }

  /** A radius is sent as the decimal form of its discriminant, so distinct
      radii are sent differently. */
  lemma RadiusTextIsCode(r: Radius, q: Radius)
    ensures RadiusText(r) == Text.NatToString(RadiusCode(r))
    ensures RadiusText(r) == RadiusText(q) ==> r == q
  {
    assert Text.NatToString(1) == "1" && Text.NatToString(2) == "2";
    assert Text.NatToString(3) == "3" && Text.NatToString(4) == "4";
  }

  /** `users::Sort` of `users.search`. */
  datatype Sort = Rating | DateRegistered

  function SortCode(s: Sort): nat {
    match s
    case Rating => 0
    case DateRegistered => 1
  }

  /** `AsRef<str> for Sort`. */
  function SortText(s: Sort): string {
    match s
    case Rating => "0"
    case DateRegistered => "1"
  }

  /** A sort order is sent as the decimal form of its discriminant. */
  lemma SortTextIsCode(s: Sort)
    ensures SortText(s) == Text.NatToString(SortCode(s))
  {
    assert Text.NatToString(0) == "0" && Text.NatToString(1) == "1";
  }

  // ---------------------------------------------------------------------------
  // Requests
  // ---------------------------------------------------------------------------

  /** The texts of a list of profile fields. */
  function FieldTexts(fs: seq<UserFields.UserOptionField>): (r: seq<string>)
    ensures |r| == |fs|
  {
    seq(|fs|, i requires 0 <= i < |fs| => EnumStr.AsRef(UserFields.Rows, fs[i]))
  }

  /** Every profile field's text is a non-empty word without a comma. */
  lemma FieldTextsSafe(fs: seq<UserFields.UserOptionField>)
    ensures forall i :: 0 <= i < |fs| ==> FieldTexts(fs)[i] != "" && ',' !in FieldTexts(fs)[i]
  {
    var ts := FieldTexts(fs);
    UserFields.RowsWellFormed();
    forall i | 0 <= i < |ts| ensures ts[i] != "" && ',' !in ts[i] {
      var k := UserFields.Row(fs[i]);
      EnumStr.AsRefAt(UserFields.Rows, fs[i], k);
    }
  }

  /** A list of profile fields is sent comma-joined, and the server reads the
      same list back by splitting on commas. */
  lemma FieldListReadable(fs: seq<UserFields.UserOptionField>)
    ensures Query.Decode(Query.TextListKind, Query.Render(Query.Strs(FieldTexts(fs)))) == Some(Query.Strs(FieldTexts(fs)))
    ensures |fs| > 0 ==> Query.Render(Query.Strs(FieldTexts(fs))) != ""
  {
    var ts := FieldTexts(fs);
    FieldTextsSafe(fs);
    assert ts != [""] by {
      if |ts| == 1 {
        assert ts[0] != "";
      }
    }
    Query.DecodeRender(Query.Strs(ts));
  }

  /** `users.get`: `name_case` (sized), then `user_ids` and `fields`. */
  const Get: Query.Decl := Query.Decl("users.get", [("v", "5.44")], [], Query.Borrowing(
    [Query.Field("name_case", "name_case", Query.TextKind, Query.Given(Query.Str("nom")))],
    [Query.Field("user_ids", "user_ids", Query.NumberListKind, Query.Given(Query.Numbers([]))),
     Query.Field("fields", "fields", Query.TextListKind, Query.Given(Query.Strs([])))]))

  /** `users.get` sends `name_case`, then `user_ids`, then `fields`, each
      only when its written value is not empty, then `v=5.44`. */
  lemma GetQuery(rec: Query.Record)
    requires Query.Fits(Get, rec)
    ensures Query.Query(Get, rec) ==
      Query.Sent(("name_case", Query.Render(rec[0])))
      + Query.Sent(("user_ids", Query.Render(rec[1])))
      + Query.Sent(("fields", Query.Render(rec[2])))
      + [("v", "5.44")]
  {
    Query.Query3(Get, rec);
  }

  /** A default `users.get` asks for the nominative case of no one in particular. */
  lemma GetDefaultQuery()
    ensures Query.InitsTyped(Get)
    ensures Query.Query(Get, Query.New(Get)) == [("name_case", "nom"), ("v", "5.44")]
  {
    var rec := Query.New(Get);
    assert rec == [Query.Str("nom"), Query.Numbers([]), Query.Strs([])];
    GetQuery(rec);
  }

  // `users.search`: 25 sized fields, then 8 unsized ones. `sort`, `sex` and
  // `status` hold the texts of `Sort`, `Sex` and `Status`. The fields are
  // declared in runs that start blank or not, so that the default query can
  // be computed one run at a time.

  /** The sort order. */
  const SearchOrder: seq<Query.Field> := [
    Query.Field("sort", "sort", Query.TextKind, Query.Given(Query.Str("0")))]

  /** City, country and university: all optional. */
  const SearchPlaces: seq<Query.Field> := [
    Query.Field("city", "city", Query.MaybeNumberKind, Query.TypeDefault),
    Query.Field("country", "country", Query.MaybeNumberKind, Query.TypeDefault),
    Query.Field("university", "university", Query.MaybeNumberKind, Query.TypeDefault),
    Query.Field("university_country", "university_country", Query.MaybeNumberKind, Query.TypeDefault),
    Query.Field("university_faculty", "university_faculty", Query.MaybeNumberKind, Query.TypeDefault),
    Query.Field("university_chair", "university_chair", Query.MaybeNumberKind, Query.TypeDefault),
    Query.Field("university_year", "university_year", Query.MaybeNumberKind, Query.TypeDefault)]

  /** Sex and relationship status. */
  const SearchPerson: seq<Query.Field> := [
    Query.Field("sex", "sex", Query.TextKind, Query.Given(Query.Str("0"))),
    Query.Field("status", "status", Query.TextKind, Query.Given(Query.Str("0")))]

  /** Age range and birth date: all optional. */
  const SearchBirth: seq<Query.Field> := [
    Query.Field("age_from", "age_from", Query.MaybeNumberKind, Query.TypeDefault),
    Query.Field("age_to", "age_to", Query.MaybeNumberKind, Query.TypeDefault),
    Query.Field("birth_day", "birth_day", Query.MaybeNumberKind, Query.TypeDefault),
    Query.Field("birth_month", "birth_month", Query.MaybeNumberKind, Query.TypeDefault),
    Query.Field("birth_year", "birth_year", Query.MaybeNumberKind, Query.TypeDefault)]

  /** The two switches. */
  const SearchFlags: seq<Query.Field> := [
    Query.Field("online", "online", Query.FlagKind, Query.Given(Query.Flag(false))),
    Query.Field("has_photo", "has_photo", Query.FlagKind, Query.Given(Query.Flag(false)))]

  /** School and community: all optional. */
  const SearchSchools: seq<Query.Field> := [
    Query.Field("school", "school", Query.MaybeNumberKind, Query.TypeDefault),
    Query.Field("school_country", "school_country", Query.MaybeNumberKind, Query.TypeDefault),
    Query.Field("school_city", "school_city", Query.MaybeNumberKind, Query.TypeDefault),
    Query.Field("school_class", "school_class", Query.MaybeNumberKind, Query.TypeDefault),
    Query.Field("school_year", "school_year", Query.MaybeNumberKind, Query.TypeDefault),
    Query.Field("group_id", "group_id", Query.MaybeNumberKind, Query.TypeDefault)]

  /** Paging. */
  const SearchPage: seq<Query.Field> := [
    Query.Field("offset", "offset", Query.NumberKind, Query.Given(Query.Number(0))),
    Query.Field("count", "count", Query.NumberKind, Query.Given(Query.Number(100)))]

  /** The unsized fields: free texts and the profile fields to return. */
  const SearchTexts: seq<Query.Field> := [
    Query.Field("q", "q", Query.TextKind, Query.Given(Query.Str(""))),
    Query.Field("hometown", "hometown", Query.TextKind, Query.Given(Query.Str(""))),
    Query.Field("fields", "fields", Query.TextListKind, Query.Given(Query.Strs([]))),
    Query.Field("religion", "religion", Query.TextKind, Query.Given(Query.Str(""))),
    Query.Field("interests", "interests", Query.TextKind, Query.Given(Query.Str(""))),
    Query.Field("company", "company", Query.TextKind, Query.Given(Query.Str(""))),
    Query.Field("position", "position", Query.TextKind, Query.Given(Query.Str(""))),
    Query.Field("from_list", "from_list", Query.TextKind, Query.Given(Query.Str("")))]

  const SearchSized: seq<Query.Field> :=
    SearchOrder + SearchPlaces + SearchPerson + SearchBirth + SearchFlags + SearchSchools + SearchPage

  const Search: Query.Decl := Query.Decl("users.search", [("v", "5.44")], [],
    Query.Borrowing(SearchSized, SearchTexts))

  /** The defaults of `users.search` are the texts of `Sort::Rating`,
      `Sex::Any` and `Status::Unspecified`. */
  lemma SearchDefaultsAreEnums()
    ensures SearchOrder[0].init == Query.Given(Query.Str(SortText(Rating)))
    ensures SearchPerson[0].init == Query.Given(Query.Str(SexText(Any)))
    ensures SearchPerson[1].init == Query.Given(Query.Str(StatusText(Unspecified)))
  {
  }

  lemma SearchTyped()
    ensures Query.InitsTyped(Search)
  {
    var a := SearchOrder + SearchPlaces + SearchPerson;
    var b := SearchBirth + SearchFlags + SearchSchools + SearchPage;
    SearchHeadTyped();
    SearchTailTyped();
    Query.AllTypedAppend(a, b);
    assert SearchSized == a + b;
    Query.AllTypedAppend(SearchSized, SearchTexts);
  }

  lemma SearchHeadTyped()
    ensures Query.AllTyped(SearchOrder + SearchPlaces + SearchPerson)
  {
    Query.AllTypedAppend(SearchOrder, SearchPlaces);
    Query.AllTypedAppend(SearchOrder + SearchPlaces, SearchPerson);
  }

  lemma SearchTailTyped()
    ensures Query.AllTyped(SearchBirth + SearchFlags + SearchSchools + SearchPage)
  {
    Query.AllTypedAppend(SearchBirth, SearchFlags);
    Query.AllTypedAppend(SearchBirth + SearchFlags, SearchSchools);
    Query.AllTypedAppend(SearchBirth + SearchFlags + SearchSchools, SearchPage);
  }

  /** A default `users.search` sends exactly sort=0, sex=0, status=0,
      online=0, has_photo=0, offset=0 and count=100, then `v=5.44`: every
      optional and text field is left out. */
  lemma SearchDefaultQuery()
    ensures Query.InitsTyped(Search)
    ensures Query.Query(Search, Query.New(Search)) ==
      [("sort", "0"), ("sex", "0"), ("status", "0"), ("online", "0"),
       ("has_photo", "0"), ("offset", "0"), ("count", "100"), ("v", "5.44")]
  {
    SearchTyped();
    Query.NewQuery(Search);
    SearchDefaultsSent();
  }

  // Each lemma below adds one run to the fresh pairs of the runs before it.

  lemma SearchDefaultsSent()
    ensures Query.DefaultsSent(Query.Fields(Search)) ==
      [("sort", "0"), ("sex", "0"), ("status", "0"), ("online", "0"),
       ("has_photo", "0"), ("offset", "0"), ("count", "100")]
  {
    SearchSizedSent();
    SearchTextsQuiet();
    Query.DefaultsSentAppend(SearchSized, SearchTexts);
  }

  lemma SearchSizedSent()
    ensures Query.DefaultsSent(SearchSized) ==
      [("sort", "0"), ("sex", "0"), ("status", "0"), ("online", "0"),
       ("has_photo", "0"), ("offset", "0"), ("count", "100")]
  {
    var a := SearchOrder + SearchPlaces + SearchPerson + SearchBirth + SearchFlags + SearchSchools;
    SentUpToSchools();
    SearchPageSent();
    Query.DefaultsSentAppend(a, SearchPage);
  }

  lemma SearchPageSent()
    ensures Query.DefaultsSent(SearchPage) == [("offset", "0"), ("count", "100")]
  {
    assert Text.IntToString(100) == "100" by {
      assert Text.NatToString(10) == "10";
    }
  }

  lemma SentUpToSchools()
    ensures Query.DefaultsSent(SearchOrder + SearchPlaces + SearchPerson + SearchBirth + SearchFlags + SearchSchools) ==
      [("sort", "0"), ("sex", "0"), ("status", "0"), ("online", "0"), ("has_photo", "0")]
  {
    SentUpToFlags();
    SearchSchoolsQuiet();
    Query.DefaultsSentAppend(SearchOrder + SearchPlaces + SearchPerson + SearchBirth + SearchFlags, SearchSchools);
  }

  lemma SentUpToFlags()
    ensures Query.DefaultsSent(SearchOrder + SearchPlaces + SearchPerson + SearchBirth + SearchFlags) ==
      [("sort", "0"), ("sex", "0"), ("status", "0"), ("online", "0"), ("has_photo", "0")]
  {
    SentUpToBirth();
    SearchFlagsSent();
    Query.DefaultsSentAppend(SearchOrder + SearchPlaces + SearchPerson + SearchBirth, SearchFlags);
  }

  lemma SentUpToBirth()
    ensures Query.DefaultsSent(SearchOrder + SearchPlaces + SearchPerson + SearchBirth) ==
      [("sort", "0"), ("sex", "0"), ("status", "0")]
  {
    SentUpToPerson();
    SearchBirthQuiet();
    Query.DefaultsSentAppend(SearchOrder + SearchPlaces + SearchPerson, SearchBirth);
  }

  lemma SentUpToPerson()
    ensures Query.DefaultsSent(SearchOrder + SearchPlaces + SearchPerson) ==
      [("sort", "0"), ("sex", "0"), ("status", "0")]
  {
    SentUpToPlaces();
    SearchPersonSent();
    Query.DefaultsSentAppend(SearchOrder + SearchPlaces, SearchPerson);
  }

  lemma SentUpToPlaces()
    ensures Query.DefaultsSent(SearchOrder + SearchPlaces) == [("sort", "0")]
  {
    SearchOrderSent();
    SearchPlacesQuiet();
    Query.DefaultsSentAppend(SearchOrder, SearchPlaces);
  }

  // The fresh pairs of each run on its own.

  lemma SearchOrderSent()
    ensures Query.DefaultsSent(SearchOrder) == [("sort", "0")]
  {
  }

  lemma SearchPersonSent()
    ensures Query.DefaultsSent(SearchPerson) == [("sex", "0"), ("status", "0")]
  {
  }

  lemma SearchFlagsSent()
    ensures Query.DefaultsSent(SearchFlags) == [("online", "0"), ("has_photo", "0")]
  {
  }

  lemma SearchPlacesQuiet()
    ensures Query.DefaultsSent(SearchPlaces) == []
  {
    Query.QuietDefaults(SearchPlaces);
  }

  lemma SearchBirthQuiet()
    ensures Query.DefaultsSent(SearchBirth) == []
  {
    Query.QuietDefaults(SearchBirth);
  }

  lemma SearchSchoolsQuiet()
    ensures Query.DefaultsSent(SearchSchools) == []
  {
    Query.QuietDefaults(SearchSchools);
  }

  lemma SearchTextsQuiet()
    ensures Query.DefaultsSent(SearchTexts) == []
  {
    Query.QuietDefaults(SearchTexts);
  }

  /** `users.isAppUser`: one field, the user id. */
  const IsAppUser: Query.Decl := Query.Decl("users.isAppUser", [("v", "5.44")], [], Query.Owned(
    [Query.Field("user_id", "user_id", Query.NumberKind, Query.Given(Query.Number(0)))]))

  /** A default `users.isAppUser` asks about user 0. */
  lemma IsAppUserDefaultQuery()
    ensures Query.InitsTyped(IsAppUser)
    ensures Query.Query(IsAppUser, Query.New(IsAppUser)) == [("user_id", "0"), ("v", "5.44")]
  {
    Query.NewQuery(IsAppUser);
  }

  /** The sized fields of `users.getSubscriptions`. */
  const SubscriptionsPage: seq<Query.Field> :=
    [Query.Field("user_id", "user_id", Query.NumberKind, Query.Given(Query.Number(0))),
     Query.Field("offset", "offset", Query.NumberKind, Query.Given(Query.Number(0))),
     Query.Field("count", "count", Query.NumberKind, Query.Given(Query.Number(100)))]

  /** The unsized field of `users.getSubscriptions`. */
  const SubscriptionsFields: seq<Query.Field> :=
    [Query.Field("fields", "fields", Query.TextListKind, Query.Given(Query.Strs([])))]

  /** `users.getSubscriptions`: two constants, `v=5.44` then `extended=1`. */
  const GetSubscriptions: Query.Decl := Query.Decl("users.getSubscriptions", [("v", "5.44"), ("extended", "1")], [],
    Query.Borrowing(SubscriptionsPage, SubscriptionsFields))

  /** A default `users.getSubscriptions` sends the three numbers, then the
      constants in their declared order. */
  lemma GetSubscriptionsDefaultQuery()
    ensures Query.InitsTyped(GetSubscriptions)
    ensures Query.Query(GetSubscriptions, Query.New(GetSubscriptions)) ==
      [("user_id", "0"), ("offset", "0"), ("count", "100"), ("v", "5.44"), ("extended", "1")]
  {
    GetSubscriptionsTyped();
    Query.NewQuery(GetSubscriptions);
    GetSubscriptionsSent();
  }

  lemma GetSubscriptionsTyped()
    ensures Query.InitsTyped(GetSubscriptions)
  {
    Query.AllTypedAppend(SubscriptionsPage, SubscriptionsFields);
  }

  lemma GetSubscriptionsSent()
    ensures Query.DefaultsSent(Query.Fields(GetSubscriptions)) == [("user_id", "0"), ("offset", "0"), ("count", "100")]
  {
    SubscriptionsPageSent();
    SubscriptionsFieldsQuiet();
    Query.DefaultsSentAppend(SubscriptionsPage, SubscriptionsFields);
  }

  lemma SubscriptionsPageSent()
    ensures Query.DefaultsSent(SubscriptionsPage) == [("user_id", "0"), ("offset", "0"), ("count", "100")]
  {
    assert Text.IntToString(100) == "100" by {
      assert Text.NatToString(10) == "10";
    }
  }

  lemma SubscriptionsFieldsQuiet()
    ensures Query.DefaultsSent(SubscriptionsFields) == []
  {
    Query.QuietDefaults(SubscriptionsFields);
  }

  /** `users.report`: the field `kind` goes out under the wire name "type". */
  const Report: Query.Decl := Query.Decl("users.report", [("v", "5.44")], [], Query.Borrowing(
    [Query.Field("user_id", "user_id", Query.NumberKind, Query.Given(Query.Number(0))),
     Query.Field("kind", "type", Query.TextKind, Query.Given(Query.Str("spam")))],
    [Query.Field("comment", "comment", Query.TextKind, Query.Given(Query.Str("")))]))

  /** A report sends `user_id`, then the kind under the name `type`, then
      the comment, each unless its written value is empty, then `v=5.44`. */
  lemma ReportQuery(rec: Query.Record)
    requires Query.Fits(Report, rec)
    ensures Query.Query(Report, rec) ==
      Query.Sent(("user_id", Query.Render(rec[0])))
      + Query.Sent(("type", Query.Render(rec[1])))
      + Query.Sent(("comment", Query.Render(rec[2])))
      + [("v", "5.44")]
  {
    Query.Query3(Report, rec);
  }

  /** The user id of a report is always sent, as the first pair. */
  lemma ReportSendsUser(rec: Query.Record)
    requires Query.Fits(Report, rec)
    ensures Query.Query(Report, rec)[0] == ("user_id", Query.Render(rec[0]))
  {
    assert Query.KindOf(rec[0]) == Query.NumberKind by {
      assert Query.Fields(Report)[0].kind == Query.NumberKind;
    }
    var p := ("user_id", Query.Render(rec[0]));
    assert Query.Sent(p) == [p];
    ReportQuery(rec);
  }

  /** A default report is a spam report about user 0 without a comment. */
  lemma ReportDefaultQuery()
    ensures Query.InitsTyped(Report)
    ensures Query.Query(Report, Query.New(Report)) == [("user_id", "0"), ("type", "spam"), ("v", "5.44")]
  {
    var rec := Query.New(Report);
    assert rec == [Query.Number(0), Query.Str("spam"), Query.Str("")];
    ReportQuery(rec);
  }

  /** The default kind is the text of `ReportKind::Spam`. */
  lemma ReportDefaultKind()
    ensures Query.Fields(Report)[1].init == Query.Given(Query.Str(EnumStr.AsRef(ReportKinds, Spam)))
  {
    ReportKindsDistinct();
    EnumStr.AsRefAt(ReportKinds, Spam, 1);
  }
}

=== FILE: video.dfy ===
/** The video endpoint (src/video.rs): album privacy codes, the `enum_str!`
    tables of search filters and catalog kinds, and the requests whose
    encoding has something to say: `video.search`, `video.addAlbum`,
    `video.editAlbum`, `video.save` and `video.getUserVideos`. Of these,
    addAlbum, editAlbum, save and getUserVideos ask for the `video`
    permission; the catalog requests declare none. */
module Video {
  import opened Wrappers
  import Text
  import EnumStr
  import Query
  import Scopes

  // ---------------------------------------------------------------------------
  // `Privacy`: discriminants 0 to 3, sent as their digits
  // ---------------------------------------------------------------------------

  /** `Privacy` of a video album. */
  datatype Privacy = All | Friends | FriendsOfFriends | OnlyMe

  function PrivacyCode(p: Privacy): nat {
    match p
    case All => 0
    case Friends => 1
    case FriendsOfFriends => 2
    case OnlyMe => 3
  }

  /** `AsRef<str> for Privacy`. */
  function PrivacyText(p: Privacy): string {
    match p
    case All => "0"
    case Friends => "1"
    case FriendsOfFriends => "2"
    case OnlyMe => "3"
  }

  /** A privacy level is sent as the decimal form of its discriminant, so
      distinct levels are sent differently, and never as an empty text. */
  lemma PrivacyTextIsCode(p: Privacy, q: Privacy)
    ensures PrivacyText(p) == Text.NatToString(PrivacyCode(p))
    ensures PrivacyText(p) == PrivacyText(q) ==> p == q
    ensures PrivacyText(p) != ""
  {
    assert Text.NatToString(0) == "0" && Text.NatToString(1) == "1";
    assert Text.NatToString(2) == "2" && Text.NatToString(3) == "3";
  }

  // ---------------------------------------------------------------------------
  // `enum_str!` tables
  // ---------------------------------------------------------------------------

  /** `Filter` of `video.search`. */
  datatype Filter = YouTube | Vimeo | Short | Long

  const Filters: EnumStr.Table<Filter> := [
    (YouTube, "youtube"),
    (Vimeo, "vimeo"),
    (Short, "short"),
    (Long, "long")]

  lemma FiltersDistinct()
    ensures EnumStr.DistinctTexts(Filters)
    ensures EnumStr.DistinctVariants(Filters)
  {
  }

  function FilterRow(f: Filter): (i: nat)
    ensures i < |Filters| && Filters[i].0 == f
  {
    match f
    case YouTube => 0
    case Vimeo => 1
    case Short => 2
    case Long => 3
  }

  /** Every filter's text parses back to it; a text that parses is the text
      of the filter it gives; any other text is rejected. */
  lemma FilterRoundTrip(f: Filter, s: string)
    ensures EnumStr.FromStr(Filters, EnumStr.AsRef(Filters, f)) == Ok(f)
    ensures EnumStr.FromStr(Filters, s).Ok? ==>
      EnumStr.AsRef(Filters, EnumStr.FromStr(Filters, s).value) == s
    ensures EnumStr.FromStr(Filters, s).Err? <==> forall i :: 0 <= i < |Filters| ==> Filters[i].1 != s
  {
    FiltersDistinct();
    var i := FilterRow(f);
    EnumStr.FromStrAsRef(Filters, f);
    EnumStr.AsRefFromStr(Filters, s);
  }

  /** `CatalogBlockKind`, the `type` of a catalog block. */
  datatype CatalogBlockKind = Channel | Category

  const CatalogBlockKinds: EnumStr.Table<CatalogBlockKind> := [
    (Channel, "channel"),
    (Category, "category")]

  /** Both block kinds round-trip through their texts, and the block's
      `type` member is read through the same table. */
  lemma CatalogBlockKindRoundTrip(k: CatalogBlockKind, s: string)
    ensures EnumStr.FromStr(CatalogBlockKinds, EnumStr.AsRef(CatalogBlockKinds, k)) == Ok(k)
    ensures EnumStr.FromStr(CatalogBlockKinds, s).Ok? ==>
      EnumStr.AsRef(CatalogBlockKinds, EnumStr.FromStr(CatalogBlockKinds, s).value) == s
    ensures EnumStr.Deserialize(CatalogBlockKinds, s).Err? <==>
      forall i :: 0 <= i < |CatalogBlockKinds| ==> CatalogBlockKinds[i].1 != s
  {
    assert CatalogBlockKinds[if k == Channel then 0 else 1].0 == k;
    EnumStr.FromStrAsRef(CatalogBlockKinds, k);
    EnumStr.AsRefFromStr(CatalogBlockKinds, s);
  }

  /** `CatalogItemKind`, the `type` of a catalog item. */
  datatype CatalogItemKind = VideoItem | AlbumItem

  const CatalogItemKinds: EnumStr.Table<CatalogItemKind> := [
    (VideoItem, "video"),
    (AlbumItem, "album")]

  /** Both item kinds round-trip through their texts, and the item's `type`
      member is read through the same table. */
  lemma CatalogItemKindRoundTrip(k: CatalogItemKind, s: string)
    ensures EnumStr.FromStr(CatalogItemKinds, EnumStr.AsRef(CatalogItemKinds, k)) == Ok(k)
    ensures EnumStr.FromStr(CatalogItemKinds, s).Ok? ==>
      EnumStr.AsRef(CatalogItemKinds, EnumStr.FromStr(CatalogItemKinds, s).value) == s
    ensures EnumStr.Deserialize(CatalogItemKinds, s).Err? <==>
      forall i :: 0 <= i < |CatalogItemKinds| ==> CatalogItemKinds[i].1 != s
  {
    assert CatalogItemKinds[if k == VideoItem then 0 else 1].0 == k;
    EnumStr.FromStrAsRef(CatalogItemKinds, k);
    EnumStr.AsRefFromStr(CatalogItemKinds, s);
  }

  // ---------------------------------------------------------------------------
  // `video.search`
  // ---------------------------------------------------------------------------

  /** The texts of a list of filters, as `{AsRef<Vec>}` collects them. */
  function FilterTexts(fs: seq<Filter>): (r: seq<string>)
    ensures |r| == |fs|
  {
    seq(|fs|, i requires 0 <= i < |fs| => EnumStr.AsRef(Filters, fs[i]))
  }

  /** No filter gives a blank `filters` value. */
  lemma NoFiltersBlank()
    ensures Query.Blank(Query.Strs(FilterTexts([])))
  {
    assert FilterTexts([]) == [];
  }

  /** The `filters` value is the filter names joined with commas: YouTube and
      Long give "youtube,long". */
  lemma FilterTextsJoined()
    ensures Query.Render(Query.Strs(FilterTexts([YouTube, Long]))) == "youtube,long"
  {
    var ts := FilterTexts([YouTube, Long]);
    YouTubeLongTexts();
    Text.JoinPair("youtube", "long", ',');
    assert Query.Render(Query.Strs(ts)) == Text.Join(ts, ',');
  }

  lemma YouTubeLongTexts()
    ensures FilterTexts([YouTube, Long]) == ["youtube", "long"]
  {
    FiltersDistinct();
    EnumStr.AsRefAt(Filters, YouTube, 0);
    EnumStr.AsRefAt(Filters, Long, 3);
  }

  /** A filter's name is not empty and holds no comma. */
  lemma FilterTextSafe(f: Filter)
    ensures EnumStr.AsRef(Filters, f) != "" && ',' !in EnumStr.AsRef(Filters, f)
  {
    FiltersDistinct();
    EnumStr.AsRefAt(Filters, f, FilterRow(f));
  }

  /** Any list of filters is sent in a form the server splits back into the
      same names. */
  lemma FilterListReadable(fs: seq<Filter>)
    ensures Query.Decode(Query.TextListKind, Query.Render(Query.Strs(FilterTexts(fs)))) == Some(Query.Strs(FilterTexts(fs)))
  {
    var ts := FilterTexts(fs);
    FiltersDistinct();
    forall i | 0 <= i < |ts| ensures ts[i] != "" && ',' !in ts[i] {
      FilterTextSafe(fs[i]);
    }
    assert ts != [""] by {
      if |ts| == 1 {
        assert ts[0] != "";
      }
    }
    Query.DecodeRender(Query.Strs(ts));
  }

  /** `sort` starts at the text of `api::Sort::Popularity`, given here as
      `popularity`. */
  function SortField(popularity: string): Query.Field {
    Query.Field("sort", "sort", Query.TextKind, Query.Given(Query.Str(popularity)))
  }

  const SearchSwitches: seq<Query.Field> := [
    Query.Field("hd", "hd", Query.FlagKind, Query.TypeDefault),
    Query.Field("adult", "adult", Query.FlagKind, Query.TypeDefault),
    Query.Field("search_own", "search_own", Query.FlagKind, Query.TypeDefault)]

  const SearchLengths: seq<Query.Field> := [
    Query.Field("longer", "longer", Query.MaybeNumberKind, Query.TypeDefault),
    Query.Field("shorter", "shorter", Query.MaybeNumberKind, Query.TypeDefault)]

  const SearchPage: seq<Query.Field> := [
    Query.Field("offset", "offset", Query.NumberKind, Query.Given(Query.Number(0))),
    Query.Field("count", "count", Query.NumberKind, Query.Given(Query.Number(30)))]

  const SearchUnsized: seq<Query.Field> := [
    Query.Field("filters", "filters", Query.TextListKind, Query.Given(Query.Strs([]))),
    Query.Field("q", "q", Query.TextKind, Query.Given(Query.Str("")))]

  /** `video.search`. */
  function Search(popularity: string): Query.Decl {
    Query.Decl("video.search", [("v", "5.44")], [Scopes.Video],
      Query.Borrowing([SortField(popularity)] + SearchSwitches + SearchLengths + SearchPage, SearchUnsized))
  }

  /** Every field of `video.search` starts with a value of its kind. */
  lemma SearchTyped(popularity: string)
    ensures Query.InitsTyped(Search(popularity))
  {
    var head := [SortField(popularity)] + SearchSwitches;
    Query.AllTypedAppend([SortField(popularity)], SearchSwitches);
    SearchTailTyped();
    Query.AllTypedAppend(head, SearchLengths + SearchPage + SearchUnsized);
    assert Query.Fields(Search(popularity)) == head + (SearchLengths + SearchPage + SearchUnsized);
  }

  lemma SearchTailTyped()
    ensures Query.AllTyped(SearchLengths + SearchPage + SearchUnsized)
  {
    Query.AllTypedAppend(SearchLengths, SearchPage);
    Query.AllTypedAppend(SearchLengths + SearchPage, SearchUnsized);
  }

  /** `filters` is the ninth field of `video.search`, and no other field
      or constant shares its name. */
  lemma SearchFiltersAt(popularity: string)
    ensures |Query.Fields(Search(popularity))| == 10 && Query.Fields(Search(popularity))[8].wire == "filters"
    ensures forall j :: 0 <= j < 10 && j != 8 ==> Query.Fields(Search(popularity))[j].wire != "filters"
  {
  }

  /** A non-empty list of filters is sent under `filters`, comma-joined. */
  lemma SearchFiltersSent(popularity: string, rec: Query.Record, fs: seq<Filter>)
    requires Query.Fits(Search(popularity), rec) && rec[8] == Query.Strs(FilterTexts(fs)) && |fs| > 0
    ensures ("filters", Text.Join(FilterTexts(fs), ',')) in Query.Query(Search(popularity), rec)
  {
    var d := Search(popularity);
    assert Query.Fields(d)[8].wire == "filters" by {
      SearchFiltersAt(popularity);
    }
    assert !Query.Blank(rec[8]) by {
      FilterNonEmpty(fs);
    }
    Query.FieldSentIff(d, rec, 8);
  }

  /** An empty list of filters leaves no `filters` pair at all. */
  lemma SearchFiltersDropped(popularity: string, rec: Query.Record)
    requires Query.Fits(Search(popularity), rec) && rec[8] == Query.Strs(FilterTexts([]))
    ensures forall p :: p in Query.Query(Search(popularity), rec) ==> p.0 != "filters"
  {
    SearchFiltersAt(popularity);
    Query.BlankNotSent(Search(popularity), rec, 8);
  }

  /** A non-empty list of filters is never written as the empty text. */
  lemma FilterNonEmpty(fs: seq<Filter>)
    requires |fs| > 0
    ensures !Query.Blank(Query.Strs(FilterTexts(fs)))
  {
    FiltersDistinct();
    EnumStr.AsRefAt(Filters, fs[0], FilterRow(fs[0]));
    assert FilterTexts(fs)[0] != "";
  }

  /** A default search sends the sort order unless its text is empty, the
      three switches as 0, offset=0 and count=30, then `v=5.44`. */
  lemma SearchDefaultQuery(popularity: string)
    ensures Query.InitsTyped(Search(popularity))
    ensures Query.Query(Search(popularity), Query.New(Search(popularity))) ==
      Query.Sent(("sort", popularity))
      + [("hd", "0"), ("adult", "0"), ("search_own", "0"), ("offset", "0"), ("count", "30")]
      + [("v", "5.44")]
  {
    var d := Search(popularity);
    SearchTyped(popularity);
    SearchSent(popularity);
    SearchConsts(popularity);
    Query.DefaultQueryIs(d, Query.DefaultsSent(Query.Fields(d)));
  }

  lemma SearchConsts(popularity: string)
    ensures Search(popularity).consts == [("v", "5.44")]
    ensures Query.ConstsPresent(Search(popularity))
  {
  }

  // Each lemma below adds one run of fields to the fresh pairs before it.

  lemma SearchSent(popularity: string)
    ensures Query.DefaultsSent(Query.Fields(Search(popularity))) ==
      Query.Sent(("sort", popularity))
      + [("hd", "0"), ("adult", "0"), ("search_own", "0"), ("offset", "0"), ("count", "30")]
  {
    var head := [SortField(popularity)] + SearchSwitches;
    assert Query.Fields(Search(popularity)) == head + (SearchLengths + SearchPage + SearchUnsized);
    SearchHeadSent(popularity);
    SearchTailSent();
    Query.DefaultsSentAppend(head, SearchLengths + SearchPage + SearchUnsized);
  }

  lemma SearchHeadSent(popularity: string)
    ensures Query.DefaultsSent([SortField(popularity)] + SearchSwitches) ==
      Query.Sent(("sort", popularity)) + [("hd", "0"), ("adult", "0"), ("search_own", "0")]
  {
    assert Query.DefaultsSent([SortField(popularity)]) == Query.Sent(("sort", popularity));
    SearchSwitchesSent();
    Query.DefaultsSentAppend([SortField(popularity)], SearchSwitches);
  }

  lemma SearchSwitchesSent()
    ensures Query.DefaultsSent(SearchSwitches) == [("hd", "0"), ("adult", "0"), ("search_own", "0")]
  {
  }

  lemma SearchTailSent()
    ensures Query.DefaultsSent(SearchLengths + SearchPage + SearchUnsized) == [("offset", "0"), ("count", "30")]
  {
    SearchMiddleSent();
    SearchUnsizedQuiet();
    Query.DefaultsSentAppend(SearchLengths + SearchPage, SearchUnsized);
  }

  lemma SearchMiddleSent()
    ensures Query.DefaultsSent(SearchLengths + SearchPage) == [("offset", "0"), ("count", "30")]
  {
    SearchLengthsQuiet();
    SearchPageSent();
    Query.DefaultsSentAppend(SearchLengths, SearchPage);
  }

  lemma SearchLengthsQuiet()
    ensures Query.DefaultsSent(SearchLengths) == []
  {
    Query.QuietDefaults(SearchLengths);
  }

  lemma SearchUnsizedQuiet()
    ensures Query.DefaultsSent(SearchUnsized) == []
  {
    Query.QuietDefaults(SearchUnsized);
  }

  lemma SearchPageSent()
    ensures Query.DefaultsSent(SearchPage) == [("offset", "0"), ("count", "30")]
  {
    assert Text.IntToString(30) == "30" by {
      assert Text.NatToString(30) == Text.NatToString(3) + "0";
    }
  }

  // ---------------------------------------------------------------------------
  // Albums
  // ---------------------------------------------------------------------------

  /** `video.addAlbum`: privacy starts at `OnlyMe`. */
  const AddAlbum: Query.Decl := Query.Decl("video.addAlbum", [("v", "5.44")], [Scopes.Video], Query.Borrowing(
    [Query.Field("group_id", "group_id", Query.MaybeNumberKind, Query.TypeDefault),
     Query.Field("privacy", "privacy", Query.TextKind, Query.Given(Query.Str("3")))],
    [Query.Field("title", "title", Query.TextKind, Query.Given(Query.Str("")))]))

  /** `video.addAlbum` sends the group, the privacy and the title, each
      unless empty, then `v=5.44`. */
  lemma AddAlbumQuery(rec: Query.Record)
    requires Query.Fits(AddAlbum, rec)
    ensures Query.Query(AddAlbum, rec) ==
      Query.Sent(("group_id", Query.Render(rec[0])))
      + Query.Sent(("privacy", Query.Render(rec[1])))
      + Query.Sent(("title", Query.Render(rec[2])))
      + [("v", "5.44")]
  {
    Query.Query3(AddAlbum, rec);
  }

  /** The privacy of an album is always sent: any level put there has a
      non-empty text. */
  lemma AddAlbumPrivacySent(rec: Query.Record, p: Privacy)
    requires Query.Fits(AddAlbum, rec) && rec[1] == Query.Str(PrivacyText(p))
    ensures ("privacy", PrivacyText(p)) in Query.Query(AddAlbum, rec)
  {
    PrivacyTextIsCode(p, p);
    var q := ("privacy", PrivacyText(p));
    assert Query.Sent(q) == [q];
    AddAlbumQuery(rec);
  }

  /** The privacy a new album starts with is the text of `OnlyMe`. */
  lemma AddAlbumStartsOnlyMe()
    ensures Query.Fields(AddAlbum)[1].init == Query.Given(Query.Str(PrivacyText(OnlyMe)))
  {
  }

  /** A default `video.addAlbum` sends privacy=3 and nothing else but `v`. */
  lemma AddAlbumDefaultQuery()
    ensures Query.InitsTyped(AddAlbum)
    ensures Query.Query(AddAlbum, Query.New(AddAlbum)) == [("privacy", "3"), ("v", "5.44")]
  {
    var rec := Query.New(AddAlbum);
    assert rec == [Query.MaybeNumber(None), Query.Str("3"), Query.Str("")];
    AddAlbumQuery(rec);
  }

  /** `video.editAlbum`: privacy is optional. */
  const EditAlbumSized: seq<Query.Field> := [
    Query.Field("group_id", "group_id", Query.MaybeNumberKind, Query.TypeDefault),
    Query.Field("album_id", "album_id", Query.NumberKind, Query.TypeDefault),
    Query.Field("privacy", "privacy", Query.MaybeTextKind, Query.TypeDefault)]

  const EditAlbumUnsized: seq<Query.Field> := [
    Query.Field("title", "title", Query.TextKind, Query.Given(Query.Str("")))]

  const EditAlbum: Query.Decl := Query.Decl("video.editAlbum", [("v", "5.44")], [Scopes.Video],
    Query.Borrowing(EditAlbumSized, EditAlbumUnsized))

  /** An album edit sends `privacy` exactly when one is given: `None` leaves
      no `privacy` pair, `Some(p)` sends the text of `p`. */
  lemma EditAlbumPrivacy(rec: Query.Record, p: Privacy)
    requires Query.Fits(EditAlbum, rec)
    ensures rec[2] == Query.MaybeStr(None) ==>
      forall q :: q in Query.Query(EditAlbum, rec) ==> q.0 != "privacy"
    ensures rec[2] == Query.MaybeStr(Some(PrivacyText(p))) ==>
      ("privacy", PrivacyText(p)) in Query.Query(EditAlbum, rec)
  {
    PrivacyTextIsCode(p, p);
    Query.FieldSentIff(EditAlbum, rec, 2);
    if rec[2] == Query.MaybeStr(None) {
      Query.BlankNotSent(EditAlbum, rec, 2);
    }
  }

  /** A default album edit sends only album_id=0 and `v`. */
  lemma EditAlbumDefaultQuery()
    ensures Query.InitsTyped(EditAlbum)
    ensures Query.Query(EditAlbum, Query.New(EditAlbum)) == [("album_id", "0"), ("v", "5.44")]
  {
    Query.AllTypedAppend(EditAlbumSized, EditAlbumUnsized);
    Query.NewQuery(EditAlbum);
    EditAlbumSent();
  }

  lemma EditAlbumSent()
    ensures Query.DefaultsSent(Query.Fields(EditAlbum)) == [("album_id", "0")]
  {
    EditAlbumSizedSent();
    EditAlbumUnsizedQuiet();
    Query.DefaultsSentAppend(EditAlbumSized, EditAlbumUnsized);
  }

  lemma EditAlbumSizedSent()
    ensures Query.DefaultsSent(EditAlbumSized) == [("album_id", "0")]
  {
  }

  lemma EditAlbumUnsizedQuiet()
    ensures Query.DefaultsSent(EditAlbumUnsized) == []
  {
    Query.QuietDefaults(EditAlbumUnsized);
  }

  // ---------------------------------------------------------------------------
  // `video.save` and `video.getUserVideos`
  // ---------------------------------------------------------------------------

  const SaveSized: seq<Query.Field> := [
    Query.Field("is_private", "is_private", Query.FlagKind, Query.Given(Query.Flag(true))),
    Query.Field("wallpost", "wallpost", Query.FlagKind, Query.TypeDefault),
    Query.Field("group_id", "group_id", Query.NumberKind, Query.TypeDefault),
    Query.Field("album_id", "album_id", Query.NumberKind, Query.TypeDefault),
    Query.Field("no_comments", "no_comments", Query.FlagKind, Query.TypeDefault),
    Query.Field("repeat", "repeat", Query.FlagKind, Query.TypeDefault)]

  const SaveUnsized: seq<Query.Field> := [
    Query.Field("name", "name", Query.TextKind, Query.Given(Query.Str(""))),
    Query.Field("description", "description", Query.TextKind, Query.Given(Query.Str(""))),
    Query.Field("link", "link", Query.TextKind, Query.Given(Query.Str(""))),
    Query.Field("privacy_view", "privacy_view", Query.TextKind, Query.Given(Query.Str(""))),
    Query.Field("privacy_comment", "privacy_comment", Query.TextKind, Query.Given(Query.Str("")))]

  /** `video.save`: a new upload is private unless told otherwise. */
  const Save: Query.Decl := Query.Decl("video.save", [("v", "5.44")], [Scopes.Video],
    Query.Borrowing(SaveSized, SaveUnsized))

  /** A default `video.save` sends is_private=1, the other switches and ids
      as 0, no texts, then `v=5.44`. */
  lemma SaveDefaultQuery()
    ensures Query.InitsTyped(Save)
    ensures Query.Query(Save, Query.New(Save)) ==
      [("is_private", "1"), ("wallpost", "0"), ("group_id", "0"), ("album_id", "0"),
       ("no_comments", "0"), ("repeat", "0"), ("v", "5.44")]
  {
    Query.AllTypedAppend(SaveSized, SaveUnsized);
    Query.NewQuery(Save);
    SaveSent();
  }

  lemma SaveSent()
    ensures Query.DefaultsSent(Query.Fields(Save)) ==
      [("is_private", "1"), ("wallpost", "0"), ("group_id", "0"), ("album_id", "0"),
       ("no_comments", "0"), ("repeat", "0")]
  {
    SaveSizedSent();
    SaveUnsizedQuiet();
    Query.DefaultsSentAppend(SaveSized, SaveUnsized);
  }

  lemma SaveSizedSent()
    ensures Query.DefaultsSent(SaveSized) ==
      [("is_private", "1"), ("wallpost", "0"), ("group_id", "0"), ("album_id", "0"),
       ("no_comments", "0"), ("repeat", "0")]
  {
  }

  lemma SaveUnsizedQuiet()
    ensures Query.DefaultsSent(SaveUnsized) == []
  {
    Query.QuietDefaults(SaveUnsized);
  }

  /** `video.getUserVideos`: two constants, `v=5.44` then `extended=0`. */
  const GetUserVideos: Query.Decl := Query.Decl("video.getUserVideos", [("v", "5.44"), ("extended", "0")],
    [Scopes.Video], Query.Owned(
    [Query.Field("user_id", "user_id", Query.MaybeNumberKind, Query.TypeDefault),
     Query.Field("offset", "offset", Query.NumberKind, Query.Given(Query.Number(0))),
     Query.Field("count", "count", Query.NumberKind, Query.Given(Query.Number(30)))]))

  /** Whatever the fields hold, the query ends with v=5.44 then extended=0,
      after the user (when given), the offset and the count. */
  lemma GetUserVideosQuery(rec: Query.Record)
    requires Query.Fits(GetUserVideos, rec)
    ensures Query.Query(GetUserVideos, rec) ==
      Query.Sent(("user_id", Query.Render(rec[0])))
      + [("offset", Query.Render(rec[1])), ("count", Query.Render(rec[2]))]
      + [("v", "5.44"), ("extended", "0")]
  {
    GetUserVideosPage(rec);
    Query.AlwaysSent("offset", rec[1]);
    Query.AlwaysSent("count", rec[2]);
    Query.Query3(GetUserVideos, rec);
  }

  /** The offset and the count of `video.getUserVideos` are plain numbers. */
  lemma GetUserVideosPage(rec: Query.Record)
    requires Query.Fits(GetUserVideos, rec)
    ensures rec[1].Number? && rec[2].Number?
  {
    assert Query.Fields(GetUserVideos)[1].kind == Query.NumberKind;
    assert Query.Fields(GetUserVideos)[2].kind == Query.NumberKind;
  }

  /** `video.addAlbum`, `video.editAlbum`, `video.save` and
      `video.getUserVideos` ask for exactly the `video` permission. */
  lemma VideoPermissions(d: Query.Decl)
    requires d in {AddAlbum, EditAlbum, Save, GetUserVideos}
    ensures forall p :: Scopes.Has(Query.RequestPermissions(d), p) <==> p == Scopes.Video
  {
  }
}

=== FILE: wrappers.dfy ===
/** Failure-carrying datatypes shared by every module of the model:
    `Option` stands for Rust's `Option<T>`, `Result` for `Result<T, E>`. */
module Wrappers {

  datatype Option<+T> = None | Some(value: T) {

    /** The wrapped value, or `default` when there is none (`unwrap_or`). */
    function GetOr(default: T): T {
      match this
      case Some(v) => v
      case None => default
    }
  }

  datatype Result<+T, +E> = Ok(value: T) | Err(error: E) {

    /** Early return with `:-`, Rust's `?` / `try!`. */
    predicate IsFailure() {
      Err?
    }

    function PropagateFailure<U>(): Result<U, E>
      requires Err?
    {
      Err(error)
    }

    function Extract(): T
      requires Ok?
    {
      value
    }
  }

  /** The unit error type of `FromStr` impls whose `Err = ()`. */
  datatype Unit = Unit
}
